=== FILE: README.md ===
# Castle DynamicProxy: the decision layer of proxy generation, in Dafny

Castle DynamicProxy builds proxy types at run time with Reflection.Emit.
This project models the decisions taken before any IL is written:

- **Interface ownership.** Each interface of a proxy gets exactly one
  implementer: the target, the mixins, the additional-interface contributor,
  or the proxy infrastructure.
- **Open or closed proxies.** A proxy for a closed generic type is either
  generated over its generic definition and closed again afterwards, or
  generated for the closed type.
- **Generic parameters.** They are copied from a type or method onto a type
  under construction, and their constraints are rewritten
  (`GenericUtil`, `AbstractTypeEmitter`, `ClassEmitter`).
- **Method generators.** Each type contributor chooses, member by member, to
  skip it, stub it, forward it, or intercept it through an invocation class.
  The choice fixes the kind of invocation class: inheritance, composition or
  change-target.
- **Get-or-create caching.** Invocation classes and delegate types are looked
  up and registered in the module scope's type cache.
- **Bodies as statements.** The statements of
  `InvocationTypeGenerator.ImplementInvokeMethodOnTarget` and of
  `MethodWithInvocationGenerator.BuildProxiedMethodBody` are modelled as
  sequences of abstract statements.
- **`CollectionExtensions`.** The small helpers the rest uses.

Types are an algebraic datatype (`ClrTypes.Ty`): plain types, generic
definitions, constructed types, generic parameters (declared on a type or on
a method), type builders, arrays and by-ref types.

An emitter is an immutable record. It holds:

- its parent;
- its fields;
- its constructors;
- its table from generic-parameter names to builders;
- its generic type parameters.

Every operation that can throw returns a `Wrappers.Result` whose fault names
the .NET exception.

The modules are `Wrappers`, `Collections`, `ClrTypes`, `Naming`,
`GenericUtil`, `TypeEmitter`, `ClassEmitter`, `Statements`, `TypeCache`,
`InvocationTypes`, `DelegateTypes`, `MethodWithInvocation`, `Contributors`
and `ProxyGenerators`. They follow the source's files.

Conventions:

- A .NET `Dictionary` is enumerated in insertion order, since the code never
  removes from the dictionaries it enumerates.
- `Trace.Assert` and `Debug.Assert` do not stop execution. The code after a
  failed assert is modelled as it runs.
- `null` arrays are `Option<seq<T>>`. The array helpers of `CollectionExtensions`
  refuse a `null` array with an argument-null error, as the `System.Array`
  methods they call do.

## Model

| member | source | states |
|---|---|---|
| Collections.Exists | src/Castle.Core/Core/Internal/CollectionExtensions.cs:30-42 | true exactly when some element of a present array satisfies the predicate |
| Collections.Any | src/Castle.Core/Core/Internal/CollectionExtensions.cs:30-42 | a `null` array is refused with an argument-null error; otherwise true exactly when some element satisfies the predicate |
| Collections.None | src/Castle.Core/Core/Internal/CollectionExtensions.cs:113-130 | a `null` array is refused with an argument-null error, as `Any` refuses it; otherwise true exactly when no element satisfies the predicate, the negation of `Any` |
| Collections.ConcatAll | src/Castle.Core/Core/Internal/CollectionExtensions.cs:44-56 | the loop yields the concatenation of all arrays in order, a `null` array contributing nothing |
| Collections.FlattenAppend | src/Castle.Core/Core/Internal/CollectionExtensions.cs:44-56 | concatenating two lists of arrays concatenates their results |
| Collections.FlattenMembership | src/Castle.Core/Core/Internal/CollectionExtensions.cs:44-56 | an element is in the result exactly when it is in one of the non-null arrays |
| Collections.NullArrayContributesNothing | src/Castle.Core/Core/Internal/CollectionExtensions.cs:48-51 | inserting a `null` array anywhere leaves the result unchanged |
| Collections.Filter | src/Castle.Core/Core/Internal/CollectionExtensions.cs:81-88 | on a present array, the result holds only matching elements of the input, and every matching element appears in it |
| Collections.FilterPreservesOrder | src/Castle.Core/Core/Internal/CollectionExtensions.cs:81-88 | the result is a subsequence of the input: input order is kept |
| Collections.FilterAppend | src/Castle.Core/Core/Internal/CollectionExtensions.cs:81-88 | filtering distributes over concatenation |
| Collections.FilterCons | src/Castle.Core/Core/Internal/CollectionExtensions.cs:81-88 | filtering an array with a known first element keeps that element exactly when it matches, followed by the filtered rest |
| Collections.FindAll | src/Castle.Core/Core/Internal/CollectionExtensions.cs:81-88 | a `null` array is refused with an argument-null error; otherwise the result holds only matching elements of the input, in order, and every matching element appears in it |
| Collections.SplitPartitionsElements | src/Castle.Core/Core/Internal/CollectionExtensions.cs:139-156 | counted with multiplicity, the matching and non-matching elements are exactly the input's |
| Collections.SplitPartitions | src/Castle.Core/Core/Internal/CollectionExtensions.cs:139-156 | the matching and non-matching parts together are a permutation of the input |
| Collections.Split | src/Castle.Core/Core/Internal/CollectionExtensions.cs:139-156 | the loop puts each element in exactly one of two lists by the condition, in order, and the two lists together are a permutation of the input |
| Collections.First | src/Castle.Core/Core/Internal/CollectionExtensions.cs:67-79 | on a present array, the default when nothing matches, else the first matching element |
| Collections.FirstIsHeadOfFilter | src/Castle.Core/Core/Internal/CollectionExtensions.cs:67-88 | when something matches, the first match is the head of the filtered array |
| Collections.Find | src/Castle.Core/Core/Internal/CollectionExtensions.cs:67-79 | a `null` array is refused with an argument-null error; otherwise the default when nothing matches, else the first matching element |
| Collections.FindIsFirstOfFindAll | src/Castle.Core/Core/Internal/CollectionExtensions.cs:67-88 | `Find` and `FindAll` refuse the same arrays, and when something matches, `Find` is the head of `FindAll` |
| Collections.ConvertAll | src/Castle.Core/Core/Internal/CollectionExtensions.cs:58-65 | a `null` array is refused with an argument-null error; otherwise the result has the input's length and holds the transformed element at each position |
| Collections.IsNullOrEmpty | src/Castle.Core/Core/Internal/CollectionExtensions.cs:108-111 | true exactly for a `null` or empty array |
| Collections.ForEach | src/Castle.Core/Core/Internal/CollectionExtensions.cs:90-101 | a `null` sequence leaves the state unchanged; otherwise the action is applied to each element in order |
| Collections.ForEachVisitsEachElementOnceInOrder | src/Castle.Core/Core/Internal/CollectionExtensions.cs:90-101 | an action that records what it sees records exactly the input, once each, in order |
| Collections.IsNullOrEmptyIffNothingVisited | src/Castle.Core/Core/Internal/CollectionExtensions.cs:90-111 | `IsNullOrEmpty` holds exactly when `ForEach`, running an action that records what it sees, records nothing |
| GenericUtil.ExtractCorrectType | src/Castle.Core/DynamicProxy/Generators/Emitters/GenericUtil.cs:70-109 | an array of a generic parameter named in the table becomes an array of its builder with the same rank, and any other array is unchanged; a generic parameter named in the table becomes its builder; any other type is unchanged |
| GenericUtil.ExtractActsOnArrayElement | src/Castle.Core/DynamicProxy/Generators/Emitters/GenericUtil.cs:72-97 | on an array whose element is not an array, substitution acts on the element and keeps the rank; an array of arrays is left as it is |
| GenericUtil.ExtractIsIdempotent | src/Castle.Core/DynamicProxy/Generators/Emitters/GenericUtil.cs:70-109 | over a table of builders keyed by their own names, replacing twice is replacing once |
| GenericUtil.ExtractParametersTypes | src/Castle.Core/DynamicProxy/Generators/Emitters/GenericUtil.cs:111-124 | the loop replaces each parameter type position by position |
| GenericUtil.GetGenericArgumentsMap | src/Castle.Core/DynamicProxy/Generators/Emitters/GenericUtil.cs:126-139 | `null` parameters give an empty table; otherwise the table maps each name to its parameter and fails with a duplicate-key error exactly when two parameters share a name |
| GenericUtil.BuilderTableIsSelfNamed | src/Castle.Core/DynamicProxy/Generators/Emitters/GenericUtil.cs:126-139 | a table built from builders maps every name to a builder of that name |
| GenericUtil.SetGenericParameterAttributes | src/Castle.Core/DynamicProxy/Generators/Emitters/GenericUtil.cs:220-226 | the variance bits are cleared and every other attribute bit is kept |
| GenericUtil.SetGenericParameterAttributesIdempotent | src/Castle.Core/DynamicProxy/Generators/Emitters/GenericUtil.cs:220-226 | clearing variance twice is clearing once, and attributes without variance are unchanged |
| GenericUtil.IndexOf | src/Castle.Core/DynamicProxy/Generators/Emitters/GenericUtil.cs:156-162 | `-1` exactly when absent; otherwise the position of the first occurrence |
| GenericUtil.AdjustConstraint | src/Castle.Core/DynamicProxy/Generators/Emitters/GenericUtil.cs:141-176 | a generic constraint, constructed or a definition, becomes its generic type definition over its arguments, each adjusted, and fails when one of them fails; a method-level parameter becomes the new parameter at its index and fails when it is not among the originals; any other non-parameter is unchanged |
| GenericUtil.AdjustEach | src/Castle.Core/DynamicProxy/Generators/Emitters/GenericUtil.cs:143-152 | every generic argument of a generic constraint is adjusted in place, and the adjustment fails exactly when one of the arguments fails |
| GenericUtil.AdjustGenericConstraintSucceeds | src/Castle.Core/DynamicProxy/Generators/Emitters/GenericUtil.cs:143-152 | a well-formed generic constraint whose arguments all adjust is itself adjusted without failure |
| GenericUtil.AdjustClosedConstraintIsUnchanged | src/Castle.Core/DynamicProxy/Generators/Emitters/GenericUtil.cs:141-176 | a well-formed constraint without generic parameters comes back unchanged |
| GenericUtil.AdjustOpenDefinitionClosesOverDeclaringType | src/Castle.Core/DynamicProxy/Generators/Emitters/GenericUtil.cs:143-173 | a constraint naming the generic definition that declares the method, over its own type-level parameters, is closed over the declaring type's actual arguments |
| GenericUtil.AdjustClosedArgumentsAreUnchanged | src/Castle.Core/DynamicProxy/Generators/Emitters/GenericUtil.cs:143-152 | closed arguments of a constructed constraint come back unchanged |
| GenericUtil.AdjustOriginalMethodParameters | src/Castle.Core/DynamicProxy/Generators/Emitters/GenericUtil.cs:156-162 | each original method parameter used as a constraint is replaced by the new parameter at its position |
| GenericUtil.TypeParameterConstraintResolution | src/Castle.Core/DynamicProxy/Generators/Emitters/GenericUtil.cs:163-173 | a type-level parameter resolves through the declaring type's generic arguments, fails without a declaring type, and fails when the declaring type is not generic |
| GenericUtil.AdjustGenericConstraints | src/Castle.Core/DynamicProxy/Generators/Emitters/GenericUtil.cs:178-185 | each constraint is adjusted position by position, and the whole fails exactly when one constraint fails |
| GenericUtil.DefineGenericParameters | src/Castle.Core/DynamicProxy/Generators/Emitters/GenericUtil.cs:187-201 | one builder per name, in order and at its position |
| GenericUtil.Register | src/Castle.Core/DynamicProxy/Generators/Emitters/GenericUtil.cs:203-210 | the table afterwards holds the old names and the new ones |
| GenericUtil.RegisterKeepsOtherNames | src/Castle.Core/DynamicProxy/Generators/Emitters/GenericUtil.cs:203-210 | names not being copied keep their builder |
| GenericUtil.RegisterLastAssignmentWins | src/Castle.Core/DynamicProxy/Generators/Emitters/GenericUtil.cs:203-210 | the indexer assignment means the last parameter with a name owns that name |
| GenericUtil.RegisterKeepsSelfNamed | src/Castle.Core/DynamicProxy/Generators/Emitters/GenericUtil.cs:203-210 | registering builders under their own names keeps the table self-named |
| GenericUtil.CopyEach | src/Castle.Core/DynamicProxy/Generators/Emitters/GenericUtil.cs:58-68 | each new parameter gets its original's adjusted constraints and attributes without variance; it fails exactly when some original's constraints fail to adjust |
| GenericUtil.CopyGenericArguments | src/Castle.Core/DynamicProxy/Generators/Emitters/GenericUtil.cs:187-226 | no arguments copy nothing; otherwise it yields one builder per argument named after it, with the original's attributes less variance and the original's constraints adjusted onto the new builders, registers the builders, and fails exactly when some constraint cannot be adjusted |
| GenericUtil.CopyKeepsSelfNamed | src/Castle.Core/DynamicProxy/Generators/Emitters/GenericUtil.cs:187-210 | copying keeps the table self-named |
| GenericUtil.CopyThenExtractFindsTheCopies | src/Castle.Core/DynamicProxy/Generators/Emitters/GenericUtil.cs:187-210 | after copying distinct parameters, replacing any copied parameter yields its own new builder |
| GenericUtil.GenericArgumentsOf | src/Castle.Core/DynamicProxy/Generators/Emitters/GenericUtil.cs:203-226 | the parameters read off a type are its generic arguments, a definition's with their own attributes and constraints; a constructed type with an argument that is not a generic parameter fails with invalid-operation |
| GenericUtil.CopyFromType | src/Castle.Core/DynamicProxy/Generators/Emitters/GenericUtil.cs:31-34 | a non-generic type copies nothing; a definition copies its own parameters; a constructed type with a non-parameter argument fails with invalid-operation; otherwise the copies are one per argument of the type |
| GenericUtil.CopyFromTypeAndMethod | src/Castle.Core/DynamicProxy/Generators/Emitters/GenericUtil.cs:36-46 | without a method it is the type-only copy; a type the copy cannot read fails with invalid-operation; with a method it is the copy of the type's arguments followed by the method's parameters, resolved through the method's declaring type, so the builders are defined over the type's argument names followed by the method's parameter names, builder `k` carrying name `k` |
| GenericUtil.CopiedParametersAreDefined | src/Castle.Core/DynamicProxy/Generators/Emitters/GenericUtil.cs:196-197 | the builders of a successful copy are those `DefineGenericParameters` makes from the originals' names, in order |
| GenericUtil.NamesOfAppend | src/Castle.Core/DynamicProxy/Generators/Emitters/GenericUtil.cs:42-44 | the names of the concatenated type and method arguments are the type's names followed by the method's |
| GenericUtil.CopyFromMethod | src/Castle.Core/DynamicProxy/Generators/Emitters/GenericUtil.cs:48-51 | a non-generic method copies nothing; otherwise builder `j` is named after the method's parameter `j` and carries that parameter's constraints rewritten onto the new builders through the method's declaring type; the copy fails exactly when one of those constraints cannot be rewritten |
| TypeEmitter.NewEmitter | src/Castle.Core/DynamicProxy/Generators/Emitters/AbstractTypeEmitter.cs:74-77 | a new emitter is not generic and has no fields or constructors |
| TypeEmitter.BaseType | src/Castle.Core/DynamicProxy/Generators/Emitters/AbstractTypeEmitter.cs:48-58 | an interface has no base type and asking throws invalid-operation; otherwise it is the parent |
| TypeEmitter.SetGenericTypeParameters | src/Castle.Core/DynamicProxy/Generators/Emitters/AbstractTypeEmitter.cs:405-408 | the emitter is generic exactly when parameters were set |
| TypeEmitter.CopyGenericParametersFromMethod | src/Castle.Core/DynamicProxy/Generators/Emitters/AbstractTypeEmitter.cs:131-141 | a second copy throws; after a copy the emitter is generic exactly when the method is, and fields and constructors are untouched |
| TypeEmitter.CopyGenericParametersFromType | src/Castle.Core/DynamicProxy/Generators/Emitters/AbstractTypeEmitter.cs:143-156 | a second copy throws; a copy records the type as the parameters' source and leaves fields and constructors untouched |
| TypeEmitter.CopyGenericParametersAtMostOnce | src/Castle.Core/DynamicProxy/Generators/Emitters/AbstractTypeEmitter.cs:131-156 | once a generic method has been copied, every further copy from a method or a type fails |
| TypeEmitter.CopyOfNoParametersDoesNotCount | src/Castle.Core/DynamicProxy/Generators/Emitters/AbstractTypeEmitter.cs:131-141 | copying from a non-generic method succeeds and leaves the emitter non-generic, so a later copy is still allowed |
| TypeEmitter.CreateConstructor | src/Castle.Core/DynamicProxy/Generators/Emitters/AbstractTypeEmitter.cs:158-168 | fails exactly for an interface; otherwise it appends one constructor with the given arguments and keeps the fields |
| TypeEmitter.CreateDefaultConstructor | src/Castle.Core/DynamicProxy/Generators/Emitters/AbstractTypeEmitter.cs:170-178 | fails exactly for an interface; otherwise it appends a parameterless constructor |
| TypeEmitter.CreateTypeConstructor | src/Castle.Core/DynamicProxy/Generators/Emitters/AbstractTypeEmitter.cs:254-260 | appends the type initializer and records it as the class constructor |
| TypeEmitter.BuiltType | src/Castle.Core/DynamicProxy/Generators/Emitters/AbstractTypeEmitter.cs:74-77 | the built type carries the emitter's name; it is a generic definition over the emitter's parameters exactly when the emitter is generic |
| TypeEmitter.CreateFieldWithAttributes | src/Castle.Core/DynamicProxy/Generators/Emitters/AbstractTypeEmitter.cs:204-210 | the field is registered under its name, replacing any earlier one, and every other field and every constructor is kept |
| TypeEmitter.CreateField | src/Castle.Core/DynamicProxy/Generators/Emitters/AbstractTypeEmitter.cs:187-202 | the field is public and not static, and is marked not-serialized exactly when serialization is off |
| TypeEmitter.CreateStaticField | src/Castle.Core/DynamicProxy/Generators/Emitters/AbstractTypeEmitter.cs:243-252 | the static flag is added to the given attributes and no other bit changes |
| TypeEmitter.GetField | src/Castle.Core/DynamicProxy/Generators/Emitters/AbstractTypeEmitter.cs:296-306 | a `null` or empty name finds nothing; otherwise a field is found exactly when one has that name, and it is the field held under that name |
| TypeEmitter.CreateThenGetField | src/Castle.Core/DynamicProxy/Generators/Emitters/AbstractTypeEmitter.cs:187-306 | a created field is found again by its name, and other names find what they found before |
| TypeEmitter.EnsureBuildersAreInAValidState | src/Castle.Core/DynamicProxy/Generators/Emitters/AbstractTypeEmitter.cs:376-381 | a class without constructors gets a default one; afterwards every class has a constructor |
| TypeEmitter.EnsureBuildersIdempotent | src/Castle.Core/DynamicProxy/Generators/Emitters/AbstractTypeEmitter.cs:376-381 | making the builders valid twice is making them valid once |
| TypeEmitter.AdjustMethod | src/Castle.Core/DynamicProxy/Generators/Emitters/AbstractTypeEmitter.cs:106-115 | a method of an open generic type is rebound onto the emitter's own generic type; any other method is unchanged |
| TypeEmitter.AdjustMethodClosesOverOwnParameters | src/Castle.Core/DynamicProxy/Generators/Emitters/AbstractTypeEmitter.cs:106-115 | adjusting twice is adjusting once; an adjusted method is declared on its definition closed over the emitter's generic parameters and is otherwise the same method |
| TypeEmitter.GetBuilder | src/Castle.Core/DynamicProxy/Generators/Emitters/AbstractTypeEmitter.cs:308-311 | the builder registered under the parameter's name; fails exactly when none is registered |
| TypeEmitter.GetBuilderFindsCopiedParameters | src/Castle.Core/DynamicProxy/Generators/Emitters/AbstractTypeEmitter.cs:143-156 | after copying a definition's distinctly named parameters, looking up each finds the builder copied for it at its position |
| TypeEmitter.GetBuilderKeepsTheName | src/Castle.Core/DynamicProxy/Generators/Emitters/AbstractTypeEmitter.cs:308-311 | over a table of builders keyed by their own names, a builder found for a parameter carries its name |
| TypeEmitter.GetGenericArgumentsForType | src/Castle.Core/DynamicProxy/Generators/Emitters/AbstractTypeEmitter.cs:313-329 | each generic argument of the type maps to the builder of its name; fails exactly when one is missing |
| TypeEmitter.GetGenericArgumentsForMethod | src/Castle.Core/DynamicProxy/Generators/Emitters/AbstractTypeEmitter.cs:331-340 | each generic parameter of the method maps to the builder of its name; fails exactly when one is missing |
| TypeEmitter.MapArguments | src/Castle.Core/DynamicProxy/Generators/Emitters/AbstractTypeEmitter.cs:313-329 | a position-by-position map to builders that fails exactly when some argument has no builder |
| ClassEmitter.ShouldForceUnsigned | src/Castle.Core/DynamicProxy/Generators/Emitters/ClassEmitter.cs:115-118 | unsigned exactly when the assembly cannot be strong-named |
| ClassEmitter.IsAssemblySigned | src/Castle.Core/DynamicProxy/Generators/Emitters/ClassEmitter.cs:107-113 | signed exactly when unsigned is not forced and neither the base type nor any interface comes from an unsigned assembly |
| ClassEmitter.UnsignedInterfaceForcesUnsigned | src/Castle.Core/DynamicProxy/Generators/Emitters/ClassEmitter.cs:107-113 | one interface from an unsigned assembly makes the proxy unsigned |
| ClassEmitter.ArgumentNames | src/Castle.Core/DynamicProxy/Generators/Emitters/ClassEmitter.cs:85-96 | only a generic definition suggests names: those of its parameters |
| ClassEmitter.SuggestionsAppend | src/Castle.Core/DynamicProxy/Generators/Emitters/ClassEmitter.cs:51-60 | the suggestions for a list of interfaces are built interface by interface |
| ClassEmitter.ClosedTypesSuggestNothing | src/Castle.Core/DynamicProxy/Generators/Emitters/ClassEmitter.cs:51-60 | interfaces that are not generic definitions contribute no generic parameters |
| ClassEmitter.CollectGenericParameters | src/Castle.Core/DynamicProxy/Generators/Emitters/ClassEmitter.cs:85-96 | a non-definition adds nothing; a definition adds unique names, drawn from the scope, for its parameters |
| ClassEmitter.NewClassEmitter | src/Castle.Core/DynamicProxy/Generators/Emitters/ClassEmitter.cs:39-64 | an open generic base throws not-supported and a `null` base throws null-reference; otherwise it yields the interfaces, the signing decision, and generic parameter names exactly when some interface is a generic definition; those names are pairwise distinct and each starts with its suggestion |
| ClassEmitter.CollectGenericParameterNames | src/Castle.Core/DynamicProxy/Generators/Emitters/ClassEmitter.cs:51-60 | the loop collects the base type's names and then each interface's |
| TypeCache.GetFromCache | src/Castle.Core/DynamicProxy/Generators/ChangeTargetInvocationTypeGenerator.cs:46-47 | found exactly when the key is cached, and then the cached type |
| TypeCache.RegisterInCache | src/Castle.Core/DynamicProxy/Generators/ChangeTargetInvocationTypeGenerator.cs:57 | the key now finds the type, and every other key finds what it found before |
| TypeCache.GetOrCreate | src/Castle.Core/DynamicProxy/Generators/ChangeTargetInvocationTypeGenerator.cs:42-60 | a hit returns the cached type and changes nothing; a miss generates; a success leaves the result cached under the key; a failure leaves the cache unchanged |
| TypeCache.SecondLookupHits | src/Castle.Core/DynamicProxy/Generators/ChangeTargetInvocationTypeGenerator.cs:42-60 | a second lookup under the same key returns the first result without generating, whatever its generator |
| TypeCache.LookupKeepsOtherEntries | src/Castle.Core/DynamicProxy/Generators/ChangeTargetInvocationTypeGenerator.cs:42-60 | a lookup never changes another key's entry |
| InvocationTypes.AdditionalInterfaces | src/Castle.Core/DynamicProxy/Generators/ChangeTargetInvocationTypeGenerator.cs:37-40 | only a change-target invocation implements an extra interface |
| InvocationTypes.TargetReferenceOf | src/Castle.Core/DynamicProxy/Generators/InheritanceInvocationTypeGenerator.cs:68-71 | only an inheritance invocation calls through the proxy object |
| InvocationTypes.BaseCtorArguments | src/Castle.Core/DynamicProxy/Generators/CompositionInvocationTypeGenerator.cs:44-57 | five arguments: the target's type (`Type` for inheritance, the target field's type for composition, `object` for change-target), then proxy, interceptors, method and arguments |
| InvocationTypes.ValidTargetPrefix | src/Castle.Core/DynamicProxy/Generators/CompositionInvocationTypeGenerator.cs:71-78 | every variant but inheritance first checks that there is a target |
| InvocationTypes.GetCallbackMethod | src/Castle.Core/DynamicProxy/Generators/InvocationTypeGenerator.cs:243-261 | a contributor's callback wins; a non-generic callback is used as it is; a generic one is closed over the invocation's builders for the proxied method's parameters |
| InvocationTypes.Arguments | src/Castle.Core/DynamicProxy/Generators/InvocationTypeGenerator.cs:118-151 | one call argument per parameter, in order |
| InvocationTypes.ByRefIndicesAreTheByRefParameters | src/Castle.Core/DynamicProxy/Generators/InvocationTypeGenerator.cs:118-151 | the positions remembered for copy-back are exactly the by-ref parameters |
| InvocationTypes.AssignBackByRefArguments | src/Castle.Core/DynamicProxy/Generators/InvocationTypeGenerator.cs:188-214 | nothing without by-ref arguments; otherwise a finally block that writes back exactly the remembered positions |
| InvocationTypes.CallFor | src/Castle.Core/DynamicProxy/Generators/InvocationTypeGenerator.cs:158-171 | the call passes exactly the prepared arguments, whichever callee is used |
| InvocationTypes.ImplementInvokeMethodOnTarget | src/Castle.Core/DynamicProxy/Generators/InvocationTypeGenerator.cs:109-186 | the loop and the branches emit the body described by the lemmas below |
| InvocationTypes.NoCallbackThrows | src/Castle.Core/DynamicProxy/Generators/InvocationTypeGenerator.cs:112-117 | without a callback the body checks the target, throws for a missing target, and returns |
| InvocationTypes.ByRefLoadsAreLoads | src/Castle.Core/DynamicProxy/Generators/InvocationTypeGenerator.cs:118-151 | loading arguments opens no block, returns nothing and writes nothing back |
| InvocationTypes.ByRefIndicesNonEmpty | src/Castle.Core/DynamicProxy/Generators/InvocationTypeGenerator.cs:118-151 | some position is remembered exactly when some parameter is by-ref |
| InvocationTypes.BodyParts | src/Castle.Core/DynamicProxy/Generators/InvocationTypeGenerator.cs:109-186 | with a callback the body is target check, loads, optional try, call, copy-back, optional stored result, return, in that order |
| InvocationTypes.TryIffByRef | src/Castle.Core/DynamicProxy/Generators/InvocationTypeGenerator.cs:153-156 | a try block is opened exactly when some parameter is by-ref |
| InvocationTypes.EveryByRefCopiedBack | src/Castle.Core/DynamicProxy/Generators/InvocationTypeGenerator.cs:188-214 | exactly the by-ref positions are written back to the arguments |
| InvocationTypes.SetReturnValueIffResult | src/Castle.Core/DynamicProxy/Generators/InvocationTypeGenerator.cs:175-183 | the return value is stored exactly when the callback is not void, just before the return |
| InvocationTypes.BodyBeforeReturnHasNoReturn | src/Castle.Core/DynamicProxy/Generators/InvocationTypeGenerator.cs:109-186 | everything before the final return contains no return, and throws exactly when there is no callback |
| InvocationTypes.SingleFinalReturn | src/Castle.Core/DynamicProxy/Generators/InvocationTypeGenerator.cs:185 | the body has one return and it is the last statement |
| TypeEmitter.ClosedParameterTypes | src/Castle.Core/DynamicProxy/Generators/InvocationTypeGenerator.cs:118-151 | each parameter type is closed over the invocation's builders |
| TypeEmitter.ClosedParameterTypesFixedPoints | src/Castle.Core/DynamicProxy/Contributors/DelegateTypeGenerator.cs:136-144 | with an empty builder table nothing changes, and closing twice over a table of self-named builders is closing once |
| InvocationTypes.CopyGenericParameters | src/Castle.Core/DynamicProxy/Generators/InvocationTypeGenerator.cs:73-80 | a generic proxy hands over its source type and the method; a proxy without a source throws; a non-generic proxy hands over only the method |
| InvocationTypes.InvocationEmitter | src/Castle.Core/DynamicProxy/Generators/InvocationTypeGenerator.cs:71-82 | the emitter is a class derived from the variant's base type whose only constructor is the contributor's or the variant's |
| InvocationTypes.BuildInvocation | src/Castle.Core/DynamicProxy/Generators/InvocationTypeGenerator.cs:67-100 | the class keeps the chosen name and base type, has one constructor, `InvokeMethodOnTarget` starts with the variant's target check, and it reports a missing target exactly when the contributor's callback, or without a contributor the given callback, is absent |
| InvocationTypes.Generate | src/Castle.Core/DynamicProxy/Generators/InvocationTypeGenerator.cs:67-100 | a freshly named class derived from the variant's base type, with one constructor (the contributor's or the variant's), a body that starts with the variant's target check, and a missing-target report exactly when the callback in force is absent |
| InvocationTypes.GenerateTypeIsFresh | src/Castle.Core/DynamicProxy/Generators/InvocationTypeGenerator.cs:67-91 | the generated type's name was unused, and the scope now records it |
| InvocationTypes.CacheKeysSeparateKindsAndMethods | src/Castle.Core/DynamicProxy/Generators/CompositionInvocationTypeGenerator.cs:83 | two keys are equal exactly for the same kind and the same method |
| InvocationTypes.GetProxyType | src/Castle.Core/DynamicProxy/Generators/CompositionInvocationTypeGenerator.cs:80-99 | composition and change-target go through the cache under their key; inheritance always generates and leaves the cache untouched |
| InvocationTypes.InheritanceNeverReuses | src/Castle.Core/DynamicProxy/Generators/InheritanceInvocationTypeGenerator.cs:43-48 | two inheritance lookups in a row yield two different types |
| DelegateTypes.CacheKeyFor | src/Castle.Core/DynamicProxy/Contributors/DelegateTypeGenerator.cs:52-58 | the key is `Delegate`, the target type, and the return type followed by the parameter types |
| DelegateTypes.CacheKeyIsTheSignature | src/Castle.Core/DynamicProxy/Contributors/DelegateTypeGenerator.cs:52-58 | two keys are equal exactly for the same target type and the same signature |
| DelegateTypes.DelegateKeysAreNotMethodKeys | src/Castle.Core/DynamicProxy/Contributors/DelegateTypeGenerator.cs:52-58 | a delegate key never collides with an invocation type's key |
| DelegateTypes.CopyGenericParameters | src/Castle.Core/DynamicProxy/Contributors/DelegateTypeGenerator.cs:116-123 | parameters come from the target type and the method when the target type is open, from the method alone otherwise |
| DelegateTypes.GetParamTypes | src/Castle.Core/DynamicProxy/Contributors/DelegateTypeGenerator.cs:127-147 | a generic delegate takes the closed parameter types; a non-generic one takes the target first |
| DelegateTypes.BuildDelegate | src/Castle.Core/DynamicProxy/Contributors/DelegateTypeGenerator.cs:76-125 | a `MulticastDelegate` subclass with the `(object, IntPtr)` constructor and an `Invoke` of the closed signature |
| DelegateTypes.Generate | src/Castle.Core/DynamicProxy/Contributors/DelegateTypeGenerator.cs:96-102 | the same class under a name that was not in use and that the scope now records |
| DelegateTypes.GenerateType | src/Castle.Core/DynamicProxy/Contributors/DelegateTypeGenerator.cs:96-102 | the built delegate type has a fresh name |
| DelegateTypes.GetProxyType | src/Castle.Core/DynamicProxy/Contributors/DelegateTypeGenerator.cs:50-74 | a hit returns the cached delegate; a successful miss caches the new one under the signature key |
| DelegateTypes.SameSignatureSharesDelegate | src/Castle.Core/DynamicProxy/Contributors/DelegateTypeGenerator.cs:50-74 | two methods with the same signature on the same target share one delegate type |
| MethodWithInvocation.HasByRefArguments | src/Castle.Core/DynamicProxy/Generators/MethodWithInvocationGenerator.cs:212-223 | true exactly when some argument is by-ref |
| MethodWithInvocation.TokenInitialization | src/Castle.Core/DynamicProxy/Generators/MethodWithInvocationGenerator.cs:79-105 | a non-generic method's token is the method adjusted to the proxy; a generic method's token is taken from the method itself, or from its definition on the proxy's generic type when both are generic |
| MethodWithInvocation.GetCtorArguments | src/Castle.Core/DynamicProxy/Generators/MethodWithInvocationGenerator.cs:175-200 | target, proxy, interceptors, method token and arguments, then the selector and its per-method field exactly when the proxy has a selector |
| MethodWithInvocation.ModifyArguments | src/Castle.Core/DynamicProxy/Generators/MethodWithInvocationGenerator.cs:202-210 | without a rewrite the arguments pass unchanged |
| MethodWithInvocation.LoadGenericMethodArguments | src/Castle.Core/DynamicProxy/Generators/MethodWithInvocationGenerator.cs:156-173 | a new array of the right length, one store per generic argument in order, then the hand-over to the invocation |
| MethodWithInvocation.InvocationTypeFor | src/Castle.Core/DynamicProxy/Generators/MethodWithInvocationGenerator.cs:71-98 | a non-generic method uses the invocation type itself; a generic one closes it over the method's type arguments |
| MethodWithInvocation.ProxiedBody | src/Castle.Core/DynamicProxy/Generators/MethodWithInvocationGenerator.cs:114-151 | the invocation is created first; then come the generic arguments if any, `Proceed` and the copy-back (inside try/finally when some argument is by-ref), and a return of the converted value or a plain return |
| MethodWithInvocation.ProxiedBodyHead | src/Castle.Core/DynamicProxy/Generators/MethodWithInvocationGenerator.cs:114-120 | the creation of the invocation and, for a generic method only, the hand-over of its arguments |
| MethodWithInvocation.ProxiedBodyTail | src/Castle.Core/DynamicProxy/Generators/MethodWithInvocationGenerator.cs:122-151 | `Proceed` and the copy-back, guarded by an exception block exactly when some argument is by-ref, then the return |
| MethodWithInvocation.ProxiedBodyExceptionBlock | src/Castle.Core/DynamicProxy/Generators/MethodWithInvocationGenerator.cs:122-140 | try, finally and end of block appear exactly when some argument is by-ref |
| MethodWithInvocation.ProxiedBodyGenericArguments | src/Castle.Core/DynamicProxy/Generators/MethodWithInvocationGenerator.cs:117-120 | the generic arguments are handed to the invocation exactly for a generic method |
| MethodWithInvocation.ProxiedBodyReturn | src/Castle.Core/DynamicProxy/Generators/MethodWithInvocationGenerator.cs:142-151 | a non-void method returns the converted value and never a plain return; a void method the reverse |
| MethodWithInvocation.ProxiedBodyTailReturn | src/Castle.Core/DynamicProxy/Generators/MethodWithInvocationGenerator.cs:142-151 | the same split of returns, for the tail alone |
| MethodWithInvocation.BuildProxiedMethodBody | src/Castle.Core/DynamicProxy/Generators/MethodWithInvocationGenerator.cs:62-154 | a wrong number of type arguments for a generic method throws; otherwise it succeeds exactly when the proxy has a type initializer, creates a fresh public static `MethodInfo` token field, and builds the body over the gathered constructor arguments |
| Contributors.CollectedTypes | src/Castle.Core/DynamicProxy/Contributors/InterfaceProxyTargetContributor.cs:36-52 | one collected type per collector, in order |
| Contributors.Collectors | src/Castle.Core/DynamicProxy/Contributors/ClassProxyTargetContributor.cs:40-56 | class contributors collect the class and then its interfaces; interface contributors collect each interface; a delegate contributor collects only the delegate's members |
| Contributors.OnClass | src/Castle.Core/DynamicProxy/Contributors/ClassProxyTargetContributor.cs:45-55 | one on-class collector per interface, mapped on the target class |
| Contributors.GetContributor | src/Castle.Core/DynamicProxy/Contributors/ClassProxyTargetContributor.cs:150-157 | a closed delegate type gives a delegate contributor over the target type; a generic one gives a generic-delegate contributor bound to the given target |
| Contributors.DelegatePath | src/Castle.Core/DynamicProxy/Contributors/ClassProxyTargetContributor.cs:159-165 | the contributor is built over the delegate type from the cache, and fails exactly when the lookup fails |
| Contributors.ClosedTargetType | src/Castle.Core/DynamicProxy/Contributors/ClassProxyTargetContributor.cs:79 | an open target class is closed over the proxy's generic parameters; a closed one is used as it is |
| Contributors.ClassProxyTargetGenerator | src/Castle.Core/DynamicProxy/Contributors/ClassProxyTargetContributor.cs:58-86 | skipped methods get no generator and non-proxyable ones a stub; private target methods go through a delegate contributor and have no callback; the rest call the base method when it has one; all intercept by inheritance with the target class as token |
| Contributors.ClassProxyWithTargetGenerator | src/Castle.Core/DynamicProxy/Contributors/ClassProxyWithTargetTargetContributor.cs:58-83 | skipped or non-proxyable methods as above; accessible methods intercept by composition with a callback; inaccessible ones go through a delegate contributor; only the delegate path touches the cache |
| Contributors.InterfaceProxyTargetGenerator | src/Castle.Core/DynamicProxy/Contributors/InterfaceProxyTargetContributor.cs:54-85 | a non-proxyable method is forwarded to `__target`; a proxyable one is intercepted, by change-target when allowed and by composition otherwise |
| Contributors.OptionalTarget | src/Castle.Core/DynamicProxy/Contributors/InterfaceProxyWithOptionalTargetContributor.cs:62-69 | the plain target field when the target type is assignable to the declaring type, otherwise `__target` cast to that type |
| Contributors.OptionalTargetGenerator | src/Castle.Core/DynamicProxy/Contributors/InterfaceProxyWithOptionalTargetContributor.cs:47-77 | a non-proxyable method is optionally forwarded and a proxyable one intercepted by change-target, both over the optional target |
| Contributors.WithoutTargetGenerator | src/Castle.Core/DynamicProxy/Contributors/InterfaceProxyWithoutTargetContributor.cs:43-63 | a non-proxyable method gets a stub; a proxyable one is intercepted by composition with a `null` target, no callback and no contributor |
| Contributors.WithoutTargetProceedReportsNoTarget | src/Castle.Core/DynamicProxy/Contributors/InterfaceProxyWithoutTargetContributor.cs:50-62 | the invocation class generated for any member a proxy without target intercepts reports a missing target when it proceeds |
| Contributors.DelegateProxyTargetGenerator | src/Castle.Core/DynamicProxy/Contributors/DelegateProxyTargetContributor.cs:41-56 | every member is intercepted by composition on `__target`, calling the member itself |
| Contributors.ReplaceDots | src/Castle.Core/DynamicProxy/Contributors/MixinContributor.cs:94 | every dot becomes an underscore and nothing else changes |
| Contributors.MixinFieldName | src/Castle.Core/DynamicProxy/Contributors/MixinContributor.cs:94 | the name starts with `__mixin_` and the rest holds no dot |
| Contributors.AddEmptyInterface | src/Castle.Core/DynamicProxy/Contributors/MixinContributor.cs:42-51 | the interface is appended to the empty ones, once more even if already there (the debug assertions do not stop it), and nothing else changes |
| Contributors.AddMixinField | src/Castle.Core/DynamicProxy/Contributors/MixinContributor.cs:92-96 | the type gets a fresh field, and every other type's field and every other proxy field is kept |
| Contributors.AddMixinFieldKeepsWellFormed | src/Castle.Core/DynamicProxy/Contributors/MixinContributor.cs:53-66 | after each field, every mixin field has a distinct used name and is a field of the proxy |
| Contributors.AddMixinFieldKeepsFieldsBuiltFrom | src/Castle.Core/DynamicProxy/Contributors/MixinContributor.cs:53-66 | after each field, every field's name is unused by the scope the loop started from |
| Contributors.BuildTargetFields | src/Castle.Core/DynamicProxy/Contributors/MixinContributor.cs:53-66 | the loop gives each type a field with a name the starting scope did not use |
| Contributors.GenerateMixinFields | src/Castle.Core/DynamicProxy/Contributors/MixinContributor.cs:53-66 | every proxied and every empty interface gets its own field, with a fresh name |
| Contributors.MixinFieldList | src/Castle.Core/DynamicProxy/Contributors/MixinContributor.cs:37-40 | the fields in the order of their types |
| Contributors.MixinGenerator | src/Castle.Core/DynamicProxy/Contributors/MixinContributor.cs:78-123 | a method whose interface has no field throws key-not-found; a non-proxyable one is forwarded to the mixin field; a proxyable one is intercepted by change-target (`__target` or the mixin) when allowed, else by composition on the mixin field |
| Contributors.GetMethodGenerator | src/Castle.Core/DynamicProxy/Contributors/ClassProxyTargetContributor.cs:58-86 | dispatches to the contributor's own rule; only class contributors may touch the cache |
| Contributors.OnlyClassProxiesInherit | src/Castle.Core/DynamicProxy/Contributors/ClassProxyTargetContributor.cs:80-85 | an inheritance invocation is chosen exactly by the class proxy's own contributor |
| Contributors.NullTargetOnlyWithoutTarget | src/Castle.Core/DynamicProxy/Contributors/InterfaceProxyWithoutTargetContributor.cs:43-55 | a `null` target is chosen exactly by the contributor without target |
| Contributors.ChangeTargetOnlyWhenAllowed | src/Castle.Core/DynamicProxy/Contributors/MixinContributor.cs:98-112 | a change-target invocation appears only where the target may be swapped |
| Contributors.NonProxyableNotIntercepted | src/Castle.Core/DynamicProxy/Contributors/DelegateProxyTargetContributor.cs:41-48 | a non-proxyable member is intercepted exactly by a delegate proxy |
| Contributors.ClassProxyInvocationsAreNotShared | src/Castle.Core/DynamicProxy/Contributors/ClassProxyTargetContributor.cs:80-85 | asking twice for a class proxy's invocation type generates twice and yields two types |
| Contributors.DelegateInvocationContributor | src/Castle.Core/DynamicProxy/Contributors/ClassProxyTargetContributor.cs:150-157 | the contributor's callback is the delegate type's `Invoke`, non-generic and returning a value exactly when the member does; its constructor takes the base constructor's arguments |
| Contributors.InvocationContributorOf | src/Castle.Core/DynamicProxy/Contributors/ClassProxyTargetContributor.cs:128-138 | a choice that goes through a delegate passes a contributor with a callback to the invocation generator; any other choice passes none |
| Contributors.DelegatePathNeverThrowsOnNoTarget | src/Castle.Core/DynamicProxy/Generators/InvocationTypeGenerator.cs:98-100 | an invocation class generated for a delegate path never reports a missing target; without a delegate it reports one exactly when there is no callback |
| Contributors.ClassDelegatePathsReachTheTarget | src/Castle.Core/DynamicProxy/Contributors/ClassProxyTargetContributor.cs:128-138 | the invocation class of a class proxy member routed through a delegate never reports a missing target |
| ProxyGenerators.GetTargetType | src/Castle.Core/DynamicProxy/Generators/ClassProxyGenerator.cs:246-255 | a generic type is replaced by its definition exactly when no additional or mixin interface is generic |
| ProxyGenerators.Capture | src/Castle.Core/DynamicProxy/Generators/ClassProxyGenerator.cs:41-44 | arguments are captured exactly for a generic definition, and they are those of the type asked for |
| ProxyGenerators.ClassProxySetup | src/Castle.Core/DynamicProxy/Generators/ClassProxyGenerator.cs:35-45 | a class implementing `IProxyTargetAccessor` is refused; otherwise `null` additional interfaces count as none and the open-or-closed rule applies |
| ProxyGenerators.InterfaceProxySetup | src/Castle.Core/DynamicProxy/Generators/InterfaceProxyWithTargetInterfaceGenerator.cs:32-46 | never fails, and `null` additional interfaces behave exactly like none |
| ProxyGenerators.GetTargetTypeAsWritten | src/Castle.Core/DynamicProxy/Generators/InterfaceProxyWithoutTargetGenerator.cs:137-145 | throws argument-null exactly for a generic type with `null` additional interfaces; otherwise it is the target-type rule over the interfaces given |
| ProxyGenerators.WithoutTargetSetupAsWritten | src/Castle.Core/DynamicProxy/Generators/InterfaceProxyWithoutTargetGenerator.cs:32-40 | throws argument-null exactly for a generic interface with `null` additional interfaces; otherwise agrees with the coalescing form |
| ProxyGenerators.WithoutTargetRejectsNullAdditionalInterfaces | src/Castle.Core/DynamicProxy/Generators/InterfaceProxyWithoutTargetGenerator.cs:137-145 | for `IList<object>` with `null` additional interfaces, the constructor as written throws while the coalescing one opens the proxy over `IList<>` |
| ProxyGenerators.WithTargetInterfaceCheckTargetType | src/Castle.Core/DynamicProxy/Generators/InterfaceProxyWithTargetInterfaceGenerator.cs:69-72 | every proxy target type passes, generic definitions included |
| ProxyGenerators.CloseProxyType | src/Castle.Core/DynamicProxy/Generators/ClassProxyGenerator.cs:220-231 | without captured arguments the cached type is the proxy type; with them, closing succeeds exactly for a definition of matching arity and gives that definition over those arguments |
| ProxyGenerators.ClosingsShareOneDefinition | src/Castle.Core/DynamicProxy/Generators/ClassProxyGenerator.cs:220-231 | closings of one cached type share it as definition, and are equal exactly for equal arguments |
| ProxyGenerators.OpenProxyClosesOverOriginalArguments | src/Castle.Core/DynamicProxy/Generators/InterfaceProxyWithoutTargetGenerator.cs:124-135 | an open proxy, built with one parameter per definition parameter, closes back to the arguments of the type asked for |
| ProxyGenerators.AddMappingNoCheck | src/Castle.Core/DynamicProxy/Generators/ClassProxyGenerator.cs:156 | fails with an argument error exactly when the interface already has an implementer; otherwise appends it |
| ProxyGenerators.AddMapping | src/Castle.Core/DynamicProxy/Generators/ClassProxyGenerator.cs:191 | an interface already mapped keeps its implementer; otherwise it is appended |
| ProxyGenerators.ImplementedMixins | src/Castle.Core/DynamicProxy/Generators/ClassProxyGenerator.cs:151-160 | the mixin interfaces the class implements, which become empty mixin interfaces |
| ProxyGenerators.MapMixinInterface | src/Castle.Core/DynamicProxy/Generators/ClassProxyGenerator.cs:149-170 | an implemented mixin becomes empty; the additional contributor is untouched |
| ProxyGenerators.MapMixinInterfaceOwners | src/Castle.Core/DynamicProxy/Generators/ClassProxyGenerator.cs:149-170 | one step of the mixin loop extends the mixin-phase ownership rule by that interface |
| ProxyGenerators.MapMixinInterfaceLists | src/Castle.Core/DynamicProxy/Generators/ClassProxyGenerator.cs:149-170 | one step keeps each contributor's list equal to what the mapping gives it |
| ProxyGenerators.MapAdditionalInterface | src/Castle.Core/DynamicProxy/Generators/ClassProxyGenerator.cs:175-193 | an interface that is neither the class's nor a mixin goes to the additional contributor |
| ProxyGenerators.MapAdditionalInterfaceOwners | src/Castle.Core/DynamicProxy/Generators/ClassProxyGenerator.cs:175-193 | one step of the additional loop extends the ownership rule by that interface |
| ProxyGenerators.MapAdditionalInterfaceLists | src/Castle.Core/DynamicProxy/Generators/ClassProxyGenerator.cs:175-193 | one step keeps each contributor's list equal to what the mapping gives it |
| ProxyGenerators.PhasesApplyPrecedence | src/Castle.Core/DynamicProxy/Generators/ClassProxyGenerator.cs:139-193 | after both loops, ownership follows the order of precedence: target, then mixins, then additional interfaces |
| ProxyGenerators.InfrastructureCompletesMapping | src/Castle.Core/DynamicProxy/Generators/ClassProxyGenerator.cs:194-208 | `ISerializable` goes to the instance contributor unless claimed; adding `IProxyTargetAccessor` fails exactly when an interface rule claimed it |
| ProxyGenerators.MapMixinInterfaces | src/Castle.Core/DynamicProxy/Generators/ClassProxyGenerator.cs:147-171 | the mixin loop yields the mixin-phase ownership and the implemented mixins as empty interfaces |
| ProxyGenerators.MapAdditionalInterfaces | src/Castle.Core/DynamicProxy/Generators/ClassProxyGenerator.cs:175-193 | the additional loop completes the precedence rule and keeps every list in agreement |
| ProxyGenerators.GetTypeImplementerMapping | src/Castle.Core/DynamicProxy/Generators/ClassProxyGenerator.cs:129-218 | fails exactly when an interface rule claims `IProxyTargetAccessor`; otherwise every interface has the owner the precedence rule gives it, each contributor is handed exactly its interfaces, and `IProxyTargetAccessor` is the last key |
| ProxyGenerators.UnmappedAppend | src/Castle.Core/DynamicProxy/Generators/InterfaceProxyWithoutTargetGenerator.cs:53-57 | a list is addable exactly when its prefix is and its last interface is new to both the mapping and the prefix |
| ProxyGenerators.MapTargetInterfaces | src/Castle.Core/DynamicProxy/Generators/InterfaceProxyWithoutTargetGenerator.cs:53-57 | succeeds exactly when the interfaces are distinct and unmapped; then they are appended, owned by the target, and earlier owners are kept |
| ProxyGenerators.AddMappingForTargetType | src/Castle.Core/DynamicProxy/Generators/InterfaceProxyWithTargetInterfaceGenerator.cs:74-89 | maps the target's interfaces to a without-target contributor or to a change-target target contributor, by generator |
| ProxyGenerators.TargetInterfaceContributorsIntercept | src/Castle.Core/DynamicProxy/Generators/InterfaceProxyWithoutTargetGenerator.cs:51 | a proxy without target intercepts with a `null` target; a proxy with target interface intercepts by change-target on `__target` |
| ProxyGenerators.WithTargetInterfaceAdditionalContributor | src/Castle.Core/DynamicProxy/Generators/InterfaceProxyWithTargetInterfaceGenerator.cs:115-120 | additional interfaces go to an optional-target contributor |
| ProxyGenerators.WithTargetInterfaceTarget | src/Castle.Core/DynamicProxy/Generators/InterfaceProxyWithTargetInterfaceGenerator.cs:122-125 | the target is `__target` cast to the method's declaring type |
| ProxyGenerators.GeneratorTargetAgreesWithContributor | src/Castle.Core/DynamicProxy/Generators/InterfaceProxyWithTargetInterfaceGenerator.cs:122-125 | when the target type is not assignable to the declaring type, the generator's target and the contributor's coincide |
| ProxyGenerators.GenerateTypeEvents | src/Castle.Core/DynamicProxy/Generators/InterfaceProxyWithoutTargetGenerator.cs:77-96 | every contributor collects, in order, before the single inspection notice, and every contributor generates, in order, after it |
| ProxyGenerators.ClassProxyConstructorArguments | src/Castle.Core/DynamicProxy/Generators/ClassProxyGenerator.cs:96-114 | the mixin fields in order, then `__interceptors`, then `__selector` exactly when present |
| ProxyGenerators.WithoutTargetConstructorArguments | src/Castle.Core/DynamicProxy/Generators/InterfaceProxyWithoutTargetGenerator.cs:98-110 | the mixin fields, `__interceptors`, the target field, then `__selector` exactly when present |
| ProxyGenerators.TargetFieldIsTheOnlyDifference | src/Castle.Core/DynamicProxy/Generators/InterfaceProxyWithoutTargetGenerator.cs:105-110 | the two argument lists differ only by the target field inserted after `__interceptors` |

## Left out

- Reflection.Emit itself is not modelled: the IL of every method body, `TypeBuilder`, `MethodBuilder`, and the code builders. Bodies are abstract statement sequences.
- The debugger workaround in `AbstractTypeEmitter.cs:342-374` and the generation of nested types and member builders are not modelled.
- Logging is left out: it changes no decision.
- The `XmlIgnore` and `Serializable` custom attributes are left out, and so are the SILVERLIGHT-only branches.
- `BaseProxyGenerator` is not part of this model. Its `AddMapping` is modelled as a dictionary insert that keeps an existing implementer. `AddMappingForISerializable` is modelled the same way. `HandleExplicitlyPassedProxyTargetAccessor` is modelled as a proxy-generation error.
- `GenerateParameterlessConstructor`, `GenerateConstructors`, `CompleteInitCacheMethod` and `InitializeStaticFields` are not modelled: they only emit IL.
- `INamingScope` is not part of this model. A scope is the list of names in use, and `GetUniqueName` returns a name with the suggestion as prefix that is not in the list. Invocation and delegate type names are drawn from the parent (module-level) scope (`InvocationTypeGenerator.cs:267`, `DelegateTypeGenerator.cs:109`). The `scope` handed to `InvocationTypes.Generate` and `DelegateTypes.Generate` is that parent scope. Interceptor-cache and token field names come from the proxy's own scope (`MethodWithInvocationGenerator.cs:53`, `82`, `93`, `102`), and so do mixin field names (`MixinContributor.cs:95`).
- Naming.SafeSubScope: how a child scope relates to its parent is not part of this model, so a sub-scope starts with no names in use. Names drawn from it are unique among themselves only.
- ClassEmitter.NewClassEmitter: promises only that the collected generic parameter names are distinct and start with their suggestions. It does not promise that they avoid the module scope's names, because they are drawn from a sub-scope (`ClassEmitter.cs:51`; see `Naming.SafeSubScope`).
- `TypeUtil.GetAllInterfaces`, `MetaMethod`, `CacheKey` and the members collectors are not part of this model. The interfaces of a type and each method's facts (proxyable, has target, access, method on target) are inputs.
- `null` predicates and actions passed to `CollectionExtensions` cannot be expressed: Dafny functions are total.
- Array rank is kept as a number, and `FullName` is the type's name.
- `CreateCallbackMethod` is not modelled: its IL body is out of scope, and the callback is the method on the target.
- Contributors.DelegateInvocationContributor: `InvocationWithDelegateContributor` and `InvocationWithGenericDelegateContributor` are not part of this model. Their callback is taken to be the delegate's `Invoke`, and the constructor they build to take the invocation base constructor's arguments; the call expressions they emit are not modelled.
- TypeEmitter.GetBuilder: `GenericMap` is not part of this model. Its lookup is taken to be by the parameter's name in the emitter's table, failing with key-not-found when the name is missing.
- TypeEmitter.ClosedParameterTypes: `GetClosedParameterType` is not part of this model. It is taken to be `GenericUtil.ExtractCorrectType` over the emitter's table: a generic parameter, or an array of one, is substituted, while constructed and by-ref parameter types stay open.
- TypeEmitter.AdjustMethod: the emitter is assumed to have as many generic parameters as the definition has, so the argument-count error of `MakeGenericType` is not modelled.
- GenericUtil.GenericArgumentsOf: a generic parameter standing as an argument of a constructed type is taken with no attributes and no constraints.
- GenericUtil.CopyGenericArguments: `CopyNonInheritableAttributes` (`GenericUtil.cs:209`, `212-218`) is not modelled: custom attributes are out of scope.
- GenericUtil.AdjustClosedConstraintIsUnchanged: requires a well-formed constraint (a constructed type over a definition with as many arguments as it has parameters), as reflection guarantees.
- GenericUtil.AdjustGenericConstraintSucceeds: requires a well-formed constraint. A constructed type with fewer or more arguments than its definition has parameters would make `MakeGenericType` fail with an argument error; reflection never produces one.
- Collections.Split: takes a present collection; a `null` one would throw a null-reference error.
- TypeEmitter.BuiltType: keeps the generic parameters' names and positions, but drops their attributes and constraints.
- ClassEmitter.NewClassEmitter: the type builder's own generic state is not modelled. `ClassEmitter.cs:104` makes the builder generic when the constructor collected parameter names, while the emitter's `GenericTypeParams` stay `null`. The generators then copy generic parameters onto the same builder (`ClassProxyGenerator.cs:57`, `InterfaceProxyWithoutTargetGenerator.cs:66`, `InterfaceProxyWithTargetInterfaceGenerator.cs:96`), a second `DefineGenericParameters` whose outcome the framework decides. `InvocationTypeGenerator.cs:73` and `MethodWithInvocationGenerator.cs:75` read the builder; the model reads the emitter's parameters, which agree whenever the constructor collected no names (`ClassEmitter.ClosedTypesSuggestNothing`).
- GenericUtil.TypeParameterConstraintResolution: a type-level parameter is resolved by its recorded position. The source uses `IndexOf` over the declaring type's generic arguments, which gives the same position for a well-formed type.
- DelegateTypes.GetProxyType: a delegate type registered before a later failure in the same generation stays registered. The model returns the cache of the failing lookup unchanged.
- ProxyGenerators.WithTargetInterfaceAdditionalContributor: `InterfaceProxyWithTargetInterfaceGenerator.cs:118` passes two delegates that do not match the constructor at `InterfaceProxyWithOptionalTargetContributor.cs:30-34`. The model uses the contributor's own `GetTarget` rule and proves it agrees with the generator's where both apply.
- Contributors.InterfaceProxyTargetGenerator: `InterfaceProxyTargetContributor.cs:79-81` calls the composition invocation generator with three arguments `(method, @class, namingScope)`, while its only constructor (`CompositionInvocationTypeGenerator.cs:34-36`) takes eight, among them the target type, the callback and the contributor. The model fills them in as the change-target generator does (`ChangeTargetInvocationTypeGenerator.cs:30-31`): the callback is the declared method, there is no contributor, and the target field's type is the method's declaring type.
- Contributors.WithoutTargetGenerator: `InterfaceProxyWithoutTargetContributor.cs:59` makes the same three-argument composition call. The model supplies no callback and no contributor, with the declaring type as target field type: the interception's target is `null` (`InterfaceProxyWithoutTargetContributor.cs:52`), so there is no method to call back, and proceeding ends in the missing-target failure a proxy without target reports. The change-target fill-in used for the other three calls would instead call a method on a `null` target.
- Contributors.DelegateProxyTargetGenerator: `DelegateProxyTargetContributor.cs:52` makes the same three-argument composition call, filled in the same way.
- Contributors.MixinGenerator: `MixinContributor.cs:108` makes the same three-argument composition call, filled in the same way; the change-target path (`MixinContributor.cs:100-106`) matches its constructor.
- Contributors.ClassProxyTargetGenerator: `ClassProxyTargetContributor.cs:90` passes five arguments `(method, callback, @class, namingScope, contributor)` in another order than the six-parameter constructor at `InheritanceInvocationTypeGenerator.cs:33` `(method, callback, contributor, @class, options, namingScope)`. The model takes each argument by its meaning (the callback as callback, the contributor as contributor) and leaves the options out.
- ProxyGenerators.AddMappingForTargetType: `InterfaceProxyWithoutTargetGenerator.cs:51` passes a naming scope and a target delegate to the one-parameter constructor at `InterfaceProxyWithoutTargetContributor.cs:27`; the model drops the delegate, whose `null` target is the one the contributor uses anyway. `InterfaceProxyWithTargetInterfaceGenerator.cs:78-81` builds `InterfaceProxyWithTargetInterfaceTargetContributor`, which is not part of this model; it is taken to be the interface target contributor over the proxy target type with change of target allowed.
- The class proxy's emitter is not modelled: `ClassProxyGenerator.cs:54` builds a `ClassEmitterSupportingGenericsTEMP`, which is not part of this model, so the refusal of an open generic base class in `ClassEmitter.cs:78-81` (`ClassEmitter.NewClassEmitter`) does not apply to a class proxy.

## Findings

| source | as written | input that shows it | evidently intended | confidence | as-written member | corrected member |
|---|---|---|---|---|---|---|
| src/Castle.Core/DynamicProxy/Generators/InterfaceProxyWithoutTargetGenerator.cs:33 | the constructor passes `additionalInterfacesToProxy` to `GetTargetType` without replacing `null` by an empty array, and `GetTargetType` (lines 137-145) calls `None` on it, which calls `Array.Exists` | a closed generic interface such as `IList<object>` with `null` additional interfaces: `Array.Exists(null, …)` throws `ArgumentNullException` | `null` read as no additional interfaces, as `ClassProxyGenerator.cs:40` and `InterfaceProxyWithTargetInterfaceGenerator.cs:36-37` do, giving an open proxy over `IList<>` | not executed | ProxyGenerators.WithoutTargetRejectsNullAdditionalInterfaces | ProxyGenerators.InterfaceProxySetup |

=== FILE: class_emitter.dfy ===
/** `ClassEmitter`: creating the type builder of a proxy class. It decides
    whether the class lives in the signed or the unsigned module, rejects an
    open generic base class, and draws a unique name for every generic
    parameter of each generic interface definition it implements. */
module ClassEmitter {
  import opened Wrappers
  import opened ClrTypes
  import Naming
  import TypeEmitter
  import Collections

  /** The emitter of a proxy class together with the facts its constructor settles.
      - `signed`: the class is defined in the strong-named module.
      - `interfaces`: the interfaces added to the builder, in order.
      - `genericParameterNames`: the names given to `DefineGenericParameters`,
        `None` when that call is skipped. */
  datatype ClassEmitterState = ClassEmitterState(
    emitter: TypeEmitter.Emitter,
    signed: bool,
    interfaces: seq<Ty>,
    genericParameterNames: Option<seq<string>>)

  /** What the runtime environment answers: whether an assembly can be
      strong-named here (`StrongNameUtil.CanStrongNameAssembly`) and which
      types come from unsigned assemblies. */
  datatype Environment = Environment(canStrongNameAssembly: bool, fromUnsignedAssembly: Ty -> bool)

  /** `ShouldForceUnsigned`: signing is forced off exactly when strong-naming
      an assembly is impossible in this environment. */
  function ShouldForceUnsigned(canStrongNameAssembly: bool): (r: bool)
    ensures r <==> !canStrongNameAssembly
  {
    !canStrongNameAssembly
  }

  /** Whether the base type or any interface comes from an unsigned assembly;
      a `null` base type is ignored. The assembly test itself is a parameter. */
  predicate AnyTypeFromUnsignedAssembly(baseType: Option<Ty>, interfaces: seq<Ty>, fromUnsignedAssembly: Ty -> bool)
  {
    (baseType.Some? && fromUnsignedAssembly(baseType.value))
    || exists i :: 0 <= i < |interfaces| && fromUnsignedAssembly(interfaces[i])
  }

  /** `CreateTypeBuilder`'s choice of module: signed only when signing is not
      forced off and every involved type comes from a signed assembly. */
  function IsAssemblySigned(forceUnsigned: bool, baseType: Option<Ty>, interfaces: seq<Ty>, fromUnsignedAssembly: Ty -> bool): (r: bool)
    ensures r ==> !forceUnsigned
    ensures r ==> baseType.None? || !fromUnsignedAssembly(baseType.value)
    ensures r ==> forall i :: 0 <= i < |interfaces| ==> !fromUnsignedAssembly(interfaces[i])
    ensures !r ==> forceUnsigned || AnyTypeFromUnsignedAssembly(baseType, interfaces, fromUnsignedAssembly)
  {
    !forceUnsigned && !AnyTypeFromUnsignedAssembly(baseType, interfaces, fromUnsignedAssembly)
  }

  /** Adding one more interface from an unsigned assembly moves the class to
      the unsigned module, whatever else is involved. */
  lemma UnsignedInterfaceForcesUnsigned(forceUnsigned: bool, baseType: Option<Ty>, interfaces: seq<Ty>, extra: Ty, fromUnsignedAssembly: Ty -> bool)
    requires fromUnsignedAssembly(extra)
    ensures !IsAssemblySigned(forceUnsigned, baseType, interfaces + [extra], fromUnsignedAssembly)
  {
    assert (interfaces + [extra])[|interfaces|] == extra;
  }

  /** The `Name`s of a type's generic arguments when it is a generic type
      definition, and nothing for any other type. */
  function ArgumentNames(t: Ty): (r: seq<string>)
    ensures !IsGenericTypeDefinition(t) ==> r == []
    ensures IsGenericTypeDefinition(t) ==>
              |r| == |GetGenericArguments(t)|
              && forall i :: 0 <= i < |r| ==> r[i] == NameOf(GetGenericArguments(t)[i])
  {
    if !IsGenericTypeDefinition(t) then []
    else
      var arguments := GetGenericArguments(t);
      seq(|arguments|, i requires 0 <= i < |arguments| => NameOf(arguments[i]))
  }

  /** The names suggested for the generic parameters of the class: those of
      each type in order. */
  function Suggestions(types: seq<Ty>): seq<string>
  {
    if |types| == 0 then [] else ArgumentNames(types[0]) + Suggestions(types[1..])
  }

  lemma {:induction false} SuggestionsAppend(types: seq<Ty>, t: Ty)
    ensures Suggestions(types + [t]) == Suggestions(types) + ArgumentNames(t)
    decreases |types|
  {
    if |types| == 0 {
      assert types + [t] == [t];
      assert Suggestions([t]) == ArgumentNames(t) + Suggestions([]);
    } else {
      assert (types + [t])[0] == types[0];
      assert (types + [t])[1..] == types[1..] + [t];
      SuggestionsAppend(types[1..], t);
    }
  }

  /** Types that are not generic type definitions suggest no names, so a
      class over such interfaces never reaches `DefineGenericParameters`. */
  lemma {:induction false} ClosedTypesSuggestNothing(types: seq<Ty>)
    requires forall i :: 0 <= i < |types| ==> !IsGenericTypeDefinition(types[i])
    ensures Suggestions(types) == []
    decreases |types|
  {
    if |types| > 0 {
      ClosedTypesSuggestNothing(types[1..]);
    }
  }

  /** `CollectGenericParameters`: appends a unique name for each generic
      argument of a generic type definition; any other type adds nothing. */
  function CollectGenericParameters(t: Ty, scope: Naming.NamingScope, cache: seq<string>): (r: (seq<string>, Naming.NamingScope))
    ensures !IsGenericTypeDefinition(t) ==> r == (cache, scope)
    ensures r.0 == cache + Naming.GetUniqueNames(scope, ArgumentNames(t)).0
    ensures r.1 == Naming.GetUniqueNames(scope, ArgumentNames(t)).1
  {
    if !IsGenericTypeDefinition(t) then (cache, scope)
    else
      var drawn := Naming.GetUniqueNames(scope, ArgumentNames(t));
      (cache + drawn.0, drawn.1)
  }

  /** The names the constructor collects: none from the base type (a generic
      definition was refused before), then those of each interface in turn,
      drawn from a sub-scope of the module's naming scope. */
  function CollectedNames(namingScope: Naming.NamingScope, interfaces: seq<Ty>): seq<string>
  {
    Naming.GetUniqueNames(Naming.SafeSubScope(namingScope), Suggestions(interfaces)).0
  }

  /** The `ClassEmitter` constructor. The module is chosen first; then an open
      generic base type is refused; the interfaces are added; the generic
      parameter names are collected; they are defined only if there are any;
      and the base type becomes the parent. A `null` base type fails when its
      generic-ness is queried. */
  function NewClassEmitter(namingScope: Naming.NamingScope, baseType: Option<Ty>, interfaces: Option<seq<Ty>>,
                           forceUnsigned: bool, fromUnsignedAssembly: Ty -> bool): (r: Result<ClassEmitterState>)
    ensures baseType.Some? && IsGenericTypeDefinition(baseType.value) ==> r == Err(NotSupported)
    ensures baseType.None? ==> r == Err(NullReference)
    ensures r.Ok? <==> baseType.Some? && !IsGenericTypeDefinition(baseType.value)
    ensures r.Ok? ==> r.value.signed == IsAssemblySigned(forceUnsigned, baseType, Collections.Contents(interfaces), fromUnsignedAssembly)
    ensures r.Ok? ==> r.value.interfaces == Collections.Contents(interfaces)
    ensures r.Ok? ==> r.value.emitter == TypeEmitter.NewEmitter(false, baseType)
    ensures r.Ok? ==> (r.value.genericParameterNames.None? <==> Suggestions(Collections.Contents(interfaces)) == [])
    ensures r.Ok? && r.value.genericParameterNames.Some? ==>
              var names := r.value.genericParameterNames.value;
              var suggested := Suggestions(Collections.Contents(interfaces));
              |names| == |suggested|
              && (forall i :: 0 <= i < |names| ==> suggested[i] <= names[i])
              && (forall i, j :: 0 <= i < j < |names| ==> names[i] != names[j])
  {
    var ifaces := Collections.Contents(interfaces);
    var signed := IsAssemblySigned(forceUnsigned, baseType, ifaces, fromUnsignedAssembly);
    if baseType.Some? && IsGenericTypeDefinition(baseType.value) then Err(NotSupported)
    else if baseType.None? then Err(NullReference)
    else
      var names := CollectedNames(namingScope, ifaces);
      Naming.GetUniqueNamesAreFresh(Naming.SafeSubScope(namingScope), Suggestions(ifaces));
      Ok(ClassEmitterState(TypeEmitter.NewEmitter(false, baseType), signed, ifaces,
                           if |names| == 0 then None else Some(names)))
  }

  /** The collection loop of the constructor: `CollectGenericParameters` on
      the base type and then on every interface, threading one naming scope.
      It yields exactly the names drawn for all suggestions at once. */
  method CollectGenericParameterNames(namingScope: Naming.NamingScope, baseType: Ty, interfaces: seq<Ty>)
    returns (cache: seq<string>)
    requires !IsGenericTypeDefinition(baseType)
    ensures cache == CollectedNames(namingScope, interfaces)
  {
    var scope := Naming.SafeSubScope(namingScope);
    var start := scope;
    cache := [];
    var collected := CollectGenericParameters(baseType, scope, cache);
    cache, scope := collected.0, collected.1;
    for k := 0 to |interfaces|
      invariant cache == Naming.GetUniqueNames(start, Suggestions(interfaces[..k])).0
      invariant scope == Naming.GetUniqueNames(start, Suggestions(interfaces[..k])).1
    {
      assert interfaces[..k + 1] == interfaces[..k] + [interfaces[k]];
      SuggestionsAppend(interfaces[..k], interfaces[k]);
      Naming.GetUniqueNamesAppend(start, Suggestions(interfaces[..k]), ArgumentNames(interfaces[k]));
      collected := CollectGenericParameters(interfaces[k], scope, cache);
      cache, scope := collected.0, collected.1;
    }
    assert interfaces[..|interfaces|] == interfaces;
  }
}

=== FILE: clr_types.dfy ===
/** An abstract picture of the reflection objects the proxy generator inspects:
    types, generic parameters, methods and the per-member `MetaMethod` record.
    Only the facts the decision layer reads are kept. */
module ClrTypes {
  import Wrappers

  /** What kind of type a named type is. */
  datatype Kind = Class | Interface | Struct

  /** Where a generic parameter was declared: `DeclaringMethod != null` or not. */
  datatype ParamOwner = DeclaredOnMethod | DeclaredOnType

  /** A runtime type.
      - `Plain`: a non-generic named type.
      - `GenericDef`: an open generic type definition such as `IList<>`.
      - `Constructed`: a generic definition applied to arguments such as `IList<int>`.
      - `Param`: a generic parameter of some existing type or method.
      - `Builder`: a generic parameter defined on a type under construction
        (a `GenericTypeParameterBuilder`).
      - `ArrayOf`: an array with the given rank; `ByRef`: a `ref`/`out` type. */
  datatype Ty =
    | Void
    | Plain(fullName: string, kind: Kind)
    | GenericDef(fullName: string, kind: Kind, parameters: seq<GenericArg>)
    | Constructed(definition: Ty, arguments: seq<Ty>)
    | Param(name: string, owner: ParamOwner, position: nat)
    | Builder(name: string, position: nat)
    | ArrayOf(element: Ty, rank: nat)
    | ByRef(element: Ty)

  /** A generic parameter together with what reflection reports about it:
      `GenericParameterAttributes` flags and `GetGenericParameterConstraints()`. */
  datatype GenericArg = GenericArg(param: Ty, attributes: bv32, constraints: seq<Ty>)

  predicate IsGenericType(t: Ty)
  {
    t.GenericDef? || t.Constructed?
  }

  predicate IsGenericTypeDefinition(t: Ty)
  {
    t.GenericDef?
  }

  predicate IsGenericParameter(t: Ty)
  {
    t.Param? || t.Builder?
  }

  predicate IsInterface(t: Ty)
  {
    match t
    case Plain(_, kind) => kind == Interface
    case GenericDef(_, kind, _) => kind == Interface
    case Constructed(definition, _) => definition.GenericDef? && definition.kind == Interface
    case _ => false
  }

  /** `Type.Name` of a generic parameter; the full name of any other named type. */
  function NameOf(t: Ty): string
  {
    match t
    case Param(name, _, _) => name
    case Builder(name, _) => name
    case Plain(fullName, _) => fullName
    case GenericDef(fullName, _, _) => fullName
    case Constructed(definition, _) => if definition.GenericDef? then definition.fullName else ""
    case _ => ""
  }

  /** The part of a dotted full name after its last dot. */
  function AfterLastDot(s: string): (r: string)
    ensures '.' !in r
    ensures |r| <= |s| && r == s[|s| - |r|..]
    ensures '.' !in s ==> r == s
  {
    if |s| == 0 then ""
    else if s[|s| - 1] == '.' then ""
    else
      var rest := AfterLastDot(s[..|s| - 1]);
      assert s[..|s| - 1][|s| - 1 - |rest|..] == s[|s| - 1 - |rest|..|s| - 1];
      rest + [s[|s| - 1]]
  }

  /** `Type.Name`: the name without its namespace. */
  function SimpleName(t: Ty): string
  {
    AfterLastDot(NameOf(t))
  }

  /** The parameters of a generic argument list, as `Type[]`. */
  function ParamsOf(args: seq<GenericArg>): (r: seq<Ty>)
    ensures |r| == |args|
    ensures forall i :: 0 <= i < |args| ==> r[i] == args[i].param
  {
    seq(|args|, i requires 0 <= i < |args| => args[i].param)
  }

  /** `Type.GetGenericArguments()`: a definition reports its own parameters,
      a constructed type its arguments, any other type nothing. */
  function GetGenericArguments(t: Ty): seq<Ty>
  {
    match t
    case GenericDef(_, _, parameters) => ParamsOf(parameters)
    case Constructed(_, arguments) => arguments
    case _ => []
  }

  /** `Type.GetGenericTypeDefinition()`, defined for generic types only. */
  function GetGenericTypeDefinition(t: Ty): Ty
    requires IsGenericType(t)
  {
    if t.GenericDef? then t else t.definition
  }

  /** `Type.MakeGenericType`: a generic type definition closed over one type
      argument per parameter. On any other type it is an invalid operation,
      a `null` argument array is an argument-null error and a wrong count an
      argument error. */
  function MakeGenericType(t: Ty, typeArguments: Wrappers.Option<seq<Ty>>): (r: Wrappers.Result<Ty>)
    ensures !t.GenericDef? ==> r == Wrappers.Err(Wrappers.InvalidOperation)
    ensures t.GenericDef? && typeArguments.None? ==> r == Wrappers.Err(Wrappers.ArgumentNull)
    ensures t.GenericDef? && typeArguments.Some? ==>
              (r.Ok? <==> |typeArguments.value| == |t.parameters|)
    ensures r.Err? && t.GenericDef? && typeArguments.Some? ==> r.fault == Wrappers.Argument
    ensures r.Ok? ==> IsGenericType(r.value) && !IsGenericTypeDefinition(r.value)
                      && GetGenericTypeDefinition(r.value) == t
                      && GetGenericArguments(r.value) == typeArguments.value
  {
    if !t.GenericDef? then Wrappers.Err(Wrappers.InvalidOperation)
    else if typeArguments.None? then Wrappers.Err(Wrappers.ArgumentNull)
    else if |typeArguments.value| != |t.parameters| then Wrappers.Err(Wrappers.Argument)
    else Wrappers.Ok(Constructed(t, typeArguments.value))
  }

  /** `Type.ContainsGenericParameters`. */
  predicate ContainsGenericParameters(t: Ty)
  {
    match t
    case GenericDef(_, _, _) => true
    case Param(_, _, _) => true
    case Builder(_, _) => true
    case Constructed(definition, arguments) =>
      exists i :: 0 <= i < |arguments| && ContainsGenericParameters(arguments[i])
    case ArrayOf(element, _) => ContainsGenericParameters(element)
    case ByRef(element) => ContainsGenericParameters(element)
    case _ => false
  }

  /** The shape reflection guarantees: every constructed type inside `t`
      applies a generic type definition to one argument per parameter. */
  predicate WellFormed(t: Ty)
  {
    match t
    case Constructed(definition, arguments) =>
      definition.GenericDef? && |arguments| == |definition.parameters|
      && forall i :: 0 <= i < |arguments| ==> WellFormed(arguments[i])
    case ArrayOf(element, _) => WellFormed(element)
    case ByRef(element) => WellFormed(element)
    case _ => true
  }

  /** Each generic argument of a generic type is a proper part of it. */
  lemma GenericArgumentsAreSmaller(t: Ty)
    requires IsGenericType(t)
    ensures forall k :: 0 <= k < |GetGenericArguments(t)| ==> GetGenericArguments(t)[k] < t
  {
    forall k | 0 <= k < |GetGenericArguments(t)|
      ensures GetGenericArguments(t)[k] < t
    {
      if t.GenericDef? {
        assert GetGenericArguments(t)[k] == t.parameters[k].param;
        assert t.parameters[k] in t.parameters;
      }
    }
  }

  /** Well-known framework types the generator refers to by name. */
  const ObjectType: Ty := Plain("System.Object", Class)
  const TypeType: Ty := Plain("System.Type", Class)
  const IntPtrType: Ty := Plain("System.IntPtr", Struct)
  const MethodInfoType: Ty := Plain("System.Reflection.MethodInfo", Class)
  const DelegateType: Ty := Plain("System.Delegate", Class)
  const MulticastDelegateType: Ty := Plain("System.MulticastDelegate", Class)
  const ObjectArrayType: Ty := ArrayOf(ObjectType, 1)
  const InterceptorType: Ty := Plain("Castle.DynamicProxy.IInterceptor", Interface)
  const InterceptorArrayType: Ty := ArrayOf(InterceptorType, 1)
  const InheritanceInvocationType: Ty := Plain("Castle.DynamicProxy.Internal.InheritanceInvocation", Class)
  const CompositionInvocationType: Ty := Plain("Castle.DynamicProxy.Internal.CompositionInvocation", Class)
  const ChangeTargetInvocationType: Ty := Plain("Castle.DynamicProxy.Internal.ChangeTargetInvocation", Class)
  const ChangeProxyTargetType: Ty := Plain("Castle.DynamicProxy.IChangeProxyTarget", Interface)
  const ProxyTargetAccessorType: Ty := Plain("Castle.DynamicProxy.IProxyTargetAccessor", Interface)
  const SerializableType: Ty := Plain("System.Runtime.Serialization.ISerializable", Interface)

  /** Method accessibility as reflection reports it (`IsPublic`, `IsPrivate`, ...). */
  datatype Access = Public | Private | Family | Assembly | FamilyOrAssembly | FamilyAndAssembly

  /** A method: its declaring type, generic parameters, parameter types and return type. */
  datatype Method = Method(
    name: string,
    declaringType: Ty,
    genericParameters: seq<GenericArg>,
    parameters: seq<Ty>,
    returnType: Ty,
    access: Access)

  predicate IsGenericMethod(m: Method)
  {
    |m.genericParameters| > 0
  }

  /** `MethodInfo.MakeGenericMethod`: the method closed over the given type
      arguments, one per generic parameter; a wrong count is an argument error. */
  function MakeGenericMethod(m: Method, typeArguments: seq<Ty>): (r: Wrappers.Result<Method>)
    ensures r.Ok? <==> |typeArguments| == |m.genericParameters|
    ensures r.Err? ==> r.fault == Wrappers.Argument
    ensures r.Ok? ==> ParamsOf(r.value.genericParameters) == typeArguments
    ensures r.Ok? ==> r.value.parameters == m.parameters && r.value.returnType == m.returnType
                      && r.value.name == m.name && r.value.declaringType == m.declaringType
  {
    if |typeArguments| != |m.genericParameters| then Wrappers.Err(Wrappers.Argument)
    else
      var closed := seq(|typeArguments|, i requires 0 <= i < |typeArguments| => GenericArg(typeArguments[i], 0, []));
      assert ParamsOf(closed) == typeArguments;
      Wrappers.Ok(m.(genericParameters := closed))
  }

  /** The member record built by the members collectors: the interface or
      base-class method, the method that implements it on the target, and the
      two flags the contributors branch on. */
  datatype MetaMethod = MetaMethod(declared: Method, onTarget: Method, proxyable: bool, hasTarget: bool)
}

=== FILE: collections.dfy ===
/** The array helpers of `Castle.Core.Internal.CollectionExtensions`.

    A C# array is a `seq`; an array reference that may be `null` is an
    `Wrappers.Option<seq<T>>`. The extension methods over arrays hand the
    array to the `System.Array` method of the same purpose, which refuses a
    `null` array with an argument-null error; `Exists`, `Filter` and `First`
    are those `System.Array` methods on an array that is present. Predicates,
    converters and actions are total Dafny functions, so a `null` delegate
    cannot be expressed. */
module Collections {
  import Wrappers

  /** `Array.Exists` on a present array: some element satisfies the predicate. */
  function Exists<T>(items: seq<T>, pred: T -> bool): (r: bool)
    ensures r <==> exists i :: 0 <= i < |items| && pred(items[i])
  {
    if |items| == 0 then false
    else pred(items[0]) || Exists(items[1..], pred)
  }

  /** `Any`: `Array.Exists` on the array; a `null` array is refused. */
  function Any<T>(items: Wrappers.Option<seq<T>>, pred: T -> bool): (r: Wrappers.Result<bool>)
    ensures r.Err? <==> items.None?
    ensures r.Err? ==> r.fault == Wrappers.ArgumentNull
    ensures r.Ok? ==> (r.value <==> exists i :: 0 <= i < |items.value| && pred(items.value[i]))
  {
    if items.None? then Wrappers.Err(Wrappers.ArgumentNull) else Wrappers.Ok(Exists(items.value, pred))
  }

  /** `None` over an array: the negation of `Array.Exists`, so a `null`
      array is refused just as `Any` refuses it. */
  function None<T>(items: Wrappers.Option<seq<T>>, pred: T -> bool): (r: Wrappers.Result<bool>)
    ensures r.Err? <==> items.None?
    ensures r.Err? ==> r.fault == Wrappers.ArgumentNull
    ensures r.Ok? ==> (r.value <==> forall i :: 0 <= i < |items.value| ==> !pred(items.value[i]))
    ensures r.Ok? ==> r.value == !Any(items, pred).value
  {
    if items.None? then Wrappers.Err(Wrappers.ArgumentNull) else Wrappers.Ok(!Exists(items.value, pred))
  }

  /** The elements of a possibly-null array; `null` contributes nothing. */
  function Contents<T>(a: Wrappers.Option<seq<T>>): seq<T>
  {
    if a.Some? then a.value else []
  }

  /** Reference definition of `ConcatAll`: the non-null arrays joined in argument order. */
  function Flatten<T>(arrays: seq<Wrappers.Option<seq<T>>>): seq<T>
    decreases |arrays|
  {
    if |arrays| == 0 then []
    else Flatten(arrays[..|arrays| - 1]) + Contents(arrays[|arrays| - 1])
  }

  /** `ConcatAll`: walks the arrays in order, skipping `null` ones and
      appending every element of the others to a growing list. */
  method ConcatAll<T>(arrays: seq<Wrappers.Option<seq<T>>>) returns (r: seq<T>)
    ensures r == Flatten(arrays)
  {
    var temp: seq<T> := [];
    for k := 0 to |arrays|
      invariant temp == Flatten(arrays[..k])
    {
      assert arrays[..k + 1][..k] == arrays[..k];
      if arrays[k].None? {
        continue;
      }
      temp := temp + arrays[k].value;
    }
    assert arrays[..|arrays|] == arrays;
    r := temp;
  }

  /** Joining two argument lists joins their concatenations. */
  lemma {:induction false} FlattenAppend<T>(a: seq<Wrappers.Option<seq<T>>>, b: seq<Wrappers.Option<seq<T>>>)
    ensures Flatten(a + b) == Flatten(a) + Flatten(b)
    decreases |b|
  {
    if |b| == 0 {
      assert a + b == a;
    } else {
      var b' := b[..|b| - 1];
      assert (a + b)[..|a + b| - 1] == a + b';
      assert (a + b)[|a + b| - 1] == b[|b| - 1];
      FlattenAppend(a, b');
    }
  }

  /** An element is in the concatenation iff it is in one of the non-null arrays. */
  lemma {:induction false} FlattenMembership<T>(arrays: seq<Wrappers.Option<seq<T>>>, x: T)
    ensures x in Flatten(arrays) <==> exists k :: 0 <= k < |arrays| && x in Contents(arrays[k])
    decreases |arrays|
  {
    if |arrays| > 0 {
      var front := arrays[..|arrays| - 1];
      FlattenMembership(front, x);
      if x in Flatten(arrays) && x !in Flatten(front) {
        assert x in Contents(arrays[|arrays| - 1]);
      }
      if exists k :: 0 <= k < |arrays| && x in Contents(arrays[k]) {
        var k :| 0 <= k < |arrays| && x in Contents(arrays[k]);
        if k < |arrays| - 1 {
          assert front[k] == arrays[k];
        }
      }
    }
  }

  /** A `null` argument leaves the result exactly as if it had been omitted. */
  lemma NullArrayContributesNothing<T>(a: seq<Wrappers.Option<seq<T>>>, b: seq<Wrappers.Option<seq<T>>>)
    ensures Flatten(a + [Wrappers.None] + b) == Flatten(a + b)
  {
    FlattenAppend(a + [Wrappers.None], b);
    FlattenAppend(a, b);
    assert (a + [Wrappers.None])[..|a|] == a;
  }

  /** The predicate negated, as used for the second half of `Split`. */
  function Not<T>(pred: T -> bool): T -> bool
  {
    x => !pred(x)
  }

  /** `Array.FindAll` on a present array: the elements satisfying the
      predicate, in input order. */
  function Filter<T>(items: seq<T>, pred: T -> bool): (r: seq<T>)
    ensures |r| <= |items|
    ensures forall i :: 0 <= i < |r| ==> pred(r[i]) && r[i] in items
    ensures forall i :: 0 <= i < |items| && pred(items[i]) ==> items[i] in r
  {
    if |items| == 0 then []
    else (if pred(items[0]) then [items[0]] else []) + Filter(items[1..], pred)
  }

  /** `xs` can be obtained from `ys` by deleting elements. */
  ghost predicate IsSubsequence<T>(xs: seq<T>, ys: seq<T>)
    decreases |ys|
  {
    if |xs| == 0 then true
    else if |ys| == 0 then false
    else (xs[0] == ys[0] && IsSubsequence(xs[1..], ys[1..])) || IsSubsequence(xs, ys[1..])
  }

  /** `Filter` keeps the relative order of the elements it keeps. */
  lemma {:induction false} FilterPreservesOrder<T>(items: seq<T>, pred: T -> bool)
    ensures IsSubsequence(Filter(items, pred), items)
    decreases |items|
  {
    if |items| > 0 {
      FilterPreservesOrder(items[1..], pred);
      var rest := Filter(items[1..], pred);
      if pred(items[0]) {
        assert Filter(items, pred) == [items[0]] + rest;
        assert ([items[0]] + rest)[1..] == rest;
      } else {
        assert Filter(items, pred) == rest;
      }
    }
  }

  /** Filtering distributes over concatenation. */
  lemma {:induction false} FilterAppend<T>(a: seq<T>, b: seq<T>, pred: T -> bool)
    ensures Filter(a + b, pred) == Filter(a, pred) + Filter(b, pred)
    decreases |a|
  {
    if |a| == 0 {
      assert a + b == b;
    } else {
      assert (a + b)[0] == a[0];
      assert (a + b)[1..] == a[1..] + b;
      FilterAppend(a[1..], b, pred);
    }
  }

  /** `Filter` on a sequence with a known first element. */
  lemma FilterCons<T>(x: T, rest: seq<T>, pred: T -> bool)
    ensures Filter([x] + rest, pred) == (if pred(x) then [x] else []) + Filter(rest, pred)
  {
    assert ([x] + rest)[0] == x;
    assert ([x] + rest)[1..] == rest;
  }

  /** Counted with multiplicity, the two halves of a split hold exactly the
      input's elements. */
  lemma {:induction false} SplitPartitionsElements<T>(items: seq<T>, pred: T -> bool)
    ensures multiset(Filter(items, pred)) + multiset(Filter(items, Not(pred))) == multiset(items)
    decreases |items|
  {
    if |items| > 0 {
      var x, rest := items[0], items[1..];
      assert items == [x] + rest;
      SplitPartitionsElements(rest, pred);
      FilterCons(x, rest, pred);
      FilterCons(x, rest, Not(pred));
      assert Not(pred)(x) == !pred(x);
    }
  }

  /** The two halves of a split partition the input: together they have its
      length and, counted with multiplicity, exactly its elements. */
  lemma SplitPartitions<T>(items: seq<T>, pred: T -> bool)
    ensures |Filter(items, pred)| + |Filter(items, Not(pred))| == |items|
    ensures multiset(Filter(items, pred)) + multiset(Filter(items, Not(pred))) == multiset(items)
  {
    SplitPartitionsElements(items, pred);
    assert |multiset(Filter(items, pred)) + multiset(Filter(items, Not(pred)))| == |multiset(items)|;
  }

  /** `Split`: one pass over the collection; matching elements go to the
      first array and the others to the second. */
  method Split<T>(collection: seq<T>, condition: T -> bool) returns (matching: seq<T>, nonMatching: seq<T>)
    ensures matching == Filter(collection, condition)
    ensures nonMatching == Filter(collection, Not(condition))
    ensures forall i :: 0 <= i < |matching| ==> condition(matching[i])
    ensures forall i :: 0 <= i < |nonMatching| ==> !condition(nonMatching[i])
    ensures |matching| + |nonMatching| == |collection|
    ensures multiset(matching) + multiset(nonMatching) == multiset(collection)
  {
    matching := [];
    nonMatching := [];
    for k := 0 to |collection|
      invariant matching == Filter(collection[..k], condition)
      invariant nonMatching == Filter(collection[..k], Not(condition))
    {
      var item := collection[k];
      assert collection[..k + 1] == collection[..k] + [item];
      FilterAppend(collection[..k], [item], condition);
      FilterAppend(collection[..k], [item], Not(condition));
      assert Filter([item], condition) == (if condition(item) then [item] else []);
      assert Filter([item], Not(condition)) == (if condition(item) then [] else [item]);
      if condition(item) {
        matching := matching + [item];
      } else {
        nonMatching := nonMatching + [item];
      }
    }
    assert collection[..|collection|] == collection;
    assert forall i :: 0 <= i < |nonMatching| ==> Not(condition)(nonMatching[i]);
    SplitPartitions(collection, condition);
  }

  /** `FindAll`: `Array.FindAll` on the array; a `null` array is refused. */
  function FindAll<T>(items: Wrappers.Option<seq<T>>, pred: T -> bool): (r: Wrappers.Result<seq<T>>)
    ensures r.Err? <==> items.None?
    ensures r.Err? ==> r.fault == Wrappers.ArgumentNull
    ensures r.Ok? ==> r.value == Filter(items.value, pred)
    ensures r.Ok? ==> forall i :: 0 <= i < |r.value| ==> pred(r.value[i]) && r.value[i] in items.value
    ensures r.Ok? ==> forall i :: 0 <= i < |items.value| && pred(items.value[i]) ==> items.value[i] in r.value
  {
    if items.None? then Wrappers.Err(Wrappers.ArgumentNull) else Wrappers.Ok(Filter(items.value, pred))
  }

  /** `Array.Find` on a present array: the first element satisfying the
      predicate, or `default(T)`. */
  function First<T>(items: seq<T>, pred: T -> bool, default: T): (r: T)
    ensures !Exists(items, pred) ==> r == default
    ensures Exists(items, pred) ==>
              exists i :: 0 <= i < |items| && r == items[i] && pred(items[i])
                          && forall j :: 0 <= j < i ==> !pred(items[j])
  {
    if |items| == 0 then default
    else if pred(items[0]) then items[0]
    else First(items[1..], pred, default)
  }

  /** When an element matches, the first match is the head of the filtered array. */
  lemma {:induction false} FirstIsHeadOfFilter<T>(items: seq<T>, pred: T -> bool, default: T)
    requires Exists(items, pred)
    ensures |Filter(items, pred)| > 0
    ensures First(items, pred, default) == Filter(items, pred)[0]
    decreases |items|
  {
    if !pred(items[0]) {
      assert Exists(items[1..], pred);
      FirstIsHeadOfFilter(items[1..], pred, default);
    }
  }

  /** `Find`: `Array.Find` on the array; a `null` array is refused. */
  function Find<T>(items: Wrappers.Option<seq<T>>, pred: T -> bool, default: T): (r: Wrappers.Result<T>)
    ensures r.Err? <==> items.None?
    ensures r.Err? ==> r.fault == Wrappers.ArgumentNull
    ensures r.Ok? && !Exists(items.value, pred) ==> r.value == default
    ensures r.Ok? && Exists(items.value, pred) ==>
              exists i :: 0 <= i < |items.value| && r.value == items.value[i] && pred(items.value[i])
                          && forall j :: 0 <= j < i ==> !pred(items.value[j])
  {
    if items.None? then Wrappers.Err(Wrappers.ArgumentNull) else Wrappers.Ok(First(items.value, pred, default))
  }

  /** `Find` and `FindAll` agree: both refuse a `null` array, and when an
      element matches, `Find` returns the head of `FindAll`. */
  lemma FindIsFirstOfFindAll<T>(items: Wrappers.Option<seq<T>>, pred: T -> bool, default: T)
    ensures Find(items, pred, default).Err? <==> FindAll(items, pred).Err?
    ensures Any(items, pred) == Wrappers.Ok(true) ==>
              |FindAll(items, pred).value| > 0
              && Find(items, pred, default).value == FindAll(items, pred).value[0]
  {
    if Any(items, pred) == Wrappers.Ok(true) {
      FirstIsHeadOfFilter(items.value, pred, default);
    }
  }

  /** `ConvertAll`: `Array.ConvertAll`, which refuses a `null` array and
      otherwise applies the transformation position by position. */
  method ConvertAll<T, U>(items: Wrappers.Option<seq<T>>, transformation: T -> U) returns (r: Wrappers.Result<seq<U>>)
    ensures r.Err? <==> items.None?
    ensures r.Err? ==> r.fault == Wrappers.ArgumentNull
    ensures r.Ok? ==> |r.value| == |items.value|
    ensures r.Ok? ==> forall i :: 0 <= i < |items.value| ==> r.value[i] == transformation(items.value[i])
  {
    if items.None? {
      return Wrappers.Err(Wrappers.ArgumentNull);
    }
    var xs := items.value;
    var converted: seq<U> := [];
    for k := 0 to |xs|
      invariant |converted| == k
      invariant forall i :: 0 <= i < k ==> converted[i] == transformation(xs[i])
    {
      converted := converted + [transformation(xs[k])];
    }
    r := Wrappers.Ok(converted);
  }

  /** `IsNullOrEmpty`: the collection is `null` or enumerates nothing. */
  function IsNullOrEmpty<T>(items: Wrappers.Option<seq<T>>): (r: bool)
    ensures r <==> items == Wrappers.None || items == Wrappers.Some([])
  {
    items.None? || |items.value| == 0
  }

  /** The effect of running an action on each element in order, with the
      action modelled as a transition of the caller's state. */
  function FoldLeft<S, T>(action: (S, T) -> S, state: S, items: seq<T>): S
    decreases |items|
  {
    if |items| == 0 then state else FoldLeft(action, action(state, items[0]), items[1..])
  }

  /** `ForEach`: does nothing on `null`; otherwise runs the action once per
      element, first to last. */
  method ForEach<S, T>(items: Wrappers.Option<seq<T>>, action: (S, T) -> S, state: S) returns (r: S)
    ensures items.None? ==> r == state
    ensures items.Some? ==> r == FoldLeft(action, state, items.value)
  {
    if items.None? {
      return state;
    }
    var xs := items.value;
    r := state;
    for k := 0 to |xs|
      invariant FoldLeft(action, r, xs[k..]) == FoldLeft(action, state, xs)
    {
      assert xs[k..][1..] == xs[k + 1..];
      r := action(r, xs[k]);
    }
  }

  /** An action that logs its argument: the log is the element sequence,
      so every element is visited exactly once and in order. */
  function Record<T>(log: seq<T>, item: T): seq<T>
  {
    log + [item]
  }

  lemma {:induction false} ForEachVisitsEachElementOnceInOrder<T>(prefix: seq<T>, items: seq<T>)
    ensures FoldLeft(Record, prefix, items) == prefix + items
    decreases |items|
  {
    if |items| > 0 {
      ForEachVisitsEachElementOnceInOrder(prefix + [items[0]], items[1..]);
      assert prefix + [items[0]] + items[1..] == prefix + items;
    }
  }

  /** A collection is null-or-empty exactly when `ForEach`, running an
      action that records what it sees, records nothing. */
  lemma IsNullOrEmptyIffNothingVisited<T>(items: Wrappers.Option<seq<T>>)
    ensures IsNullOrEmpty(items) <==> FoldLeft(Record, [], Contents(items)) == []
  {
    ForEachVisitsEachElementOnceInOrder([], Contents(items));
  }
}

=== FILE: contributors.dfy ===
/** The type contributors: for the interfaces a contributor owns, which
    members collectors it runs, and for each collected member which method
    generator it picks, with the invocation kind and the target expression
    of an intercepting one. The collectors themselves (which members a type
    exposes) are not modelled; a member reaches a contributor as a
    `MetaMethod`. */
module Contributors {
  import opened Wrappers
  import opened ClrTypes
  import opened Statements
  import Naming
  import TypeEmitter
  import TypeCache
  import ClassEmitter
  import DelegateTypes
  import InvocationTypes

  /** A contributor with the parameters its `GetMethodGenerator` reads.
      - `ClassProxyTarget`: the class a class proxy derives from.
      - `ClassProxyWithTargetTarget`: the class a class proxy with target wraps.
      - `InterfaceProxyTarget`: the target of an interface proxy with target.
      - `InterfaceProxyWithOptionalTarget`: additional interfaces of an
        interface proxy with target interface; `assignableTo` holds the types
        the proxy target type is assignable to.
      - `InterfaceProxyWithoutTarget`.
      - `Mixin`: mixins; `empty` are mixin interfaces whose members are not
        intercepted but which still get a field.
      - `DelegateProxyTarget`: a delegate proxy. */
  datatype Contributor =
    | ClassProxyTarget(targetType: Ty, methodsToSkip: seq<Method>)
    | ClassProxyWithTargetTarget(targetType: Ty, methodsToSkip: seq<Method>)
    | InterfaceProxyTarget(proxyTargetType: Ty, canChangeTarget: bool)
    | InterfaceProxyWithOptionalTarget(proxyTargetType: Ty, assignableTo: set<Ty>)
    | InterfaceProxyWithoutTarget
    | Mixin(canChangeTarget: bool, empty: seq<Ty>)
    | DelegateProxyTarget(targetType: Ty)

  // ---------------------------------------------------------------- collectors

  /** A members collector.
      - `ClassMembers(t)`: the overridable members of a class.
      - `WrappedClassMembers(t)`: the members of a wrapped class.
      - `InterfaceMembersOnClass(iface, onlyProxyVirtual, mappedOn)`: the
        members of an interface, through `mappedOn.GetInterfaceMap(iface)`.
      - `InterfaceMembers(iface)`: the members of an interface.
      - `DelegateMembers(t)`: the `Invoke` method of a delegate type. */
  datatype Collector =
    | ClassMembers(t: Ty)
    | WrappedClassMembers(t: Ty)
    | InterfaceMembersOnClass(iface: Ty, onlyProxyVirtual: bool, mappedOn: Ty)
    | InterfaceMembers(iface: Ty)
    | DelegateMembers(t: Ty)

  /** The type whose members a collector collects. */
  function CollectedType(c: Collector): Ty
  {
    match c
    case ClassMembers(t) => t
    case WrappedClassMembers(t) => t
    case InterfaceMembersOnClass(iface, _, _) => iface
    case InterfaceMembers(iface) => iface
    case DelegateMembers(t) => t
  }

  function CollectedTypes(collectors: seq<Collector>): (r: seq<Ty>)
    ensures |r| == |collectors|
    ensures forall i :: 0 <= i < |collectors| ==> r[i] == CollectedType(collectors[i])
  {
    seq(|collectors|, i requires 0 <= i < |collectors| => CollectedType(collectors[i]))
  }

  /** `CollectElementsToProxyInternal`, given the interfaces the contributor
      was asked to implement. A class contributor collects its class first
      and then each interface through the class's interface map; a delegate
      contributor collects only the delegate; every other contributor
      collects each interface in order, a mixin only its proxied ones. */
  function Collectors(c: Contributor, interfaces: seq<Ty>): (r: seq<Collector>)
    ensures (c.ClassProxyTarget? || c.ClassProxyWithTargetTarget?) ==>
              CollectedTypes(r) == [c.targetType] + interfaces
              && (c.ClassProxyTarget? <==> r[0].ClassMembers?)
              && (c.ClassProxyWithTargetTarget? <==> r[0].WrappedClassMembers?)
              && forall i :: 1 <= i < |r| ==> r[i].InterfaceMembersOnClass? && r[i].onlyProxyVirtual && r[i].mappedOn == c.targetType
    ensures c.InterfaceProxyTarget? ==>
              CollectedTypes(r) == interfaces
              && forall i :: 0 <= i < |r| ==> r[i].InterfaceMembersOnClass? && !r[i].onlyProxyVirtual && r[i].mappedOn == c.proxyTargetType
    ensures (c.InterfaceProxyWithOptionalTarget? || c.InterfaceProxyWithoutTarget? || c.Mixin?) ==>
              CollectedTypes(r) == interfaces && forall i :: 0 <= i < |r| ==> r[i].InterfaceMembers?
    ensures c.DelegateProxyTarget? ==> r == [DelegateMembers(c.targetType)]
  {
    match c
    case ClassProxyTarget(targetType, _) =>
      [ClassMembers(targetType)] + OnClass(interfaces, true, targetType)
    case ClassProxyWithTargetTarget(targetType, _) =>
      [WrappedClassMembers(targetType)] + OnClass(interfaces, true, targetType)
    case InterfaceProxyTarget(proxyTargetType, _) =>
      OnClass(interfaces, false, proxyTargetType)
    case DelegateProxyTarget(targetType) =>
      [DelegateMembers(targetType)]
    case _ =>
      seq(|interfaces|, i requires 0 <= i < |interfaces| => InterfaceMembers(interfaces[i]))
  }

  /** One interface-map collector per interface, in order. */
  function OnClass(interfaces: seq<Ty>, onlyProxyVirtual: bool, mappedOn: Ty): (r: seq<Collector>)
    ensures |r| == |interfaces|
    ensures forall i :: 0 <= i < |r| ==> r[i] == InterfaceMembersOnClass(interfaces[i], onlyProxyVirtual, mappedOn)
  {
    seq(|interfaces|, i requires 0 <= i < |interfaces| => InterfaceMembersOnClass(interfaces[i], onlyProxyVirtual, mappedOn))
  }

  // ------------------------------------------------------- generator choices

  /** The invocation-creation contributor of a member called through a
      delegate: the plain one for a non-generic delegate type, the generic
      one, reading its target from the given invocation field, otherwise. */
  datatype DelegateContributor =
    | InvocationWithDelegate(delegateType: Ty, targetType: Ty)
    | InvocationWithGenericDelegate(delegateType: Ty, boundTo: TargetReference)

  /** What `GetMethodGenerator` returns.
      - `NoGenerator`: `null`, the member is not overridden.
      - `Minimalistic`: a stub that returns the default value.
      - `Forwarding(target)`: a direct call on the target.
      - `OptionallyForwarding(target)`: a call on the target if there is one.
      - `WithInvocation(kind, target, callback, targetFieldType, contributor)`:
        full interception through an invocation type of the given kind,
        created with that callback (`null` when none), that target field
        type where the contributor fixes it, and that delegate contributor. */
  datatype GeneratorChoice =
    | NoGenerator
    | Minimalistic
    | Forwarding(target: Target)
    | OptionallyForwarding(target: Target)
    | WithInvocation(kind: InvocationTypes.InvocationKind, target: Target, callback: Option<Method>,
                     targetFieldType: Option<Ty>, contributor: Option<DelegateContributor>)

  /** A choice together with the cache and naming scope after it: choosing
      the delegate path generates (or looks up) the delegate type at once. */
  datatype Chosen = Chosen(choice: GeneratorChoice, cache: TypeCache.Cache, scope: Naming.NamingScope)

  /** `GetContributor` of the class contributors. */
  function GetContributor(delegateType: Ty, targetType: Ty, boundTo: TargetReference): (r: DelegateContributor)
    ensures r.delegateType == delegateType
    ensures r.InvocationWithDelegate? <==> !IsGenericType(delegateType)
    ensures r.InvocationWithDelegate? ==> r.targetType == targetType
    ensures r.InvocationWithGenericDelegate? ==> r.boundTo == boundTo
  {
    if !IsGenericType(delegateType) then InvocationWithDelegate(delegateType, targetType)
    else InvocationWithGenericDelegate(delegateType, boundTo)
  }

  /** The delegate path: the delegate type for the member on `targetType`,
      from the cache or generated, and the contributor built over it. */
  function DelegatePath(meta: MetaMethod, targetType: Ty, boundTo: TargetReference, env: ClassEmitter.Environment,
                        cache: TypeCache.Cache, scope: Naming.NamingScope)
    : (r: Result<(DelegateContributor, TypeCache.Cache, Naming.NamingScope)>)
    ensures var lookup := DelegateTypes.GetProxyType(meta, targetType, env, cache, scope);
            (r.Ok? <==> lookup.result.Ok?)
            && (r.Ok? ==> r.value == (GetContributor(lookup.result.value, targetType, boundTo), lookup.cache, lookup.state))
  {
    var lookup := DelegateTypes.GetProxyType(meta, targetType, env, cache, scope);
    match lookup.result
    case Err(f) => Err(f)
    case Ok(delegateType) => Ok((GetContributor(delegateType, targetType, boundTo), lookup.cache, lookup.state))
  }

  /** The type a class proxy's invocation receives as a token: the target
      class, closed over the proxy's generic parameters when it is a generic
      type definition. */
  function ClosedTargetType(targetType: Ty, proxy: TypeEmitter.Emitter): (r: Result<Ty>)
    ensures !IsGenericTypeDefinition(targetType) ==> r == Ok(targetType)
    ensures IsGenericTypeDefinition(targetType) ==> r == MakeGenericType(targetType, proxy.genericTypeParams)
  {
    if IsGenericTypeDefinition(targetType) then MakeGenericType(targetType, proxy.genericTypeParams) else Ok(targetType)
  }

  /** `ClassProxyTargetContributor.GetMethodGenerator`.
      - A skipped method gets no generator; a non-proxyable one a stub.
      - A private method on the target (an explicit interface
        implementation) is intercepted through a delegate, bound to the
        proxy object when the delegate is generic, with no callback.
      - Any other method is intercepted through an inheritance invocation
        whose callback calls the base method when the method has a target.
      Both intercepting cases pass the target class as a type token. */
  function ClassProxyTargetGenerator(c: Contributor, meta: MetaMethod, proxy: TypeEmitter.Emitter, env: ClassEmitter.Environment,
                                     cache: TypeCache.Cache, scope: Naming.NamingScope): (r: Result<Chosen>)
    requires c.ClassProxyTarget?
    ensures meta.declared in c.methodsToSkip ==> r == Ok(Chosen(NoGenerator, cache, scope))
    ensures meta.declared !in c.methodsToSkip && !meta.proxyable ==> r == Ok(Chosen(Minimalistic, cache, scope))
    ensures meta.declared !in c.methodsToSkip && meta.proxyable ==>
              (r.Ok? ==> r.value.choice.WithInvocation? && r.value.choice.kind == InvocationTypes.Inheritance
                         && ClosedTargetType(c.targetType, proxy).Ok?
                         && r.value.choice.target == TypeToken(ClosedTargetType(c.targetType, proxy).value)
                         && r.value.choice.targetFieldType.None?)
              && (ClosedTargetType(c.targetType, proxy).Err? ==> r.Err?)
    ensures r.Ok? && r.value.choice.WithInvocation? ==>
              (r.value.choice.contributor.Some? <==> meta.onTarget.access == Private)
              && (r.value.choice.callback.Some? <==> meta.onTarget.access != Private && meta.hasTarget)
              && (r.value.choice.callback.Some? ==> r.value.choice.callback.value == meta.onTarget)
    ensures r.Ok? && r.value.choice.WithInvocation? && r.value.choice.contributor.Some? ==>
              var d := r.value.choice.contributor.value;
              d.InvocationWithGenericDelegate? ==> d.boundTo == ProxyObjectField
    ensures r.Ok? && (r.value.choice.NoGenerator? || r.value.choice.Minimalistic? || meta.onTarget.access != Private) ==>
              r.value.cache == cache && r.value.scope == scope
  {
    if meta.declared in c.methodsToSkip then Ok(Chosen(NoGenerator, cache, scope))
    else if !meta.proxyable then Ok(Chosen(Minimalistic, cache, scope))
    else if meta.onTarget.access == Private then
      var (contributor, cache', scope') :- DelegatePath(meta, c.targetType, ProxyObjectField, env, cache, scope);
      var token :- ClosedTargetType(c.targetType, proxy);
      Ok(Chosen(WithInvocation(InvocationTypes.Inheritance, TypeToken(token), None, None, Some(contributor)), cache', scope'))
    else
      var token :- ClosedTargetType(c.targetType, proxy);
      var callback := if meta.hasTarget then Some(meta.onTarget) else None;
      Ok(Chosen(WithInvocation(InvocationTypes.Inheritance, TypeToken(token), callback, None, None), cache, scope))
  }

  /** `ClassProxyWithTargetTargetContributor.GetMethodGenerator`.
      - A skipped method gets no generator; a non-proxyable one a stub.
      - A method that is not public on the target is called through a
        delegate bound to the invocation's target, with no callback.
      - A public method is called directly, the method itself being the
        callback. Both intercepting cases use a composition invocation
        targeting `__target`. */
  function ClassProxyWithTargetGenerator(c: Contributor, meta: MetaMethod, env: ClassEmitter.Environment,
                                         cache: TypeCache.Cache, scope: Naming.NamingScope): (r: Result<Chosen>)
    requires c.ClassProxyWithTargetTarget?
    ensures meta.declared in c.methodsToSkip ==> r == Ok(Chosen(NoGenerator, cache, scope))
    ensures meta.declared !in c.methodsToSkip && !meta.proxyable ==> r == Ok(Chosen(Minimalistic, cache, scope))
    ensures meta.declared !in c.methodsToSkip && meta.proxyable && r.Ok? ==>
              r.value.choice.WithInvocation? && r.value.choice.kind == InvocationTypes.Composition
              && r.value.choice.target == Field("__target")
    ensures r.Ok? && r.value.choice.WithInvocation? ==>
              (r.value.choice.contributor.Some? <==> meta.onTarget.access != Public)
              && (r.value.choice.callback.Some? <==> meta.onTarget.access == Public)
              && (r.value.choice.callback.Some? ==>
                    r.value.choice.callback.value == meta.declared
                    && r.value.choice.targetFieldType == Some(meta.declared.declaringType))
              && (r.value.choice.contributor.Some? ==> r.value.choice.targetFieldType == Some(c.targetType))
    ensures r.Ok? && r.value.choice.WithInvocation? && r.value.choice.contributor.Some? ==>
              var d := r.value.choice.contributor.value;
              d.InvocationWithGenericDelegate? ==> d.boundTo == TargetField
    ensures r.Err? ==> meta.proxyable && meta.onTarget.access != Public
    ensures r.Ok? && meta.onTarget.access == Public ==> r.value.cache == cache && r.value.scope == scope
  {
    if meta.declared in c.methodsToSkip then Ok(Chosen(NoGenerator, cache, scope))
    else if !meta.proxyable then Ok(Chosen(Minimalistic, cache, scope))
    else if meta.onTarget.access != Public then
      var (contributor, cache', scope') :- DelegatePath(meta, c.targetType, TargetField, env, cache, scope);
      Ok(Chosen(WithInvocation(InvocationTypes.Composition, Field("__target"), None, Some(c.targetType), Some(contributor)),
                cache', scope'))
    else
      Ok(Chosen(WithInvocation(InvocationTypes.Composition, Field("__target"), Some(meta.declared),
                               Some(meta.declared.declaringType), None), cache, scope))
  }

  /** `InterfaceProxyTargetContributor.GetMethodGenerator`: a non-proxyable
      method is forwarded to `__target`; any other is intercepted with
      `__target` as target, through a change-target invocation when the
      target can be changed and a composition invocation otherwise. */
  function InterfaceProxyTargetGenerator(c: Contributor, meta: MetaMethod): (r: GeneratorChoice)
    requires c.InterfaceProxyTarget?
    ensures !meta.proxyable <==> r == Forwarding(Field("__target"))
    ensures meta.proxyable <==> r.WithInvocation?
    ensures r.WithInvocation? ==>
              r.target == Field("__target") && r.callback == Some(meta.declared) && r.contributor.None?
              && (r.kind == InvocationTypes.ChangeTarget <==> c.canChangeTarget)
              && (r.kind == InvocationTypes.Composition <==> !c.canChangeTarget)
  {
    if !meta.proxyable then Forwarding(Field("__target"))
    else
      var kind := if c.canChangeTarget then InvocationTypes.ChangeTarget else InvocationTypes.Composition;
      WithInvocation(kind, Field("__target"), Some(meta.declared), None, None)
  }

  /** `InterfaceProxyWithOptionalTargetContributor.GetTarget`: the field named
      `target` when the proxy target type is assignable to the declaring
      type, otherwise `__target` cast to the declaring type. */
  function OptionalTarget(c: Contributor, declaringType: Ty): (r: Target)
    requires c.InterfaceProxyWithOptionalTarget?
    ensures r.Field? <==> declaringType in c.assignableTo
    ensures r.Field? ==> r.name == "target"
    ensures r.FieldAs? <==> declaringType !in c.assignableTo
    ensures r.FieldAs? ==> r.name == "__target" && r.asType == declaringType
  {
    if declaringType in c.assignableTo then Field("target") else FieldAs("__target", declaringType)
  }

  /** `InterfaceProxyWithOptionalTargetContributor.GetMethodGenerator`: a
      non-proxyable method is forwarded to the target if there is one; any
      other is intercepted through a change-target invocation. */
  function OptionalTargetGenerator(c: Contributor, meta: MetaMethod): (r: GeneratorChoice)
    requires c.InterfaceProxyWithOptionalTarget?
    ensures !meta.proxyable <==> r.OptionallyForwarding?
    ensures meta.proxyable <==> r.WithInvocation?
    ensures r.OptionallyForwarding? || r.WithInvocation?
    ensures (r.OptionallyForwarding? || r.WithInvocation?) ==> r.target == OptionalTarget(c, meta.declared.declaringType)
    ensures r.WithInvocation? ==>
              r.kind == InvocationTypes.ChangeTarget && r.callback == Some(meta.declared) && r.contributor.None?
  {
    var target := OptionalTarget(c, meta.declared.declaringType);
    if !meta.proxyable then OptionallyForwarding(target)
    else WithInvocation(InvocationTypes.ChangeTarget, target, Some(meta.declared), None, None)
  }

  /** `InterfaceProxyWithoutTargetContributor.GetMethodGenerator`: a stub for
      a non-proxyable method; otherwise interception through a composition
      invocation with a `null` target and nothing to call back. */
  function WithoutTargetGenerator(meta: MetaMethod): (r: GeneratorChoice)
    ensures !meta.proxyable <==> r == Minimalistic
    ensures meta.proxyable <==> r.WithInvocation?
    ensures r.WithInvocation? ==>
              r.kind == InvocationTypes.Composition && r.target == NullTarget
              && r.callback.None? && r.contributor.None?
  {
    if !meta.proxyable then Minimalistic
    else WithInvocation(InvocationTypes.Composition, NullTarget, None, None, None)
  }

  /** `DelegateProxyTargetContributor.GetMethodGenerator`: every member is
      intercepted through a composition invocation targeting `__target`,
      proxyable or not. */
  function DelegateProxyTargetGenerator(meta: MetaMethod): (r: GeneratorChoice)
    ensures r.WithInvocation? && r.kind == InvocationTypes.Composition && r.target == Field("__target")
    ensures r.WithInvocation? ==> r.callback == Some(meta.declared) && r.contributor.None?
  {
    WithInvocation(InvocationTypes.Composition, Field("__target"), Some(meta.declared), None, None)
  }

  // ------------------------------------------------------------------ mixins

  /** `string.Replace(".", "_")`. */
  function ReplaceDots(s: string): (r: string)
    ensures |r| == |s| && '.' !in r
    ensures forall i :: 0 <= i < |s| && s[i] != '.' ==> r[i] == s[i]
    ensures forall i :: 0 <= i < |s| && s[i] == '.' ==> r[i] == '_'
  {
    seq(|s|, i requires 0 <= i < |s| => if s[i] == '.' then '_' else s[i])
  }

  /** The name suggested for the field holding a mixin. */
  function MixinFieldName(t: Ty): (r: string)
    ensures "__mixin_" <= r && '.' !in r[8..]
  {
    "__mixin_" + ReplaceDots(NameOf(t))
  }

  /** `AddEmptyInterface`: the interface is appended to the empty ones. Its
      debug assertions (an interface, held in neither list) do not stop
      execution, so a repeated or non-interface type is appended as well. */
  function AddEmptyInterface(c: Contributor, iface: Ty): (r: Contributor)
    requires c.Mixin?
    ensures r.Mixin? && r.canChangeTarget == c.canChangeTarget
    ensures r.empty == c.empty + [iface] && iface in r.empty
    ensures |r.empty| == |c.empty| + 1
    ensures iface !in c.empty ==> multiset(r.empty)[iface] == 1
  {
    c.(empty := c.empty + [iface])
  }

  /** The mixin fields: one per interface, filled in list order. */
  datatype MixinFields = MixinFields(proxy: TypeEmitter.Emitter, scope: Naming.NamingScope, fields: map<Ty, TypeEmitter.FieldReference>)

  /** The mixin fields are well formed over `types`: every type has a field
      of its own type with a name suggested by the type, known to the naming
      scope and defined on the proxy, and different types have different
      fields. */
  ghost predicate WellFormedFields(m: MixinFields, types: seq<Ty>)
  {
    (forall t :: t in m.fields <==> t in types)
    && (forall t :: t in m.fields ==>
          m.fields[t].fieldType == t && MixinFieldName(t) <= m.fields[t].name
          && m.fields[t].name in m.scope.used
          && m.fields[t].name in m.proxy.fields && m.proxy.fields[m.fields[t].name] == m.fields[t])
    && (forall t1, t2 :: t1 in m.fields && t2 in m.fields && t1 != t2 ==> m.fields[t1].name != m.fields[t2].name)
  }

  /** `BuildTargetField`: a serializable field of the type under a unique
      form of its mixin field name, recorded for the type. Nothing else in
      the table or on the proxy changes. */
  function AddMixinField(m: MixinFields, t: Ty): (r: MixinFields)
    ensures r.fields.Keys == m.fields.Keys + {t}
    ensures var f := r.fields[t];
            f.fieldType == t && MixinFieldName(t) <= f.name && f.name !in m.scope.used
            && f.attributes & TypeEmitter.FieldNotSerialized == 0
            && r.scope.used == m.scope.used + [f.name]
            && f.name in r.proxy.fields && r.proxy.fields[f.name] == f
    ensures forall u :: u in m.fields && u != t ==> r.fields[u] == m.fields[u]
    ensures forall n :: n in m.proxy.fields && n != r.fields[t].name ==> n in r.proxy.fields && r.proxy.fields[n] == m.proxy.fields[n]
  {
    var (name, scope') := Naming.GetUniqueName(m.scope, MixinFieldName(t));
    var created := TypeEmitter.CreateField(m.proxy, name, t, true);
    MixinFields(created.emitter, scope', m.fields[t := created.field])
  }

  /** Adding the field of one more type keeps the table well formed: the
      new name is fresh, so it differs from every earlier field's name and
      overwrites none of their proxy fields. */
  lemma AddMixinFieldKeepsWellFormed(m: MixinFields, types: seq<Ty>, t: Ty)
    requires WellFormedFields(m, types)
    ensures WellFormedFields(AddMixinField(m, t), types + [t])
  {
    var r := AddMixinField(m, t);
    var name := r.fields[t].name;
    forall u | u in r.fields && u != t
      ensures r.fields[u].name != name
      ensures r.fields[u].name in r.scope.used
      ensures r.fields[u].name in r.proxy.fields && r.proxy.fields[r.fields[u].name] == r.fields[u]
    {
      assert r.fields[u] == m.fields[u];
      assert m.fields[u].name in m.scope.used;
    }
  }

  /** What building mixin fields from `scope` keeps: a well-formed table
      whose names were all free in `scope`, a scope that only grew, and
      serializable fields. */
  ghost predicate FieldsBuiltFrom(m: MixinFields, types: seq<Ty>, scope: Naming.NamingScope)
  {
    WellFormedFields(m, types)
    && scope.used <= m.scope.used
    && (forall t :: t in m.fields ==> m.fields[t].name !in scope.used)
    && (forall t :: t in m.fields ==> m.fields[t].attributes & TypeEmitter.FieldNotSerialized == 0)
  }

  lemma AddMixinFieldKeepsFieldsBuiltFrom(m: MixinFields, types: seq<Ty>, t: Ty, scope: Naming.NamingScope)
    requires FieldsBuiltFrom(m, types, scope)
    ensures FieldsBuiltFrom(AddMixinField(m, t), types + [t], scope)
  {
    AddMixinFieldKeepsWellFormed(m, types, t);
    var r := AddMixinField(m, t);
    var name := r.fields[t].name;
    PrefixElements(scope.used, m.scope.used, name);
    assert scope.used <= r.scope.used by {
      assert r.scope.used == m.scope.used + [name];
    }
    forall u | u in r.fields
      ensures r.fields[u].name !in scope.used
      ensures r.fields[u].attributes & TypeEmitter.FieldNotSerialized == 0
    {
      if u != t {
        assert r.fields[u] == m.fields[u];
      }
    }
  }

  /** What a prefix holds, the whole sequence holds. */
  lemma PrefixElements(a: seq<string>, b: seq<string>, x: string)
    requires a <= b
    ensures x in a ==> x in b
  {
    if x in a {
      var i :| 0 <= i < |a| && a[i] == x;
      assert b[i] == x;
    }
  }

  /** `BuildTargetField` for every type in order. Names already in use are
      never taken, and the naming scope only grows. */
  function BuildTargetFields(proxy: TypeEmitter.Emitter, scope: Naming.NamingScope, types: seq<Ty>): (r: MixinFields)
    ensures FieldsBuiltFrom(r, types, scope)
    decreases |types|
  {
    if |types| == 0 then MixinFields(proxy, scope, map[])
    else
      var prefix := types[..|types| - 1];
      var t := types[|types| - 1];
      assert prefix + [t] == types;
      var before := BuildTargetFields(proxy, scope, prefix);
      AddMixinFieldKeepsFieldsBuiltFrom(before, prefix, t, scope);
      AddMixinField(before, t)
  }

  /** `MixinContributor.Generate` before any method: the fields of the
      proxied interfaces, then of the empty ones. */
  function GenerateMixinFields(c: Contributor, interfaces: seq<Ty>, proxy: TypeEmitter.Emitter, scope: Naming.NamingScope)
    : (r: MixinFields)
    requires c.Mixin?
    ensures WellFormedFields(r, interfaces + c.empty)
    ensures forall t :: t in interfaces || t in c.empty ==> t in r.fields
    ensures forall t :: t in r.fields ==> r.fields[t].name !in scope.used
  {
    BuildTargetFields(proxy, scope, interfaces + c.empty)
  }

  /** `Fields`: the field values in the order they were added. */
  function MixinFieldList(m: MixinFields, types: seq<Ty>): (r: seq<TypeEmitter.FieldReference>)
    requires forall i :: 0 <= i < |types| ==> types[i] in m.fields
    ensures |r| == |types|
    ensures forall i :: 0 <= i < |types| ==> r[i] == m.fields[types[i]]
  {
    seq(|types|, i requires 0 <= i < |types| => m.fields[types[i]])
  }

  /** `MixinContributor.GetMethodGenerator`. The member's declaring interface
      must have a mixin field; a member of an unknown interface is a missing
      key. A non-proxyable member is forwarded to the mixin; any other is
      intercepted, with `__target as I ?? mixin` as target and a change-target
      invocation when the target can be changed, the mixin field and a
      composition invocation otherwise. */
  function MixinGenerator(c: Contributor, meta: MetaMethod, fields: map<Ty, TypeEmitter.FieldReference>): (r: Result<GeneratorChoice>)
    requires c.Mixin?
    ensures r.Err? <==> meta.declared.declaringType !in fields
    ensures r.Err? ==> r.fault == KeyNotFound
    ensures r.Ok? ==>
              var mixin := fields[meta.declared.declaringType].name;
              (!meta.proxyable <==> r.value == Forwarding(Field(mixin)))
              && (meta.proxyable <==> r.value.WithInvocation?)
    ensures r.Ok? && r.value.WithInvocation? ==>
              var iface := meta.declared.declaringType;
              var mixin := fields[iface].name;
              (c.canChangeTarget ==> r.value.kind == InvocationTypes.ChangeTarget
                                     && r.value.target == FieldAsOr("__target", iface, mixin))
              && (!c.canChangeTarget ==> r.value.kind == InvocationTypes.Composition && r.value.target == Field(mixin))
              && r.value.callback == Some(meta.declared) && r.value.contributor.None?
  {
    var iface := meta.declared.declaringType;
    if iface !in fields then Err(KeyNotFound)
    else
      var mixin := fields[iface].name;
      if !meta.proxyable then Ok(Forwarding(Field(mixin)))
      else if c.canChangeTarget then
        Ok(WithInvocation(InvocationTypes.ChangeTarget, FieldAsOr("__target", iface, mixin), Some(meta.declared), None, None))
      else
        Ok(WithInvocation(InvocationTypes.Composition, Field(mixin), Some(meta.declared), None, None))
  }

  // ---------------------------------------------------------------- dispatch

  /** `GetMethodGenerator` of any contributor. `mixinFields` are the fields a
      mixin contributor created before generating methods. */
  function GetMethodGenerator(c: Contributor, meta: MetaMethod, proxy: TypeEmitter.Emitter, mixinFields: map<Ty, TypeEmitter.FieldReference>,
                              env: ClassEmitter.Environment, cache: TypeCache.Cache, scope: Naming.NamingScope): (r: Result<Chosen>)
    ensures !(c.ClassProxyTarget? || c.ClassProxyWithTargetTarget?) && r.Ok? ==> r.value.cache == cache && r.value.scope == scope
  {
    match c
    case ClassProxyTarget(_, _) => ClassProxyTargetGenerator(c, meta, proxy, env, cache, scope)
    case ClassProxyWithTargetTarget(_, _) => ClassProxyWithTargetGenerator(c, meta, env, cache, scope)
    case InterfaceProxyTarget(_, _) => Ok(Chosen(InterfaceProxyTargetGenerator(c, meta), cache, scope))
    case InterfaceProxyWithOptionalTarget(_, _) => Ok(Chosen(OptionalTargetGenerator(c, meta), cache, scope))
    case InterfaceProxyWithoutTarget => Ok(Chosen(WithoutTargetGenerator(meta), cache, scope))
    case Mixin(_, _) =>
      var choice :- MixinGenerator(c, meta, mixinFields);
      Ok(Chosen(choice, cache, scope))
    case DelegateProxyTarget(_) => Ok(Chosen(DelegateProxyTargetGenerator(meta), cache, scope))
  }

  /** Only a class proxy's own contributor intercepts through an inheritance
      invocation: every other contributor calls a separate target. */
  lemma OnlyClassProxiesInherit(c: Contributor, meta: MetaMethod, proxy: TypeEmitter.Emitter, mixinFields: map<Ty, TypeEmitter.FieldReference>,
                                env: ClassEmitter.Environment, cache: TypeCache.Cache, scope: Naming.NamingScope)
    ensures var r := GetMethodGenerator(c, meta, proxy, mixinFields, env, cache, scope);
            r.Ok? && r.value.choice.WithInvocation? ==>
              (r.value.choice.kind == InvocationTypes.Inheritance <==> c.ClassProxyTarget?)
  {
  }

  /** Only the contributor of a proxy without target passes a `null` target. */
  lemma NullTargetOnlyWithoutTarget(c: Contributor, meta: MetaMethod, proxy: TypeEmitter.Emitter, mixinFields: map<Ty, TypeEmitter.FieldReference>,
                                    env: ClassEmitter.Environment, cache: TypeCache.Cache, scope: Naming.NamingScope)
    ensures var r := GetMethodGenerator(c, meta, proxy, mixinFields, env, cache, scope);
            r.Ok? && r.value.choice.WithInvocation? ==>
              (r.value.choice.target == NullTarget <==> c.InterfaceProxyWithoutTarget?)
  {
  }

  /** A change-target invocation is chosen only where the target may be
      swapped: a target or mixin contributor that allows it, or the optional
      target contributor. */
  lemma ChangeTargetOnlyWhenAllowed(c: Contributor, meta: MetaMethod, proxy: TypeEmitter.Emitter, mixinFields: map<Ty, TypeEmitter.FieldReference>,
                                    env: ClassEmitter.Environment, cache: TypeCache.Cache, scope: Naming.NamingScope)
    ensures var r := GetMethodGenerator(c, meta, proxy, mixinFields, env, cache, scope);
            r.Ok? && r.value.choice.WithInvocation? && r.value.choice.kind == InvocationTypes.ChangeTarget ==>
              ((c.InterfaceProxyTarget? || c.Mixin?) && c.canChangeTarget) || c.InterfaceProxyWithOptionalTarget?
  {
  }

  /** A non-proxyable member is never intercepted, except by a delegate
      proxy, which intercepts every member. */
  lemma NonProxyableNotIntercepted(c: Contributor, meta: MetaMethod, proxy: TypeEmitter.Emitter, mixinFields: map<Ty, TypeEmitter.FieldReference>,
                                   env: ClassEmitter.Environment, cache: TypeCache.Cache, scope: Naming.NamingScope)
    requires !meta.proxyable
    ensures var r := GetMethodGenerator(c, meta, proxy, mixinFields, env, cache, scope);
            r.Ok? ==> (r.value.choice.WithInvocation? <==> c.DelegateProxyTarget?)
  {
  }

  /** The target field type an intercepting choice hands to its invocation
      generator: the one the contributor fixed, else the declaring type. */
  function TargetFieldTypeOf(choice: GeneratorChoice, meta: MetaMethod): Ty
    requires choice.WithInvocation?
  {
    if choice.targetFieldType.Some? then choice.targetFieldType.value else meta.declared.declaringType
  }

  /** The invocation-creation side of a delegate contributor. Its callback
      is the `Invoke` method of the delegate type, which returns a value
      exactly when the member does. Its constructor is taken to have the
      invocation base constructor's arguments. */
  function DelegateInvocationContributor(d: DelegateContributor, meta: MetaMethod, baseCtorArguments: seq<Ty>)
    : (r: InvocationTypes.InvocationContributor)
    ensures r.callback.Some? && r.callback.value.name == "Invoke" && r.callback.value.declaringType == d.delegateType
    ensures r.callback.value.returnType == Void <==> meta.declared.returnType == Void
    ensures !IsGenericMethod(r.callback.value)
    ensures r.constructorArguments == baseCtorArguments
  {
    var invoke := Method("Invoke", d.delegateType, [], meta.onTarget.parameters, meta.declared.returnType, Public);
    InvocationTypes.InvocationContributor(Some(invoke), baseCtorArguments)
  }

  /** The invocation-creation contributor an intercepting choice passes on:
      the delegate contributor's, when the member goes through a delegate. */
  function InvocationContributorOf(choice: GeneratorChoice, meta: MetaMethod): (r: Option<InvocationTypes.InvocationContributor>)
    requires choice.WithInvocation?
    ensures r.Some? <==> choice.contributor.Some?
    ensures r.Some? ==> r.value.callback.Some?
                        && r.value.constructorArguments
                           == InvocationTypes.BaseCtorArguments(choice.kind, TargetFieldTypeOf(choice, meta))
  {
    if choice.contributor.None? then None
    else
      Some(DelegateInvocationContributor(choice.contributor.value, meta,
                                         InvocationTypes.BaseCtorArguments(choice.kind, TargetFieldTypeOf(choice, meta))))
  }

  /** The invocation type an intercepting choice asks for: the invocation
      generator of its kind, run with its callback and its contributor. */
  function InvocationTypeOf(choice: GeneratorChoice, meta: MetaMethod, proxy: TypeEmitter.Emitter, env: ClassEmitter.Environment,
                            cache: TypeCache.Cache, scope: Naming.NamingScope): (r: TypeCache.Lookup<Naming.NamingScope>)
    requires choice.WithInvocation?
    ensures r == InvocationTypes.GetProxyType(choice.kind, meta, choice.callback, InvocationContributorOf(choice, meta), proxy,
                                              TargetFieldTypeOf(choice, meta), env, cache, scope)
  {
    InvocationTypes.GetProxyType(choice.kind, meta, choice.callback, InvocationContributorOf(choice, meta), proxy,
                                 TargetFieldTypeOf(choice, meta), env, cache, scope)
  }

  /** A member intercepted through a delegate always reaches its target:
      the invocation class generated for it never reports a missing target.
      Without a delegate, it reports one exactly when there is no callback. */
  lemma DelegatePathNeverThrowsOnNoTarget(choice: GeneratorChoice, meta: MetaMethod, proxy: TypeEmitter.Emitter,
                                          env: ClassEmitter.Environment, scope: Naming.NamingScope)
    requires choice.WithInvocation?
    ensures var r := InvocationTypes.Generate(choice.kind, meta, choice.callback, InvocationContributorOf(choice, meta), proxy,
                                              TargetFieldTypeOf(choice, meta), env, scope);
            r.Ok? ==> (ThrowOnNoTarget in r.value.0.invokeMethodOnTarget <==> choice.contributor.None? && choice.callback.None?)
  {
  }

  /** A proxy without target has nothing to proceed to: the invocation
      class generated for any member it intercepts reports a missing
      target. */
  lemma WithoutTargetProceedReportsNoTarget(meta: MetaMethod, proxy: TypeEmitter.Emitter, env: ClassEmitter.Environment,
                                            scope: Naming.NamingScope)
    requires meta.proxyable
    ensures var choice := WithoutTargetGenerator(meta);
            var r := InvocationTypes.Generate(choice.kind, meta, choice.callback, InvocationContributorOf(choice, meta), proxy,
                                              TargetFieldTypeOf(choice, meta), env, scope);
            r.Ok? ==> ThrowOnNoTarget in r.value.0.invokeMethodOnTarget
  {
    DelegatePathNeverThrowsOnNoTarget(WithoutTargetGenerator(meta), meta, proxy, env, scope);
  }

  /** Every delegate path the class contributors choose leaves the
      callback to the delegate, so its invocation class never reports a
      missing target. */
  lemma ClassDelegatePathsReachTheTarget(c: Contributor, meta: MetaMethod, proxy: TypeEmitter.Emitter, env: ClassEmitter.Environment,
                                         cache: TypeCache.Cache, scope: Naming.NamingScope, scope2: Naming.NamingScope)
    requires c.ClassProxyTarget? || c.ClassProxyWithTargetTarget?
    requires var chosen := if c.ClassProxyTarget? then ClassProxyTargetGenerator(c, meta, proxy, env, cache, scope)
                           else ClassProxyWithTargetGenerator(c, meta, env, cache, scope);
             chosen.Ok? && chosen.value.choice.WithInvocation? && chosen.value.choice.contributor.Some?
    ensures var choice := (if c.ClassProxyTarget? then ClassProxyTargetGenerator(c, meta, proxy, env, cache, scope)
                           else ClassProxyWithTargetGenerator(c, meta, env, cache, scope)).value.choice;
            var r := InvocationTypes.Generate(choice.kind, meta, choice.callback, InvocationContributorOf(choice, meta), proxy,
                                              TargetFieldTypeOf(choice, meta), env, scope2);
            r.Ok? ==> ThrowOnNoTarget !in r.value.0.invokeMethodOnTarget
  {
    var choice := (if c.ClassProxyTarget? then ClassProxyTargetGenerator(c, meta, proxy, env, cache, scope)
                   else ClassProxyWithTargetGenerator(c, meta, env, cache, scope)).value.choice;
    DelegatePathNeverThrowsOnNoTarget(choice, meta, proxy, env, scope2);
  }

  /** A class proxy never shares an invocation type between two overrides
      of the same member: asking twice generates twice. */
  lemma ClassProxyInvocationsAreNotShared(c: Contributor, meta: MetaMethod, proxy: TypeEmitter.Emitter, env: ClassEmitter.Environment,
                                          cache: TypeCache.Cache, scope: Naming.NamingScope)
    requires c.ClassProxyTarget?
    requires ClassProxyTargetGenerator(c, meta, proxy, env, cache, scope).Ok?
    requires ClassProxyTargetGenerator(c, meta, proxy, env, cache, scope).value.choice.WithInvocation?
    ensures var chosen := ClassProxyTargetGenerator(c, meta, proxy, env, cache, scope).value;
            var r1 := InvocationTypeOf(chosen.choice, meta, proxy, env, chosen.cache, chosen.scope);
            var r2 := InvocationTypeOf(chosen.choice, meta, proxy, env, r1.cache, r1.state);
            r1.generated && r2.generated && r1.cache == chosen.cache
            && (r1.result.Ok? && r2.result.Ok? ==> r1.result.value != r2.result.value)
  {
    var chosen := ClassProxyTargetGenerator(c, meta, proxy, env, cache, scope).value;
    var r1 := InvocationTypeOf(chosen.choice, meta, proxy, env, chosen.cache, chosen.scope);
    if r1.result.Ok? {
      InvocationTypes.InheritanceNeverReuses(meta, chosen.choice.callback, InvocationContributorOf(chosen.choice, meta), proxy,
                                             TargetFieldTypeOf(chosen.choice, meta), env, chosen.cache, chosen.scope);
    }
  }
}

=== FILE: delegate_types.dfy ===
/** `DelegateTypeGenerator`: the delegate type through which a proxy calls a
    method it cannot call directly. The delegate is cached under a key made of
    the target type and the method's signature. */
module DelegateTypes {
  import opened Wrappers
  import opened ClrTypes
  import Naming
  import GenericUtil
  import TypeEmitter
  import ClassEmitter
  import TypeCache

  /** A generated delegate class: its unique name, the emitter with its
      generic parameters and its `(object, IntPtr)` constructor, and the
      signature of its `Invoke` method. */
  datatype GeneratedDelegate = GeneratedDelegate(name: string, emitter: TypeEmitter.Emitter, invokeReturnType: Ty, invokeParameters: seq<Ty>)

  /** The key: `typeof(Delegate)`, the target type, and the return type of the
      method on the target followed by its parameter types. */
  function CacheKeyFor(meta: MetaMethod, targetType: Ty): (r: TypeCache.CacheKey)
    ensures r.target == TypeCache.TypeTarget(DelegateType) && r.baseType == targetType && !r.hasOptions
    ensures |r.interfaces| == |meta.onTarget.parameters| + 1
    ensures r.interfaces[0] == meta.onTarget.returnType && r.interfaces[1..] == meta.onTarget.parameters
  {
    TypeCache.CacheKey(TypeCache.TypeTarget(DelegateType), targetType, [meta.onTarget.returnType] + meta.onTarget.parameters, false)
  }

  /** Two methods on the target with the same signature share a delegate
      type for the same target type; a different target type or signature
      gives a different key. */
  lemma CacheKeyIsTheSignature(m1: MetaMethod, m2: MetaMethod, t1: Ty, t2: Ty)
    ensures CacheKeyFor(m1, t1) == CacheKeyFor(m2, t2)
            <==> t1 == t2 && m1.onTarget.returnType == m2.onTarget.returnType
                 && m1.onTarget.parameters == m2.onTarget.parameters
  {
    if CacheKeyFor(m1, t1) == CacheKeyFor(m2, t2) {
      assert CacheKeyFor(m1, t1).interfaces[1..] == CacheKeyFor(m2, t2).interfaces[1..];
    }
  }

  /** A delegate key never equals a key about a method, such as an
      invocation type's. */
  lemma DelegateKeysAreNotMethodKeys(meta: MetaMethod, targetType: Ty, key: TypeCache.CacheKey)
    requires key.target.MethodTarget?
    ensures CacheKeyFor(meta, targetType) != key
  {
  }

  /** The name suggested for the delegate of a method. */
  function SuggestedName(meta: MetaMethod): string
  {
    "Castle.Proxies.Delegates." + SimpleName(meta.onTarget.declaringType) + "_" + meta.declared.name
  }

  /** `GetEmitter`'s choice of where the delegate's generic parameters come
      from: the target type and the method when the target type contains
      generic parameters, the method alone otherwise. */
  function CopyGenericParameters(e: TypeEmitter.Emitter, targetType: Ty, m: Method): (r: Result<TypeEmitter.Emitter>)
    ensures ContainsGenericParameters(targetType) ==>
              r == TypeEmitter.CopyGenericParametersFromType(e, targetType, None, Some(m))
    ensures !ContainsGenericParameters(targetType) ==> r == TypeEmitter.CopyGenericParametersFromMethod(e, m)
  {
    if ContainsGenericParameters(targetType) then TypeEmitter.CopyGenericParametersFromType(e, targetType, None, Some(m))
    else TypeEmitter.CopyGenericParametersFromMethod(e, m)
  }

  /** `GetParamTypes`: a generic delegate's `Invoke` takes exactly the method's
      closed parameter types; a non-generic one takes the target first. */
  function GetParamTypes(e: TypeEmitter.Emitter, targetType: Ty, parameters: seq<Ty>): (r: seq<Ty>)
    ensures TypeEmitter.IsGenericType(e) ==>
              |r| == |parameters|
              && forall i :: 0 <= i < |parameters| ==>
                   r[i] == GenericUtil.ExtractCorrectType(parameters[i], e.name2GenericType)
    ensures !TypeEmitter.IsGenericType(e) ==>
              |r| == |parameters| + 1 && r[0] == targetType
              && forall i :: 0 <= i < |parameters| ==>
                   r[i + 1] == GenericUtil.ExtractCorrectType(parameters[i], e.name2GenericType)
  {
    var closed := TypeEmitter.ClosedParameterTypes(e, parameters);
    if TypeEmitter.IsGenericType(e) then closed else [targetType] + closed
  }

  /** The delegate class once its name is chosen: derived from
      `MulticastDelegate`, with the constructor `(object, IntPtr)` and an
      `Invoke` method of the closed signature. */
  function BuildDelegate(meta: MetaMethod, targetType: Ty, env: ClassEmitter.Environment,
                         scope: Naming.NamingScope, name: string)
    : (r: Result<GeneratedDelegate>)
    ensures r.Ok? ==> r.value.name == name
    ensures r.Ok? ==> r.value.emitter.parent == Some(MulticastDelegateType)
    ensures r.Ok? ==> r.value.emitter.constructors == [TypeEmitter.Constructor([ObjectType, IntPtrType])]
    ensures r.Ok? ==> r.value.invokeReturnType
                      == GenericUtil.ExtractCorrectType(meta.declared.returnType, r.value.emitter.name2GenericType)
    ensures r.Ok? ==> r.value.invokeParameters == GetParamTypes(r.value.emitter, targetType, meta.onTarget.parameters)
  {
    var ce :- ClassEmitter.NewClassEmitter(scope, Some(MulticastDelegateType), Some([]),
                                           ClassEmitter.ShouldForceUnsigned(env.canStrongNameAssembly), env.fromUnsignedAssembly);
    var e :- CopyGenericParameters(ce.emitter, targetType, meta.declared);
    var e :- TypeEmitter.CreateConstructor(e, [ObjectType, IntPtrType]);
    var returnType := GenericUtil.ExtractCorrectType(meta.declared.returnType, e.name2GenericType);
    Ok(GeneratedDelegate(name, e, returnType, GetParamTypes(e, targetType, meta.onTarget.parameters)))
  }

  /** `Generate`: the delegate class under a name the scope has not used.
      `scope` is the parent (module-level) scope of the proxy's own naming
      scope, the one the type name is drawn from (DelegateTypeGenerator.cs:109). */
  function Generate(meta: MetaMethod, targetType: Ty, env: ClassEmitter.Environment, scope: Naming.NamingScope)
    : (r: Result<(GeneratedDelegate, Naming.NamingScope)>)
    ensures r.Ok? ==> r.value.0.name !in scope.used && SuggestedName(meta) <= r.value.0.name
    ensures r.Ok? ==> r.value.1.used == scope.used + [r.value.0.name]
    ensures r.Ok? ==> r.value.0.emitter.parent == Some(MulticastDelegateType)
    ensures r.Ok? ==> r.value.0.emitter.constructors == [TypeEmitter.Constructor([ObjectType, IntPtrType])]
    ensures r.Ok? ==> r.value.0.invokeReturnType
                      == GenericUtil.ExtractCorrectType(meta.declared.returnType, r.value.0.emitter.name2GenericType)
    ensures r.Ok? ==> r.value.0.invokeParameters
                      == GetParamTypes(r.value.0.emitter, targetType, meta.onTarget.parameters)
  {
    var (name, scope') := Naming.GetUniqueName(scope, SuggestedName(meta));
    var g :- BuildDelegate(meta, targetType, env, scope', name);
    Ok((g, scope'))
  }

  /** `Generate().BuildType()` together with the naming scope afterwards. */
  function GenerateType(meta: MetaMethod, targetType: Ty, env: ClassEmitter.Environment, scope: Naming.NamingScope)
    : (r: Result<(Ty, Naming.NamingScope)>)
    ensures r.Ok? ==> NameOf(r.value.0) !in scope.used
  {
    var (g, scope') :- Generate(meta, targetType, env, scope);
    Ok((TypeEmitter.BuiltType(g.emitter, g.name), scope'))
  }

  /** `GetProxyType`: get-or-create under the signature key. */
  function GetProxyType(meta: MetaMethod, targetType: Ty, env: ClassEmitter.Environment,
                        cache: TypeCache.Cache, scope: Naming.NamingScope)
    : (r: TypeCache.Lookup<Naming.NamingScope>)
    ensures CacheKeyFor(meta, targetType) in cache ==>
              r == TypeCache.Lookup(Ok(cache[CacheKeyFor(meta, targetType)]), cache, scope, false)
    ensures r.result.Ok? ==> TypeCache.GetFromCache(r.cache, CacheKeyFor(meta, targetType)) == Some(r.result.value)
    ensures r.result.Err? ==> r.cache == cache
    ensures r.generated && r.result.Ok? ==> NameOf(r.result.value) !in scope.used
  {
    TypeCache.GetOrCreate(cache, CacheKeyFor(meta, targetType), scope,
                          (s: Naming.NamingScope) => GenerateType(meta, targetType, env, s))
  }

  /** Two methods with the same signature on the target get the same delegate
      type: the second lookup hits whatever the first generated. */
  lemma SameSignatureSharesDelegate(m1: MetaMethod, m2: MetaMethod, targetType: Ty, env: ClassEmitter.Environment,
                                    cache: TypeCache.Cache, scope: Naming.NamingScope)
    requires m1.onTarget.returnType == m2.onTarget.returnType && m1.onTarget.parameters == m2.onTarget.parameters
    requires GetProxyType(m1, targetType, env, cache, scope).result.Ok?
    ensures var r1 := GetProxyType(m1, targetType, env, cache, scope);
            var r2 := GetProxyType(m2, targetType, env, r1.cache, r1.state);
            r2.result == r1.result && !r2.generated
  {
    CacheKeyIsTheSignature(m1, m2, targetType, targetType);
  }
}

=== FILE: generic_util.dfy ===
/** `GenericUtil`: copying the generic parameters of an existing type or
    method onto a type under construction, rewriting their constraints, and
    substituting the new parameters into parameter types by name. */
module GenericUtil {
  import opened Wrappers
  import opened ClrTypes

  /** `name2GenericType`: the emitter's table from a generic parameter's
      name to the builder standing in for it. */
  type NameMap = map<string, Ty>

  /** Every entry maps a name to a builder carrying that very name; the
      shape the table has when only this module writes to it. */
  ghost predicate SelfNamed(m: NameMap)
  {
    forall n :: n in m ==> m[n].Builder? && m[n].name == n
  }

  // ---------------------------------------------------------------------
  // Substituting builders into parameter types
  // ---------------------------------------------------------------------

  /** `ExtractCorrectType`: a generic parameter whose name is in the table is
      replaced by its builder, both on its own and as the element of an
      array (keeping the rank); an array of anything else is rebuilt equal
      to itself; every other type, including a by-ref or a constructed type
      mentioning a parameter, is returned as it is. */
  function ExtractCorrectType(paramType: Ty, name2GenericType: NameMap): (r: Ty)
    ensures paramType.ArrayOf? ==> r.ArrayOf? && r.rank == paramType.rank
    ensures paramType.ArrayOf? && IsGenericParameter(paramType.element) && NameOf(paramType.element) in name2GenericType ==>
              r == ArrayOf(name2GenericType[NameOf(paramType.element)], paramType.rank)
    ensures paramType.ArrayOf? && (!IsGenericParameter(paramType.element) || NameOf(paramType.element) !in name2GenericType) ==>
              r == paramType
    ensures !paramType.ArrayOf? && !IsGenericParameter(paramType) ==> r == paramType
    ensures IsGenericParameter(paramType) && NameOf(paramType) !in name2GenericType ==> r == paramType
    ensures IsGenericParameter(paramType) && NameOf(paramType) in name2GenericType ==>
              r == name2GenericType[NameOf(paramType)]
  {
    match paramType
    case ArrayOf(underlying, rank) =>
      if IsGenericParameter(underlying) then
        if NameOf(underlying) !in name2GenericType then paramType
        else ArrayOf(name2GenericType[NameOf(underlying)], rank)
      else ArrayOf(underlying, rank)
    case _ =>
      if IsGenericParameter(paramType) && NameOf(paramType) in name2GenericType
      then name2GenericType[NameOf(paramType)]
      else paramType
  }

  /** With nothing registered, no parameter type changes. */
  lemma ExtractWithEmptyTableIsIdentity(paramType: Ty)
    ensures ExtractCorrectType(paramType, map[]) == paramType
  {
  }

  /** On an array whose element is not itself an array, substitution acts on
      the element and keeps the rank. An array of arrays is left as it is,
      even when its innermost element is a registered parameter. */
  lemma ExtractActsOnArrayElement(element: Ty, rank: nat, name2GenericType: NameMap)
    ensures !element.ArrayOf? ==>
              ExtractCorrectType(ArrayOf(element, rank), name2GenericType)
              == ArrayOf(ExtractCorrectType(element, name2GenericType), rank)
    ensures element.ArrayOf? ==> ExtractCorrectType(ArrayOf(element, rank), name2GenericType) == ArrayOf(element, rank)
  {
  }

  /** A table of self-named builders is a fixed point: substituting twice
      is substituting once. */
  lemma ExtractIsIdempotent(paramType: Ty, name2GenericType: NameMap)
    requires SelfNamed(name2GenericType)
    ensures ExtractCorrectType(ExtractCorrectType(paramType, name2GenericType), name2GenericType)
            == ExtractCorrectType(paramType, name2GenericType)
  {
  }

  /** `ExtractParametersTypes`: the corrected type of each parameter, position by position. */
  method ExtractParametersTypes(baseMethodParameters: seq<Ty>, name2GenericType: NameMap) returns (r: seq<Ty>)
    ensures |r| == |baseMethodParameters|
    ensures forall i :: 0 <= i < |r| ==> r[i] == ExtractCorrectType(baseMethodParameters[i], name2GenericType)
  {
    r := [];
    for i := 0 to |baseMethodParameters|
      invariant |r| == i
      invariant forall j :: 0 <= j < i ==> r[j] == ExtractCorrectType(baseMethodParameters[j], name2GenericType)
    {
      r := r + [ExtractCorrectType(baseMethodParameters[i], name2GenericType)];
    }
  }

  // ---------------------------------------------------------------------
  // The name table of a parent emitter
  // ---------------------------------------------------------------------

  /** No two entries share a `Name`. */
  predicate DistinctNames(ps: seq<Ty>)
  {
    forall i, j :: 0 <= i < j < |ps| ==> NameOf(ps[i]) != NameOf(ps[j])
  }

  /** `GetGenericArgumentsMap`: the parent emitter's generic parameters keyed
      by name; `null` or none gives an empty table, and a repeated name makes
      `Dictionary.Add` throw. */
  method GetGenericArgumentsMap(genericTypeParams: Option<seq<Ty>>) returns (r: Result<NameMap>)
    ensures genericTypeParams.None? ==> r == Ok(map[])
    ensures genericTypeParams.Some? ==> (r.Ok? <==> DistinctNames(genericTypeParams.value))
    ensures r.Err? ==> r.fault == Argument
    ensures r.Ok? && genericTypeParams.Some? ==>
              r.value.Keys == set i | 0 <= i < |genericTypeParams.value| :: NameOf(genericTypeParams.value[i])
    ensures r.Ok? && genericTypeParams.Some? ==>
              forall i :: 0 <= i < |genericTypeParams.value| ==>
                r.value[NameOf(genericTypeParams.value[i])] == genericTypeParams.value[i]
  {
    if genericTypeParams.None? || |genericTypeParams.value| == 0 {
      return Ok(map[]);
    }
    var ps := genericTypeParams.value;
    var name2GenericType: NameMap := map[];
    for k := 0 to |ps|
      invariant DistinctNames(ps[..k])
      invariant name2GenericType.Keys == set i | 0 <= i < k :: NameOf(ps[i])
      invariant forall i :: 0 <= i < k ==> name2GenericType[NameOf(ps[i])] == ps[i]
    {
      var name := NameOf(ps[k]);
      if name in name2GenericType {
        var j :| 0 <= j < k && NameOf(ps[j]) == name;
        assert !DistinctNames(ps);
        return Err(Argument);
      }
      DistinctNamesExtend(ps, k);
      name2GenericType := name2GenericType[name := ps[k]];
    }
    assert ps[..|ps|] == ps;
    r := Ok(name2GenericType);
  }

  /** A prefix with distinct names stays so when the next entry's name is new. */
  lemma DistinctNamesExtend(ps: seq<Ty>, k: nat)
    requires k < |ps| && DistinctNames(ps[..k])
    requires forall j :: 0 <= j < k ==> NameOf(ps[j]) != NameOf(ps[k])
    ensures DistinctNames(ps[..k + 1])
  {
    forall i, j | 0 <= i < j < k + 1
      ensures NameOf(ps[i]) != NameOf(ps[j])
    {
      if j < k {
        assert ps[..k][i] == ps[i] && ps[..k][j] == ps[j];
      }
    }
  }

  /** The table built from builders that carry their own names is self-named,
      so substitution through it is idempotent. */
  lemma BuilderTableIsSelfNamed(ps: seq<Ty>, m: NameMap)
    requires forall i :: 0 <= i < |ps| ==> ps[i].Builder?
    requires m.Keys == set i | 0 <= i < |ps| :: NameOf(ps[i])
    requires forall i :: 0 <= i < |ps| ==> m[NameOf(ps[i])] == ps[i]
    ensures SelfNamed(m)
  {
    forall n | n in m
      ensures m[n].Builder? && m[n].name == n
    {
      var i :| 0 <= i < |ps| && NameOf(ps[i]) == n;
    }
  }

  // ---------------------------------------------------------------------
  // Generic parameter attributes
  // ---------------------------------------------------------------------

  const Covariant: bv32 := 0x1
  const Contravariant: bv32 := 0x2
  const VarianceMask: bv32 := Covariant | Contravariant

  /** `SetGenericParameterAttributes`: the original's flags with both variance
      flags cleared, since variance is allowed only on interfaces and delegates. */
  function SetGenericParameterAttributes(attributes: bv32): (r: bv32)
    ensures r & VarianceMask == 0
    ensures r & !VarianceMask == attributes & !VarianceMask
  {
    attributes & !(Contravariant | Covariant)
  }

  /** Clearing variance twice is clearing it once, and flags without variance pass unchanged. */
  lemma SetGenericParameterAttributesIdempotent(attributes: bv32)
    ensures SetGenericParameterAttributes(SetGenericParameterAttributes(attributes))
            == SetGenericParameterAttributes(attributes)
    ensures attributes & VarianceMask == 0 ==> SetGenericParameterAttributes(attributes) == attributes
  {
  }

  // ---------------------------------------------------------------------
  // Constraints
  // ---------------------------------------------------------------------

  /** `Array.IndexOf`: the first position holding `x`, or -1. */
  function IndexOf(xs: seq<Ty>, x: Ty): (r: int)
    ensures r == -1 <==> x !in xs
    ensures 0 <= r ==> r < |xs| && xs[r] == x && forall j :: 0 <= j < r ==> xs[j] != x
    ensures -1 <= r
  {
    if |xs| == 0 then -1
    else if xs[0] == x then 0
    else
      var i := IndexOf(xs[1..], x);
      if i == -1 then -1 else i + 1
  }

  /** A generic parameter declared by a method (`DeclaringMethod != null`). */
  predicate IsMethodParameter(t: Ty)
  {
    t.Param? && t.owner == DeclaredOnMethod
  }

  /** `AdjustConstraintToNewGenericParameters`.
      - A generic type, constructed or a definition, is rebuilt from its
        generic type definition over its arguments, each adjusted.
      - A method-level parameter becomes the new parameter at its index among
        the originals; an index of -1 is asserted against only by a trace
        assertion, which does not stop execution, so the array access throws.
      - A type-level parameter becomes the declaring type's generic argument
        at its position; a `null` declaring type throws on dereference.
      - Anything else is kept. */
  function AdjustConstraint(constraint: Ty, originals: seq<Ty>, newParameters: seq<Ty>, declaringType: Option<Ty>): (r: Result<Ty>)
    ensures !IsGenericType(constraint) && !IsGenericParameter(constraint) ==> r == Ok(constraint)
    ensures IsMethodParameter(constraint) ==>
              (r.Ok? <==> constraint in originals && IndexOf(originals, constraint) < |newParameters|)
    ensures IsMethodParameter(constraint) && r.Ok? ==> r.value == newParameters[IndexOf(originals, constraint)]
    ensures IsGenericType(constraint) && r.Ok? ==>
              r.value.Constructed? && r.value.definition == GetGenericTypeDefinition(constraint)
              && |r.value.arguments| == |GetGenericArguments(constraint)|
    ensures IsGenericType(constraint) && r.Ok? ==>
              forall i {:trigger AdjustConstraint(GetGenericArguments(constraint)[i], originals, newParameters, declaringType)} ::
                0 <= i < |GetGenericArguments(constraint)| ==>
                AdjustConstraint(GetGenericArguments(constraint)[i], originals, newParameters, declaringType)
                == Ok(r.value.arguments[i])
    ensures IsGenericType(constraint)
            && (exists i {:trigger AdjustConstraint(GetGenericArguments(constraint)[i], originals, newParameters, declaringType)} ::
                  0 <= i < |GetGenericArguments(constraint)| &&
                  AdjustConstraint(GetGenericArguments(constraint)[i], originals, newParameters, declaringType).Err?)
            ==> r.Err?
    decreases constraint, 1
  {
    if IsGenericType(constraint) then
      GenericArgumentsAreSmaller(constraint);
      var arguments :- AdjustEach(constraint, GetGenericArguments(constraint), 0, originals, newParameters, declaringType);
      MakeGenericType(GetGenericTypeDefinition(constraint), Some(arguments))
    else if IsMethodParameter(constraint) then
      var index := IndexOf(originals, constraint);
      if 0 <= index < |newParameters| then Ok(newParameters[index]) else Err(IndexOutOfRange)
    else if IsGenericParameter(constraint) then
      if declaringType.None? then Err(NullReference)
      else
        var actual := GetGenericArguments(declaringType.value);
        if constraint.position < |actual| then Ok(actual[constraint.position]) else Err(IndexOutOfRange)
    else Ok(constraint)
  }

  /** The generic arguments of a generic constraint from position `k` on,
      adjusted left to right; the first failure aborts. */
  function AdjustEach(parent: Ty, arguments: seq<Ty>, k: nat, originals: seq<Ty>, newParameters: seq<Ty>,
                      declaringType: Option<Ty>): (r: Result<seq<Ty>>)
    requires IsGenericType(parent) && arguments == GetGenericArguments(parent) && k <= |arguments|
    requires forall i :: 0 <= i < |arguments| ==> arguments[i] < parent
    ensures r.Ok? ==> |r.value| == |arguments| - k
    ensures r.Ok? ==> forall i {:trigger AdjustConstraint(arguments[i], originals, newParameters, declaringType)} ::
              k <= i < |arguments| ==>
              AdjustConstraint(arguments[i], originals, newParameters, declaringType) == Ok(r.value[i - k])
    ensures r.Err? <==> (exists i {:trigger AdjustConstraint(arguments[i], originals, newParameters, declaringType)} ::
                          k <= i < |arguments| &&
                          AdjustConstraint(arguments[i], originals, newParameters, declaringType).Err?)
    decreases parent, 0, |arguments| - k
  {
    if k == |arguments| then Ok([])
    else
      var first := AdjustConstraint(arguments[k], originals, newParameters, declaringType);
      if first.Err? then
        assert AdjustConstraint(arguments[k], originals, newParameters, declaringType).Err?;
        Err(first.fault)
      else
        var rest := AdjustEach(parent, arguments, k + 1, originals, newParameters, declaringType);
        if rest.Err? then
          var j :| k + 1 <= j < |arguments| && AdjustConstraint(arguments[j], originals, newParameters, declaringType).Err?;
          assert k <= j < |arguments| && AdjustConstraint(arguments[j], originals, newParameters, declaringType).Err?;
          Err(rest.fault)
        else Ok([first.value] + rest.value)
  }

  /** A well-formed constraint that mentions no generic parameter comes
      through unchanged. */
  lemma {:induction false} AdjustClosedConstraintIsUnchanged(constraint: Ty, originals: seq<Ty>, newParameters: seq<Ty>, declaringType: Option<Ty>)
    requires WellFormed(constraint) && !ContainsGenericParameters(constraint)
    ensures AdjustConstraint(constraint, originals, newParameters, declaringType) == Ok(constraint)
    decreases constraint, 1
  {
    if constraint.Constructed? {
      AdjustClosedArgumentsAreUnchanged(constraint, 0, originals, newParameters, declaringType);
      assert constraint.arguments[0..] == constraint.arguments;
    }
  }

  lemma {:induction false} AdjustClosedArgumentsAreUnchanged(parent: Ty, k: nat, originals: seq<Ty>, newParameters: seq<Ty>, declaringType: Option<Ty>)
    requires parent.Constructed? && k <= |parent.arguments|
    requires forall i :: k <= i < |parent.arguments| ==>
               WellFormed(parent.arguments[i]) && !ContainsGenericParameters(parent.arguments[i])
    ensures AdjustEach(parent, parent.arguments, k, originals, newParameters, declaringType) == Ok(parent.arguments[k..])
    decreases parent, 0, |parent.arguments| - k
  {
    if k < |parent.arguments| {
      assert GetGenericArguments(parent) == parent.arguments;
      AdjustClosedConstraintIsUnchanged(parent.arguments[k], originals, newParameters, declaringType);
      AdjustClosedArgumentsAreUnchanged(parent, k + 1, originals, newParameters, declaringType);
      assert AdjustEach(parent, parent.arguments, k, originals, newParameters, declaringType)
             == Ok([parent.arguments[k]] + parent.arguments[k + 1..]);
      assert parent.arguments[k..] == [parent.arguments[k]] + parent.arguments[k + 1..];
    } else {
      assert parent.arguments[k..] == [];
    }
  }

  /** The converse of failure propagation: a well-formed generic constraint
      whose arguments all adjust is adjusted successfully, over its
      definition and with one adjusted argument per argument. */
  lemma AdjustGenericConstraintSucceeds(constraint: Ty, originals: seq<Ty>, newParameters: seq<Ty>, declaringType: Option<Ty>)
    requires IsGenericType(constraint) && WellFormed(constraint)
    requires forall i :: 0 <= i < |GetGenericArguments(constraint)| ==>
               AdjustConstraint(GetGenericArguments(constraint)[i], originals, newParameters, declaringType).Ok?
    ensures AdjustConstraint(constraint, originals, newParameters, declaringType).Ok?
  {
    GenericArgumentsAreSmaller(constraint);
    var arguments := GetGenericArguments(constraint);
    var adjusted := AdjustEach(constraint, arguments, 0, originals, newParameters, declaringType);
    assert adjusted.Ok?;
    assert |adjusted.value| == |GetGenericTypeDefinition(constraint).parameters|;
  }

  /** A constraint naming the generic type definition that declares the
      method, such as `U : IFoo<T>` inside `IFoo<T>`, whose arguments are the
      definition's own type-level parameters: it is closed over the actual
      arguments of the declaring type. */
  lemma AdjustOpenDefinitionClosesOverDeclaringType(definition: Ty, originals: seq<Ty>, newParameters: seq<Ty>, declaringType: Ty)
    requires definition.GenericDef?
    requires forall i :: 0 <= i < |definition.parameters| ==>
               definition.parameters[i].param.Param?
               && definition.parameters[i].param.owner == DeclaredOnType
               && definition.parameters[i].param.position == i
    requires |GetGenericArguments(declaringType)| == |definition.parameters|
    ensures AdjustConstraint(definition, originals, newParameters, Some(declaringType))
            == Ok(Constructed(definition, GetGenericArguments(declaringType)))
  {
    var arguments := GetGenericArguments(definition);
    var actual := GetGenericArguments(declaringType);
    forall i | 0 <= i < |arguments|
      ensures AdjustConstraint(arguments[i], originals, newParameters, Some(declaringType)) == Ok(actual[i])
    {
      assert arguments[i] == definition.parameters[i].param;
    }
    GenericArgumentsAreSmaller(definition);
    var adjusted := AdjustEach(definition, GetGenericArguments(definition), 0, originals, newParameters, Some(declaringType));
    assert adjusted.Ok?;
    assert adjusted.value == actual;
  }

  /** Pairwise different. */
  predicate Distinct(xs: seq<Ty>)
  {
    forall i, j :: 0 <= i < j < |xs| ==> xs[i] != xs[j]
  }

  /** Each original method parameter, used as a constraint, becomes the new
      parameter at the same position: constraints between the parameters of
      one generic method are carried over to their copies. */
  lemma AdjustOriginalMethodParameters(originals: seq<Ty>, newParameters: seq<Ty>, declaringType: Option<Ty>)
    requires forall i :: 0 <= i < |originals| ==> IsMethodParameter(originals[i])
    requires Distinct(originals)
    requires |newParameters| == |originals|
    ensures forall i :: 0 <= i < |originals| ==>
              AdjustConstraint(originals[i], originals, newParameters, declaringType) == Ok(newParameters[i])
  {
    forall i | 0 <= i < |originals|
      ensures AdjustConstraint(originals[i], originals, newParameters, declaringType) == Ok(newParameters[i])
    {
      assert IndexOf(originals, originals[i]) == i;
    }
  }

  /** A type-level parameter is resolved through the declaring type, so
      without one the dereference throws; with a generic declaring type it
      becomes that type's argument at the parameter's position. */
  lemma TypeParameterConstraintResolution(constraint: Ty, originals: seq<Ty>, newParameters: seq<Ty>, declaringType: Option<Ty>)
    requires IsGenericParameter(constraint) && !IsMethodParameter(constraint)
    ensures declaringType.None? ==>
              AdjustConstraint(constraint, originals, newParameters, declaringType) == Err(NullReference)
    ensures declaringType.Some? && constraint.position < |GetGenericArguments(declaringType.value)| ==>
              AdjustConstraint(constraint, originals, newParameters, declaringType)
              == Ok(GetGenericArguments(declaringType.value)[constraint.position])
    ensures declaringType.Some? && !IsGenericType(declaringType.value) ==>
              AdjustConstraint(constraint, originals, newParameters, declaringType) == Err(IndexOutOfRange)
  {
  }

  /** `AdjustGenericConstraints`: every constraint of one original parameter,
      adjusted in order; the first failure aborts. */
  function AdjustGenericConstraints(declaringType: Option<Ty>, newParameters: seq<Ty>, originals: seq<Ty>, constraints: seq<Ty>): (r: Result<seq<Ty>>)
    ensures r.Ok? ==> |r.value| == |constraints|
    ensures r.Ok? ==> forall i :: 0 <= i < |constraints| ==>
              AdjustConstraint(constraints[i], originals, newParameters, declaringType) == Ok(r.value[i])
    ensures r.Err? <==> (exists i :: 0 <= i < |constraints| &&
                          AdjustConstraint(constraints[i], originals, newParameters, declaringType).Err?)
  {
    if |constraints| == 0 then Ok([])
    else
      var first :- AdjustConstraint(constraints[0], originals, newParameters, declaringType);
      var rest :- AdjustGenericConstraints(declaringType, newParameters, originals, constraints[1..]);
      Ok([first] + rest)
  }

  // ---------------------------------------------------------------------
  // Copying generic arguments
  // ---------------------------------------------------------------------

  /** What a copy produces: the new parameters (`null` when there were none
      to copy) and the updated name table. */
  datatype Copied = Copied(parameters: Option<seq<GenericArg>>, name2GenericType: NameMap)

  /** The names of the originals (`t.Name`), which also name the new parameters. */
  function NamesOf(genericArguments: seq<GenericArg>): (r: seq<string>)
    ensures |r| == |genericArguments|
    ensures forall i :: 0 <= i < |r| ==> r[i] == NameOf(genericArguments[i].param)
  {
    seq(|genericArguments|, i requires 0 <= i < |genericArguments| => NameOf(genericArguments[i].param))
  }

  /** `DefineGenericParameters(names)`: one fresh builder per name, in order. */
  function DefineGenericParameters(names: seq<string>): (r: seq<Ty>)
    ensures |r| == |names|
    ensures forall i :: 0 <= i < |r| ==> r[i] == Builder(names[i], i)
  {
    seq(|names|, i requires 0 <= i < |names| => Builder(names[i], i))
  }

  /** The indexer assignments `name2GenericType[names[i]] = news[i]`, in order. */
  function Register(m: NameMap, names: seq<string>, news: seq<Ty>): (r: NameMap)
    requires |names| == |news|
    ensures r.Keys == m.Keys + set i | 0 <= i < |names| :: names[i]
    decreases |names|
  {
    if |names| == 0 then m
    else Register(m[names[0] := news[0]], names[1..], news[1..])
  }

  /** Entries for names that are not assigned are untouched. */
  lemma {:induction false} RegisterKeepsOtherNames(m: NameMap, names: seq<string>, news: seq<Ty>, n: string)
    requires |names| == |news|
    requires n in m && n !in names
    ensures Register(m, names, news)[n] == m[n]
    decreases |names|
  {
    if |names| > 0 {
      RegisterKeepsOtherNames(m[names[0] := news[0]], names[1..], news[1..], n);
    }
  }

  /** The last assignment to a name wins. */
  lemma {:induction false} RegisterLastAssignmentWins(m: NameMap, names: seq<string>, news: seq<Ty>, i: nat)
    requires |names| == |news| && i < |names|
    requires forall j :: i < j < |names| ==> names[j] != names[i]
    ensures Register(m, names, news)[names[i]] == news[i]
    decreases |names|
  {
    if i == 0 {
      RegisterKeepsOtherNames(m[names[0] := news[0]], names[1..], news[1..], names[0]);
    } else {
      RegisterLastAssignmentWins(m[names[0] := news[0]], names[1..], news[1..], i - 1);
    }
  }

  /** Registering builders named after their keys keeps the table self-named. */
  lemma {:induction false} RegisterKeepsSelfNamed(m: NameMap, names: seq<string>, news: seq<Ty>)
    requires |names| == |news|
    requires SelfNamed(m)
    requires forall i :: 0 <= i < |news| ==> news[i].Builder? && news[i].name == names[i]
    ensures SelfNamed(Register(m, names, news))
    decreases |names|
  {
    if |names| > 0 {
      RegisterKeepsSelfNamed(m[names[0] := news[0]], names[1..], news[1..]);
    }
  }

  /** The values of a list of results, in order, or the first failure. */
  function AllOk<T>(results: seq<Result<T>>): (r: Result<seq<T>>)
    ensures r.Ok? ==> |r.value| == |results|
    ensures r.Ok? ==> forall i :: 0 <= i < |results| ==> results[i] == Ok(r.value[i])
    ensures r.Err? <==> exists i :: 0 <= i < |results| && results[i].Err?
  {
    if |results| == 0 then Ok([])
    else if results[0].Err? then Err(results[0].fault)
    else
      var rest :- AllOk(results[1..]);
      assert forall i :: 1 <= i < |results| ==> results[i] == results[1..][i - 1];
      Ok([results[0].value] + rest)
  }

  /** The copies of the originals: builder, attributes without variance,
      and constraints rewritten onto the new parameters; the first
      constraint that cannot be rewritten aborts the copy. */
  function CopyEach(genericArguments: seq<GenericArg>, newParameters: seq<Ty>, declaringType: Option<Ty>): (r: Result<seq<GenericArg>>)
    requires |newParameters| == |genericArguments|
    ensures r.Ok? ==> |r.value| == |genericArguments|
    ensures r.Ok? ==> forall i :: 0 <= i < |genericArguments| ==>
              r.value[i].param == newParameters[i]
              && r.value[i].attributes == SetGenericParameterAttributes(genericArguments[i].attributes)
              && AdjustGenericConstraints(declaringType, newParameters, ParamsOf(genericArguments), genericArguments[i].constraints)
                 == Ok(r.value[i].constraints)
    ensures r.Err? <==> (exists i :: 0 <= i < |genericArguments| &&
                          AdjustGenericConstraints(declaringType, newParameters, ParamsOf(genericArguments), genericArguments[i].constraints).Err?)
  {
    var originals := ParamsOf(genericArguments);
    var adjusted := seq(|genericArguments|, i requires 0 <= i < |genericArguments| =>
                          AdjustGenericConstraints(declaringType, newParameters, originals, genericArguments[i].constraints));
    var constraints :- AllOk(adjusted);
    Ok(seq(|genericArguments|, i requires 0 <= i < |genericArguments| =>
             GenericArg(newParameters[i], SetGenericParameterAttributes(genericArguments[i].attributes), constraints[i])))
  }

  /** The private `CopyGenericArguments`: nothing to copy gives `null` and an
      untouched table; otherwise one builder per original, named after it,
      carrying its attributes and rewritten constraints, and registered in
      the table under that name. */
  function CopyGenericArguments(name2GenericType: NameMap, genericArguments: seq<GenericArg>, declaringType: Option<Ty>): (r: Result<Copied>)
    ensures |genericArguments| == 0 ==> r == Ok(Copied(None, name2GenericType))
    ensures r.Ok? && |genericArguments| > 0 ==>
              r.value.parameters.Some? && |r.value.parameters.value| == |genericArguments|
    ensures r.Ok? && |genericArguments| > 0 ==> forall i :: 0 <= i < |genericArguments| ==>
              var copy := r.value.parameters.value[i];
              copy.param == Builder(NameOf(genericArguments[i].param), i)
              && copy.attributes & VarianceMask == 0
              && copy.attributes & !VarianceMask == genericArguments[i].attributes & !VarianceMask
              && AdjustGenericConstraints(declaringType, DefineGenericParameters(NamesOf(genericArguments)),
                                          ParamsOf(genericArguments), genericArguments[i].constraints)
                 == Ok(copy.constraints)
    ensures r.Ok? ==> r.value.name2GenericType.Keys
                      == name2GenericType.Keys + set i | 0 <= i < |genericArguments| :: NameOf(genericArguments[i].param)
    ensures r.Err? <==> (exists i, j :: 0 <= i < |genericArguments| && 0 <= j < |genericArguments[i].constraints| &&
                          AdjustConstraint(genericArguments[i].constraints[j], ParamsOf(genericArguments),
                                           DefineGenericParameters(NamesOf(genericArguments)), declaringType).Err?)
  {
    if |genericArguments| == 0 then Ok(Copied(None, name2GenericType))
    else
      var argumentNames := NamesOf(genericArguments);
      var newGenericParameters := DefineGenericParameters(argumentNames);
      var copies :- CopyEach(genericArguments, newGenericParameters, declaringType);
      Ok(Copied(Some(copies), Register(name2GenericType, argumentNames, newGenericParameters)))
  }

  /** A copy keeps a self-named table self-named. */
  lemma CopyKeepsSelfNamed(name2GenericType: NameMap, genericArguments: seq<GenericArg>, declaringType: Option<Ty>)
    requires SelfNamed(name2GenericType)
    requires CopyGenericArguments(name2GenericType, genericArguments, declaringType).Ok?
    ensures SelfNamed(CopyGenericArguments(name2GenericType, genericArguments, declaringType).value.name2GenericType)
  {
    if |genericArguments| > 0 {
      var names := NamesOf(genericArguments);
      CopiedTableIsRegistered(name2GenericType, genericArguments, declaringType);
      RegisterKeepsSelfNamed(name2GenericType, names, DefineGenericParameters(names));
    }
  }

  /** The table a successful copy returns is the old one with the new
      builders registered under the originals' names. */
  lemma CopiedTableIsRegistered(name2GenericType: NameMap, genericArguments: seq<GenericArg>, declaringType: Option<Ty>)
    requires |genericArguments| > 0
    ensures var r := CopyGenericArguments(name2GenericType, genericArguments, declaringType);
            r.Ok? ==> r.value.name2GenericType
                      == Register(name2GenericType, NamesOf(genericArguments), DefineGenericParameters(NamesOf(genericArguments)))
  {
  }

  /** After a copy, looking up an original parameter by name yields its copy,
      provided the originals have distinct names. */
  lemma CopyThenExtractFindsTheCopies(name2GenericType: NameMap, genericArguments: seq<GenericArg>, declaringType: Option<Ty>)
    requires DistinctNames(ParamsOf(genericArguments))
    requires forall i :: 0 <= i < |genericArguments| ==> IsGenericParameter(genericArguments[i].param)
    requires CopyGenericArguments(name2GenericType, genericArguments, declaringType).Ok?
    ensures var c := CopyGenericArguments(name2GenericType, genericArguments, declaringType).value;
            forall i :: 0 <= i < |genericArguments| ==>
              ExtractCorrectType(genericArguments[i].param, c.name2GenericType) == c.parameters.value[i].param
  {
    var c := CopyGenericArguments(name2GenericType, genericArguments, declaringType).value;
    var names := NamesOf(genericArguments);
    var news := DefineGenericParameters(names);
    assert c.name2GenericType == Register(name2GenericType, names, news);
    forall i | 0 <= i < |genericArguments|
      ensures ExtractCorrectType(genericArguments[i].param, c.name2GenericType) == c.parameters.value[i].param
    {
      forall j | i < j < |names|
        ensures names[j] != names[i]
      {
        assert ParamsOf(genericArguments)[i] == genericArguments[i].param;
        assert ParamsOf(genericArguments)[j] == genericArguments[j].param;
      }
      RegisterLastAssignmentWins(name2GenericType, names, news, i);
      assert c.parameters.value[i].param == news[i];
    }
  }

  /** The generic arguments of a type as the records the copy reads. A
      definition reports its own parameters with their attributes and
      constraints. The arguments of a constructed type are read the same
      way, and reading the attributes of an argument that is not a generic
      parameter is an invalid operation; a generic parameter standing as an
      argument is taken with no attributes and no constraints. */
  function GenericArgumentsOf(t: Ty): (r: Result<seq<GenericArg>>)
    ensures r.Err? <==> t.Constructed? && exists i :: 0 <= i < |t.arguments| && !IsGenericParameter(t.arguments[i])
    ensures r.Err? ==> r.fault == InvalidOperation
    ensures r.Ok? ==> ParamsOf(r.value) == GetGenericArguments(t)
    ensures t.GenericDef? ==> r == Ok(t.parameters)
  {
    match t
    case GenericDef(_, _, parameters) => Ok(parameters)
    case Constructed(_, arguments) =>
      if exists i :: 0 <= i < |arguments| && !IsGenericParameter(arguments[i]) then Err(InvalidOperation)
      else Ok(seq(|arguments|, i requires 0 <= i < |arguments| => GenericArg(arguments[i], 0, [])))
    case _ => Ok([])
  }

  /** The public overloads. Copying from a type reads its generic arguments and
      resolves type-level constraints through `enclosing`, its `DeclaringType`
      (`null` for a top-level type). */
  function CopyFromType(typeToCopyGenericsFrom: Ty, enclosing: Option<Ty>, name2GenericType: NameMap): (r: Result<Copied>)
    ensures !IsGenericType(typeToCopyGenericsFrom) ==> r == Ok(Copied(None, name2GenericType))
    ensures GenericArgumentsOf(typeToCopyGenericsFrom).Err? ==> r == Err(InvalidOperation)
    ensures typeToCopyGenericsFrom.GenericDef? ==>
              r == CopyGenericArguments(name2GenericType, typeToCopyGenericsFrom.parameters, enclosing)
    ensures r.Ok? && r.value.parameters.Some? ==>
              |r.value.parameters.value| == |GetGenericArguments(typeToCopyGenericsFrom)|
  {
    var genericArguments :- GenericArgumentsOf(typeToCopyGenericsFrom);
    CopyGenericArguments(name2GenericType, genericArguments, enclosing)
  }

  /** Copying from a type and a method: a `null` method falls back to the
      type alone; otherwise the type's arguments come first, then the
      method's, and constraints resolve through the method's declaring type. */
  function CopyFromTypeAndMethod(typeToCopyGenericsFrom: Ty, enclosing: Option<Ty>, methodToCopyGenericsFrom: Option<Method>, name2GenericType: NameMap): (r: Result<Copied>)
    ensures methodToCopyGenericsFrom.None? ==> r == CopyFromType(typeToCopyGenericsFrom, enclosing, name2GenericType)
    ensures GenericArgumentsOf(typeToCopyGenericsFrom).Err? ==> r == Err(InvalidOperation)
    ensures methodToCopyGenericsFrom.Some? && GenericArgumentsOf(typeToCopyGenericsFrom).Ok? ==>
              r == CopyGenericArguments(name2GenericType,
                                        GenericArgumentsOf(typeToCopyGenericsFrom).value + methodToCopyGenericsFrom.value.genericParameters,
                                        Some(methodToCopyGenericsFrom.value.declaringType))
    ensures methodToCopyGenericsFrom.Some? && r.Ok? && r.value.parameters.Some? ==>
              |r.value.parameters.value|
              == |GetGenericArguments(typeToCopyGenericsFrom)| + |methodToCopyGenericsFrom.value.genericParameters|
    ensures methodToCopyGenericsFrom.Some? && r.Ok? && r.value.parameters.Some? ==>
              ParamsOf(r.value.parameters.value)
              == DefineGenericParameters(NamesOf(GenericArgumentsOf(typeToCopyGenericsFrom).value)
                                         + NamesOf(methodToCopyGenericsFrom.value.genericParameters))
  {
    if methodToCopyGenericsFrom.None? then CopyFromType(typeToCopyGenericsFrom, enclosing, name2GenericType)
    else
      var m := methodToCopyGenericsFrom.value;
      var typeArguments :- GenericArgumentsOf(typeToCopyGenericsFrom);
      var copied := CopyGenericArguments(name2GenericType, typeArguments + m.genericParameters, Some(m.declaringType));
      if copied.Ok? && copied.value.parameters.Some? then
        CopiedParametersAreDefined(name2GenericType, typeArguments + m.genericParameters, Some(m.declaringType));
        NamesOfAppend(typeArguments, m.genericParameters);
        copied
      else copied
  }

  /** The builders of a copy are `DefineGenericParameters` over the
      originals' names: builder `k` is named after original `k`. */
  lemma CopiedParametersAreDefined(name2GenericType: NameMap, genericArguments: seq<GenericArg>, declaringType: Option<Ty>)
    requires CopyGenericArguments(name2GenericType, genericArguments, declaringType).Ok?
    requires |genericArguments| > 0
    ensures ParamsOf(CopyGenericArguments(name2GenericType, genericArguments, declaringType).value.parameters.value)
            == DefineGenericParameters(NamesOf(genericArguments))
  {
    var copies := CopyGenericArguments(name2GenericType, genericArguments, declaringType).value.parameters.value;
    assert ParamsOf(copies) == DefineGenericParameters(NamesOf(genericArguments));
  }

  /** Names are read element by element, so they distribute over `+`. */
  lemma NamesOfAppend(first: seq<GenericArg>, second: seq<GenericArg>)
    ensures NamesOf(first + second) == NamesOf(first) + NamesOf(second)
  {
    var all := first + second;
    forall k | 0 <= k < |all|
      ensures NamesOf(all)[k] == (NamesOf(first) + NamesOf(second))[k]
    {
      if k < |first| {
        assert all[k] == first[k];
      } else {
        assert all[k] == second[k - |first|];
      }
    }
  }

  /** Copying from a method alone: its generic parameters, resolved through its declaring type. */
  function CopyFromMethod(methodToCopyGenericsFrom: Method, name2GenericType: NameMap): (r: Result<Copied>)
    ensures !IsGenericMethod(methodToCopyGenericsFrom) ==> r == Ok(Copied(None, name2GenericType))
    ensures r.Ok? && IsGenericMethod(methodToCopyGenericsFrom) ==>
              r.value.parameters.Some? && |r.value.parameters.value| == |methodToCopyGenericsFrom.genericParameters|
    ensures r.Ok? && IsGenericMethod(methodToCopyGenericsFrom) ==>
              var gp := methodToCopyGenericsFrom.genericParameters;
              forall j :: 0 <= j < |gp| ==>
                r.value.parameters.value[j].param == Builder(NameOf(gp[j].param), j)
                && AdjustGenericConstraints(Some(methodToCopyGenericsFrom.declaringType), DefineGenericParameters(NamesOf(gp)),
                                            ParamsOf(gp), gp[j].constraints)
                   == Ok(r.value.parameters.value[j].constraints)
    ensures r.Err? <==>
              var gp := methodToCopyGenericsFrom.genericParameters;
              exists j, k :: 0 <= j < |gp| && 0 <= k < |gp[j].constraints| &&
                AdjustConstraint(gp[j].constraints[k], ParamsOf(gp), DefineGenericParameters(NamesOf(gp)),
                                 Some(methodToCopyGenericsFrom.declaringType)).Err?
  {
    CopyGenericArguments(name2GenericType, methodToCopyGenericsFrom.genericParameters, Some(methodToCopyGenericsFrom.declaringType))
  }
}

=== FILE: invocation_types.dfy ===
/** The invocation classes generated for intercepted methods
    (`InvocationTypeGenerator` and its Inheritance, Composition and
    ChangeTarget variants): what each variant derives from and passes to its
    base constructor, the body of its `InvokeMethodOnTarget`, and how the
    generated type is cached. */
module InvocationTypes {
  import opened Wrappers
  import opened ClrTypes
  import opened Statements
  import Naming
  import GenericUtil
  import TypeEmitter
  import ClassEmitter
  import TypeCache

  /** Which invocation base class the generated type derives from. */
  datatype InvocationKind = Inheritance | Composition | ChangeTarget

  /** `GetBaseType`. */
  function BaseTypeOf(kind: InvocationKind): Ty
  {
    match kind
    case Inheritance => InheritanceInvocationType
    case Composition => CompositionInvocationType
    case ChangeTarget => ChangeTargetInvocationType
  }

  /** `AdditionalInterfaces`: only a ChangeTarget invocation implements `IChangeProxyTarget`. */
  function AdditionalInterfaces(kind: InvocationKind): (r: seq<Ty>)
    ensures r == [] <==> kind != ChangeTarget
  {
    if kind == ChangeTarget then [ChangeProxyTargetType] else []
  }

  /** `GetTargetReference`: an Inheritance invocation calls the proxy object
      itself, the others their `Target`. */
  function TargetReferenceOf(kind: InvocationKind): (r: TargetReference)
    ensures r == ProxyObjectField <==> kind == Inheritance
  {
    if kind == Inheritance then ProxyObjectField else TargetField
  }

  /** `GetBaseCtorArguments`: five arguments whose first is the target's
      type (`Type` for Inheritance, the target field's type for
      Composition, `object` for ChangeTarget) followed by the proxy,
      the interceptors, the method and the argument array. */
  function BaseCtorArguments(kind: InvocationKind, targetFieldType: Ty): (r: seq<Ty>)
    ensures |r| == 5
    ensures r[1..] == [ObjectType, InterceptorArrayType, MethodInfoType, ObjectArrayType]
    ensures kind == Inheritance ==> r[0] == TypeType
    ensures kind == Composition ==> r[0] == targetFieldType
    ensures kind == ChangeTarget ==> r[0] == ObjectType
  {
    var first := match kind
      case Inheritance => TypeType
      case Composition => targetFieldType
      case ChangeTarget => ObjectType;
    [first, ObjectType, InterceptorArrayType, MethodInfoType, ObjectArrayType]
  }

  /** The statements the variant adds before the shared body: a call of
      `EnsureValidTarget` for the variants that have a separate target. */
  function ValidTargetPrefix(kind: InvocationKind): (r: seq<Statement>)
    ensures r == [] <==> kind == Inheritance
    ensures r != [] ==> r == [EnsureValidTarget]
  {
    if kind == Inheritance then [] else [EnsureValidTarget]
  }

  /** What an invocation-creation contributor supplies in place of the
      default behaviour: the callback it reports and the argument types of
      the constructor it creates. */
  datatype InvocationContributor = InvocationContributor(callback: Option<Method>, constructorArguments: seq<Ty>)

  // ---------------------------------------------------------------------
  // GetCallbackMethod
  // ---------------------------------------------------------------------

  /** `GetCallbackMethod`: a contributor's callback wins; otherwise `null`
      stays `null`, a non-generic callback is used as it is, and a generic one
      is closed over the invocation's builders for the proxied method's
      generic parameters. */
  function GetCallbackMethod(invocation: TypeEmitter.Emitter, proxied: Method, callback: Option<Method>,
                             contributor: Option<InvocationContributor>): (r: Result<Option<Method>>)
    ensures contributor.Some? ==> r == Ok(contributor.value.callback)
    ensures contributor.None? && callback.None? ==> r == Ok(None)
    ensures contributor.None? && callback.Some? && !IsGenericMethod(callback.value) ==> r == Ok(callback)
    ensures contributor.None? && callback.Some? && IsGenericMethod(callback.value) && r.Ok? ==>
              r.value.Some? && r.value.value.name == callback.value.name
              && |ParamsOf(r.value.value.genericParameters)| == |proxied.genericParameters|
              && forall i :: 0 <= i < |proxied.genericParameters| ==>
                   TypeEmitter.GetBuilder(invocation, proxied.genericParameters[i].param)
                   == Ok(ParamsOf(r.value.value.genericParameters)[i])
  {
    if contributor.Some? then Ok(contributor.value.callback)
    else if callback.None? then Ok(None)
    else if !IsGenericMethod(callback.value) then Ok(callback)
    else
      var arguments :- TypeEmitter.GetGenericArgumentsForMethod(invocation, proxied);
      var closed :- MakeGenericMethod(callback.value, arguments);
      Ok(Some(closed))
  }

  // ---------------------------------------------------------------------
  // InvokeMethodOnTarget
  // ---------------------------------------------------------------------

  /** The argument passed for parameter `i` of type `t`. */
  function ArgumentFor(i: nat, t: Ty): CallArgument
  {
    if t.ByRef? then ByRefLocal(i) else ConvertedArgument(i, t)
  }

  /** The argument array: one entry per parameter. */
  function Arguments(parameterTypes: seq<Ty>): (r: seq<CallArgument>)
    ensures |r| == |parameterTypes|
    ensures forall i :: 0 <= i < |r| ==> r[i] == ArgumentFor(i, parameterTypes[i])
  {
    seq(|parameterTypes|, i requires 0 <= i < |parameterTypes| => ArgumentFor(i, parameterTypes[i]))
  }

  /** The positions of the by-ref parameters, ascending: the keys of the
      by-ref dictionary in the order they were added. */
  function ByRefIndices(parameterTypes: seq<Ty>): (r: seq<nat>)
    decreases |parameterTypes|
  {
    if |parameterTypes| == 0 then []
    else
      var n := |parameterTypes| - 1;
      ByRefIndices(parameterTypes[..n]) + (if parameterTypes[n].ByRef? then [n] else [])
  }

  /** A by-ref parameter is listed, and only a by-ref parameter. */
  lemma {:induction false} ByRefIndicesAreTheByRefParameters(parameterTypes: seq<Ty>, i: int)
    ensures i in ByRefIndices(parameterTypes) <==> 0 <= i < |parameterTypes| && parameterTypes[i].ByRef?
    decreases |parameterTypes|
  {
    if |parameterTypes| > 0 {
      var n := |parameterTypes| - 1;
      ByRefIndicesAreTheByRefParameters(parameterTypes[..n], i);
    }
  }

  /** The assignments of by-ref locals, one per by-ref parameter, in order. */
  function ByRefLoads(parameterTypes: seq<Ty>): seq<Statement>
    decreases |parameterTypes|
  {
    if |parameterTypes| == 0 then []
    else
      var n := |parameterTypes| - 1;
      ByRefLoads(parameterTypes[..n])
      + (if parameterTypes[n].ByRef? then [LoadByRefArgument(n, parameterTypes[n].element)] else [])
  }

  /** `AssignBackByRefArguments`: nothing without by-ref parameters;
      otherwise a finally block that writes every by-ref local back. */
  function AssignBackByRefArguments(byRefIndices: seq<nat>): (r: seq<Statement>)
    ensures |byRefIndices| == 0 ==> r == []
    ensures |byRefIndices| > 0 ==> |r| == |byRefIndices| + 2 && r[0] == Finally && r[|r| - 1] == EndExceptionBlock
    ensures forall i :: i in byRefIndices ==> SetArgumentValue(i) in r
    ensures forall s :: s in r ==> s == Finally || s == EndExceptionBlock || (s.SetArgumentValue? && s.index in byRefIndices)
  {
    if |byRefIndices| == 0 then []
    else
      var sets := seq(|byRefIndices|, k requires 0 <= k < |byRefIndices| => SetArgumentValue(byRefIndices[k]));
      assert forall k :: 0 <= k < |byRefIndices| ==> sets[k] == SetArgumentValue(byRefIndices[k]);
      [Finally] + sets + [EndExceptionBlock]
  }

  /** The call on the target: the contributor's, or a virtual call of the
      callback through the target reference. */
  function CallFor(callback: Method, contributed: bool, target: TargetReference, arguments: seq<CallArgument>): (r: TargetCall)
    ensures r.Arguments() == arguments
  {
    if contributed then ContributedCall(arguments) else VirtualCall(target, callback.declaringType, callback, arguments)
  }

  /** The body of `InvokeMethodOnTarget`, after the variant's prefix: without
      a callback, a throw for the missing target; otherwise the by-ref
      locals, a try block when there are any, the call, the copy-back, the
      return value when the callback returns one, and a return. */
  function InvokeBody(prefix: seq<Statement>, callback: Option<Method>, contributed: bool, target: TargetReference,
                      parameterTypes: seq<Ty>): seq<Statement>
  {
    match callback
    case None => prefix + [ThrowOnNoTarget, Return]
    case Some(cb) =>
      var byRefs := ByRefIndices(parameterTypes);
      var hasResult := cb.returnType != Void;
      prefix + ByRefLoads(parameterTypes) + (if |byRefs| > 0 then [Try] else [])
      + [CallTarget(CallFor(cb, contributed, target, Arguments(parameterTypes)), hasResult)]
      + AssignBackByRefArguments(byRefs)
      + (if hasResult then [SetReturnValue] else [])
      + [Return]
  }

  /** `ImplementInvokeMethodOnTarget` as the source writes it: one pass over
      the parameters that declares the by-ref locals and fills the argument
      array and the by-ref dictionary, then the statements around the call. */
  method ImplementInvokeMethodOnTarget(prefix: seq<Statement>, callback: Option<Method>, contributed: bool,
                                       target: TargetReference, parameterTypes: seq<Ty>)
    returns (body: seq<Statement>)
    ensures body == InvokeBody(prefix, callback, contributed, target, parameterTypes)
  {
    body := prefix;
    if callback.None? {
      body := body + [ThrowOnNoTarget];
      body := body + [Return];
      return;
    }
    var cb := callback.value;
    var args: seq<CallArgument> := [];
    var byRefArguments: seq<nat> := [];
    for i := 0 to |parameterTypes|
      invariant args == Arguments(parameterTypes[..i])
      invariant byRefArguments == ByRefIndices(parameterTypes[..i])
      invariant body == prefix + ByRefLoads(parameterTypes[..i])
    {
      assert parameterTypes[..i + 1][..i] == parameterTypes[..i];
      var paramType := parameterTypes[i];
      if paramType.ByRef? {
        body := body + [LoadByRefArgument(i, paramType.element)];
        args := args + [ByRefLocal(i)];
        byRefArguments := byRefArguments + [i];
      } else {
        args := args + [ConvertedArgument(i, paramType)];
      }
    }
    assert parameterTypes[..|parameterTypes|] == parameterTypes;
    var hasResult := cb.returnType != Void;
    body := body + (if |byRefArguments| > 0 then [Try] else []);
    body := body + [CallTarget(CallFor(cb, contributed, target, args), hasResult)];
    body := body + AssignBackByRefArguments(byRefArguments);
    body := body + (if hasResult then [SetReturnValue] else []);
    body := body + [Return];
  }

  /** Without a callback the body only reports the missing target. */
  lemma NoCallbackThrows(kind: InvocationKind, contributed: bool, parameterTypes: seq<Ty>)
    ensures InvokeBody(ValidTargetPrefix(kind), None, contributed, TargetReferenceOf(kind), parameterTypes)
            == ValidTargetPrefix(kind) + [ThrowOnNoTarget, Return]
  {
  }

  /** The statements the by-ref part of the body may hold, and the ones it never holds. */
  lemma {:induction false} ByRefLoadsAreLoads(parameterTypes: seq<Ty>)
    ensures Try !in ByRefLoads(parameterTypes) && Return !in ByRefLoads(parameterTypes)
    ensures ThrowOnNoTarget !in ByRefLoads(parameterTypes)
    ensures SetReturnValue !in ByRefLoads(parameterTypes) && EndExceptionBlock !in ByRefLoads(parameterTypes)
    ensures forall i :: SetArgumentValue(i) !in ByRefLoads(parameterTypes)
    decreases |parameterTypes|
  {
    if |parameterTypes| > 0 {
      ByRefLoadsAreLoads(parameterTypes[..|parameterTypes| - 1]);
    }
  }

  /** Some parameter is by-ref exactly when the by-ref dictionary is non-empty. */
  lemma ByRefIndicesNonEmpty(parameterTypes: seq<Ty>)
    ensures |ByRefIndices(parameterTypes)| > 0 <==> exists i :: 0 <= i < |parameterTypes| && parameterTypes[i].ByRef?
  {
    var byRefs := ByRefIndices(parameterTypes);
    if |byRefs| > 0 {
      ByRefIndicesAreTheByRefParameters(parameterTypes, byRefs[0]);
    }
    if exists i :: 0 <= i < |parameterTypes| && parameterTypes[i].ByRef? {
      var i :| 0 <= i < |parameterTypes| && parameterTypes[i].ByRef?;
      ByRefIndicesAreTheByRefParameters(parameterTypes, i);
    }
  }

  /** The body with a callback, cut at the points where the source adds statements. */
  lemma BodyParts(kind: InvocationKind, cb: Method, contributed: bool, parameterTypes: seq<Ty>)
    ensures var byRefs := ByRefIndices(parameterTypes);
            var hasResult := cb.returnType != Void;
            InvokeBody(ValidTargetPrefix(kind), Some(cb), contributed, TargetReferenceOf(kind), parameterTypes)
            == ValidTargetPrefix(kind) + ByRefLoads(parameterTypes) + (if |byRefs| > 0 then [Try] else [])
               + [CallTarget(CallFor(cb, contributed, TargetReferenceOf(kind), Arguments(parameterTypes)), hasResult)]
               + AssignBackByRefArguments(byRefs) + (if hasResult then [SetReturnValue] else []) + [Return]
  {
  }

  /** With a callback, a try block is opened exactly when some parameter is by-ref. */
  lemma TryIffByRef(kind: InvocationKind, cb: Method, contributed: bool, parameterTypes: seq<Ty>)
    ensures Try in InvokeBody(ValidTargetPrefix(kind), Some(cb), contributed, TargetReferenceOf(kind), parameterTypes)
            <==> exists i :: 0 <= i < |parameterTypes| && parameterTypes[i].ByRef?
  {
    BodyParts(kind, cb, contributed, parameterTypes);
    ByRefLoadsAreLoads(parameterTypes);
    ByRefIndicesNonEmpty(parameterTypes);
  }

  /** With a callback, every by-ref parameter is written back, and nothing else is. */
  lemma EveryByRefCopiedBack(kind: InvocationKind, cb: Method, contributed: bool, parameterTypes: seq<Ty>, i: nat)
    ensures SetArgumentValue(i) in InvokeBody(ValidTargetPrefix(kind), Some(cb), contributed, TargetReferenceOf(kind), parameterTypes)
            <==> i < |parameterTypes| && parameterTypes[i].ByRef?
  {
    BodyParts(kind, cb, contributed, parameterTypes);
    ByRefLoadsAreLoads(parameterTypes);
    ByRefIndicesAreTheByRefParameters(parameterTypes, i);
  }

  /** With a callback, the return value is stored exactly when the callback
      returns one, and then after the copy-back. */
  lemma SetReturnValueIffResult(kind: InvocationKind, cb: Method, contributed: bool, parameterTypes: seq<Ty>)
    ensures var body := InvokeBody(ValidTargetPrefix(kind), Some(cb), contributed, TargetReferenceOf(kind), parameterTypes);
            (SetReturnValue in body <==> cb.returnType != Void)
            && (cb.returnType != Void ==> body[|body| - 2] == SetReturnValue)
  {
    BodyParts(kind, cb, contributed, parameterTypes);
    ByRefLoadsAreLoads(parameterTypes);
  }

  /** The body without its final statement. */
  function BodyBeforeReturn(prefix: seq<Statement>, callback: Option<Method>, contributed: bool, target: TargetReference,
                            parameterTypes: seq<Ty>): seq<Statement>
  {
    match callback
    case None => prefix + [ThrowOnNoTarget]
    case Some(cb) =>
      var byRefs := ByRefIndices(parameterTypes);
      var hasResult := cb.returnType != Void;
      prefix + ByRefLoads(parameterTypes) + (if |byRefs| > 0 then [Try] else [])
      + [CallTarget(CallFor(cb, contributed, target, Arguments(parameterTypes)), hasResult)]
      + AssignBackByRefArguments(byRefs)
      + (if hasResult then [SetReturnValue] else [])
  }

  lemma BodyBeforeReturnHasNoReturn(kind: InvocationKind, callback: Option<Method>, contributed: bool, parameterTypes: seq<Ty>)
    ensures var before := BodyBeforeReturn(ValidTargetPrefix(kind), callback, contributed, TargetReferenceOf(kind), parameterTypes);
            Return !in before && (ThrowOnNoTarget in before <==> callback.None?)
            && InvokeBody(ValidTargetPrefix(kind), callback, contributed, TargetReferenceOf(kind), parameterTypes) == before + [Return]
  {
    BeforeReturnExcludes(ValidTargetPrefix(kind), callback, contributed, TargetReferenceOf(kind), parameterTypes);
  }

  /** Past a prefix without returns or throws, only the missing-target case
      throws, and nothing before the final return returns. */
  lemma BeforeReturnExcludes(prefix: seq<Statement>, callback: Option<Method>, contributed: bool, target: TargetReference,
                             parameterTypes: seq<Ty>)
    requires Return !in prefix && ThrowOnNoTarget !in prefix
    ensures var before := BodyBeforeReturn(prefix, callback, contributed, target, parameterTypes);
            Return !in before && (ThrowOnNoTarget in before <==> callback.None?)
  {
    if callback.Some? {
      var cb := callback.value;
      var byRefs := ByRefIndices(parameterTypes);
      var hasResult := cb.returnType != Void;
      var loads := ByRefLoads(parameterTypes);
      var opening: seq<Statement> := if |byRefs| > 0 then [Try] else [];
      var call := [CallTarget(CallFor(cb, contributed, target, Arguments(parameterTypes)), hasResult)];
      var back := AssignBackByRefArguments(byRefs);
      var result: seq<Statement> := if hasResult then [SetReturnValue] else [];
      ByRefLoadsAreLoads(parameterTypes);
      assert Return !in back && ThrowOnNoTarget !in back;
      var head := prefix + loads + opening + call;
      assert Return !in head && ThrowOnNoTarget !in head;
      assert BodyBeforeReturn(prefix, callback, contributed, target, parameterTypes) == head + back + result;
    }
  }

  /** With or without a callback, the body ends in its only return, and the
      missing-target throw appears exactly when there is no callback. */
  lemma SingleFinalReturn(kind: InvocationKind, callback: Option<Method>, contributed: bool, parameterTypes: seq<Ty>)
    ensures var body := InvokeBody(ValidTargetPrefix(kind), callback, contributed, TargetReferenceOf(kind), parameterTypes);
            body[|body| - 1] == Return && Count(body, Return) == 1
            && (ThrowOnNoTarget in body <==> callback.None?)
  {
    var before := BodyBeforeReturn(ValidTargetPrefix(kind), callback, contributed, TargetReferenceOf(kind), parameterTypes);
    BodyBeforeReturnHasNoReturn(kind, callback, contributed, parameterTypes);
    CountAppend(before, [Return], Return);
    assert Count([Return], Return) == 1;
  }

  // ---------------------------------------------------------------------
  // Generation
  // ---------------------------------------------------------------------

  /** A generated invocation class: its unique name, the emitter with its
      generic parameters and constructor, and the `InvokeMethodOnTarget` body. */
  datatype GeneratedInvocation = GeneratedInvocation(name: string, emitter: TypeEmitter.Emitter, invokeMethodOnTarget: seq<Statement>)

  /** The name suggested for the invocation class of a method. */
  function SuggestedName(m: Method): string
  {
    "Castle.Proxies.Invocations." + SimpleName(m.declaringType) + "_" + m.name
  }

  /** The generic parameters of the invocation class: copied from the proxy's
      generic source and the method when the proxy is a generic type
      definition, and from the method alone otherwise. */
  function CopyGenericParameters(invocation: TypeEmitter.Emitter, proxy: TypeEmitter.Emitter, m: Method): (r: Result<TypeEmitter.Emitter>)
    ensures TypeEmitter.IsGenericType(proxy) && proxy.genericParametersSource.None? ==> r == Err(NullReference)
    ensures TypeEmitter.IsGenericType(proxy) && proxy.genericParametersSource.Some? ==>
              r == TypeEmitter.CopyGenericParametersFromType(invocation, proxy.genericParametersSource.value, None, Some(m))
    ensures !TypeEmitter.IsGenericType(proxy) ==> r == TypeEmitter.CopyGenericParametersFromMethod(invocation, m)
  {
    if TypeEmitter.IsGenericType(proxy) then
      if proxy.genericParametersSource.None? then Err(NullReference)
      else TypeEmitter.CopyGenericParametersFromType(invocation, proxy.genericParametersSource.value, None, Some(m))
    else TypeEmitter.CopyGenericParametersFromMethod(invocation, m)
  }

  /** The invocation class's emitter: derived from the variant's base type,
      with the proxy's and the method's generic parameters and one
      constructor (the contributor's, if any). */
  function InvocationEmitter(kind: InvocationKind, meta: MetaMethod, contributor: Option<InvocationContributor>,
                             proxy: TypeEmitter.Emitter, targetFieldType: Ty, env: ClassEmitter.Environment,
                             scope: Naming.NamingScope)
    : (r: Result<TypeEmitter.Emitter>)
    ensures r.Ok? ==> r.value.parent == Some(BaseTypeOf(kind)) && !r.value.isInterface
    ensures r.Ok? ==> r.value.constructors
                      == [TypeEmitter.Constructor(if contributor.Some? then contributor.value.constructorArguments
                                                  else BaseCtorArguments(kind, targetFieldType))]
  {
    var ce :- ClassEmitter.NewClassEmitter(scope, Some(BaseTypeOf(kind)), Some(AdditionalInterfaces(kind)),
                                           ClassEmitter.ShouldForceUnsigned(env.canStrongNameAssembly), env.fromUnsignedAssembly);
    var e :- CopyGenericParameters(ce.emitter, proxy, meta.declared);
    TypeEmitter.CreateConstructor(e, if contributor.Some? then contributor.value.constructorArguments
                                     else BaseCtorArguments(kind, targetFieldType))
  }

  /** The invocation class once its name is chosen: derived from the
      variant's base type, with its generic parameters, its constructor (the
      contributor's, if any), and `InvokeMethodOnTarget` starting with the
      variant's target check. */
  function BuildInvocation(kind: InvocationKind, meta: MetaMethod, callback: Option<Method>, contributor: Option<InvocationContributor>,
                           proxy: TypeEmitter.Emitter, targetFieldType: Ty, env: ClassEmitter.Environment,
                           scope: Naming.NamingScope, name: string)
    : (r: Result<GeneratedInvocation>)
    ensures r.Ok? ==> r.value.name == name
    ensures r.Ok? ==> r.value.emitter.parent == Some(BaseTypeOf(kind)) && !r.value.emitter.isInterface
    ensures r.Ok? ==> r.value.emitter.constructors
                      == [TypeEmitter.Constructor(if contributor.Some? then contributor.value.constructorArguments
                                                  else BaseCtorArguments(kind, targetFieldType))]
    ensures r.Ok? ==> ValidTargetPrefix(kind) <= r.value.invokeMethodOnTarget
    ensures r.Ok? ==> (ThrowOnNoTarget in r.value.invokeMethodOnTarget
                       <==> (if contributor.Some? then contributor.value.callback else callback).None?)
  {
    var e :- InvocationEmitter(kind, meta, contributor, proxy, targetFieldType, env, scope);
    var cb :- GetCallbackMethod(e, meta.declared, callback, contributor);
    var parameterTypes := TypeEmitter.ClosedParameterTypes(e, meta.declared.parameters);
    SingleFinalReturn(kind, cb, contributor.Some?, parameterTypes);
    Ok(GeneratedInvocation(name, e, InvokeBody(ValidTargetPrefix(kind), cb, contributor.Some?, TargetReferenceOf(kind), parameterTypes)))
  }

  /** `Generate`: the invocation class under a name the scope has not used.
      `scope` is the parent (module-level) scope of the proxy's own naming
      scope, the one the type name is drawn from (InvocationTypeGenerator.cs:267). */
  function Generate(kind: InvocationKind, meta: MetaMethod, callback: Option<Method>, contributor: Option<InvocationContributor>,
                    proxy: TypeEmitter.Emitter, targetFieldType: Ty, env: ClassEmitter.Environment, scope: Naming.NamingScope)
    : (r: Result<(GeneratedInvocation, Naming.NamingScope)>)
    ensures r.Ok? ==> r.value.0.name !in scope.used && SuggestedName(meta.declared) <= r.value.0.name
    ensures r.Ok? ==> r.value.1.used == scope.used + [r.value.0.name]
    ensures r.Ok? ==> r.value.0.emitter.parent == Some(BaseTypeOf(kind)) && !r.value.0.emitter.isInterface
    ensures r.Ok? ==> r.value.0.emitter.constructors
                      == [TypeEmitter.Constructor(if contributor.Some? then contributor.value.constructorArguments
                                                  else BaseCtorArguments(kind, targetFieldType))]
    ensures r.Ok? ==> ValidTargetPrefix(kind) <= r.value.0.invokeMethodOnTarget
    ensures r.Ok? ==> (ThrowOnNoTarget in r.value.0.invokeMethodOnTarget
                       <==> (if contributor.Some? then contributor.value.callback else callback).None?)
  {
    var (name, scope') := Naming.GetUniqueName(scope, SuggestedName(meta.declared));
    var g :- BuildInvocation(kind, meta, callback, contributor, proxy, targetFieldType, env, scope', name);
    Ok((g, scope'))
  }

  /** `BuildType`: the generated class as a type. */
  function BuildType(g: GeneratedInvocation): Ty
  {
    TypeEmitter.BuiltType(g.emitter, g.name)
  }

  /** `Generate().BuildType()` together with the naming scope afterwards. */
  function GenerateType(kind: InvocationKind, meta: MetaMethod, callback: Option<Method>, contributor: Option<InvocationContributor>,
                        proxy: TypeEmitter.Emitter, targetFieldType: Ty, env: ClassEmitter.Environment, scope: Naming.NamingScope)
    : Result<(Ty, Naming.NamingScope)>
  {
    var (g, scope') :- Generate(kind, meta, callback, contributor, proxy, targetFieldType, env, scope);
    Ok((BuildType(g), scope'))
  }

  /** A generated type is named freshly: its name was not in use, and the
      naming scope records it. */
  lemma GenerateTypeIsFresh(kind: InvocationKind, meta: MetaMethod, callback: Option<Method>, contributor: Option<InvocationContributor>,
                            proxy: TypeEmitter.Emitter, targetFieldType: Ty, env: ClassEmitter.Environment, scope: Naming.NamingScope)
    ensures var r := GenerateType(kind, meta, callback, contributor, proxy, targetFieldType, env, scope);
            r.Ok? ==> NameOf(r.value.0) !in scope.used && r.value.1.used == scope.used + [NameOf(r.value.0)]
  {
  }

  /** The cache key of a cached variant: the proxied method, the base type
      and the additional interfaces, never the target instance. */
  function CacheKeyFor(kind: InvocationKind, m: Method): TypeCache.CacheKey
  {
    TypeCache.CacheKey(TypeCache.MethodTarget(m), BaseTypeOf(kind), AdditionalInterfaces(kind), false)
  }

  /** Composition and ChangeTarget invocation types for a method never share
      a cache entry, and neither kind maps two different methods to one key. */
  lemma CacheKeysSeparateKindsAndMethods(kind1: InvocationKind, kind2: InvocationKind, m1: Method, m2: Method)
    ensures CacheKeyFor(kind1, m1) == CacheKeyFor(kind2, m2) <==> kind1 == kind2 && m1 == m2
  {
  }

  /** `GetProxyType`. Inheritance invocations are generated on every call and
      the cache is neither read nor written; the other variants go through
      the get-or-create discipline under `CacheKeyFor`. */
  function GetProxyType(kind: InvocationKind, meta: MetaMethod, callback: Option<Method>, contributor: Option<InvocationContributor>,
                        proxy: TypeEmitter.Emitter, targetFieldType: Ty, env: ClassEmitter.Environment,
                        cache: TypeCache.Cache, scope: Naming.NamingScope)
    : (r: TypeCache.Lookup<Naming.NamingScope>)
    ensures kind == Inheritance ==> r.cache == cache && r.generated
    ensures kind != Inheritance && CacheKeyFor(kind, meta.declared) in cache ==>
              r == TypeCache.Lookup(Ok(cache[CacheKeyFor(kind, meta.declared)]), cache, scope, false)
    ensures kind != Inheritance && r.result.Ok? ==>
              TypeCache.GetFromCache(r.cache, CacheKeyFor(kind, meta.declared)) == Some(r.result.value)
    ensures r.generated && r.result.Ok? ==> NameOf(r.result.value) !in scope.used
  {
    var generate := (s: Naming.NamingScope) => GenerateType(kind, meta, callback, contributor, proxy, targetFieldType, env, s);
    GenerateTypeIsFresh(kind, meta, callback, contributor, proxy, targetFieldType, env, scope);
    if kind == Inheritance then
      match generate(scope)
      case Err(f) => TypeCache.Lookup(Err(f), cache, scope, true)
      case Ok((t, scope')) => TypeCache.Lookup(Ok(t), cache, scope', true)
    else
      TypeCache.GetOrCreate(cache, CacheKeyFor(kind, meta.declared), scope, generate)
  }

  /** Two Inheritance lookups in a row generate two different types, even
      for the same method: the second draws a name the first already used. */
  lemma InheritanceNeverReuses(meta: MetaMethod, callback: Option<Method>, contributor: Option<InvocationContributor>,
                               proxy: TypeEmitter.Emitter, targetFieldType: Ty, env: ClassEmitter.Environment,
                               cache: TypeCache.Cache, scope: Naming.NamingScope)
    requires GetProxyType(Inheritance, meta, callback, contributor, proxy, targetFieldType, env, cache, scope).result.Ok?
    ensures var r1 := GetProxyType(Inheritance, meta, callback, contributor, proxy, targetFieldType, env, cache, scope);
            var r2 := GetProxyType(Inheritance, meta, callback, contributor, proxy, targetFieldType, env, r1.cache, r1.state);
            r2.result.Ok? ==> r2.result.value != r1.result.value
  {
    var r1 := GetProxyType(Inheritance, meta, callback, contributor, proxy, targetFieldType, env, cache, scope);
    var (g, s1) := Generate(Inheritance, meta, callback, contributor, proxy, targetFieldType, env, scope).value;
    assert r1.state == s1 && r1.result.value == BuildType(g);
    assert g.name in s1.used;
  }
}

=== FILE: method_with_invocation.dfy ===
/** `MethodWithInvocationGenerator`: the body of an intercepted proxy method.
    It builds an invocation object from the target, the proxy, the
    interceptors, a method token and the arguments, passes the generic
    method arguments to it, calls `Proceed`, copies `out`/`ref` values back
    and returns the invocation's return value. */
module MethodWithInvocation {
  import opened Wrappers
  import opened ClrTypes
  import opened Statements
  import Naming
  import Collections
  import TypeEmitter

  /** `HasByRefArguments`: the first by-ref argument stops the scan. */
  method HasByRefArguments(arguments: seq<Ty>) returns (r: bool)
    ensures r <==> exists i :: 0 <= i < |arguments| && arguments[i].ByRef?
  {
    for i := 0 to |arguments|
      invariant forall j :: 0 <= j < i ==> !arguments[j].ByRef?
    {
      if arguments[i].ByRef? {
        return true;
      }
    }
    return false;
  }

  /** Some argument is by-ref. */
  predicate AnyByRef(arguments: seq<Ty>)
  {
    exists i :: 0 <= i < |arguments| && arguments[i].ByRef?
  }

  /** A statement of the proxy's type initializer that fills a method token field. */
  datatype TokenAssignment =
    | AssignMethodToken(field: string, m: Method)                          // token = methodof(m)
    | AssignAdjustedOpenMethodToken(field: string, declaringType: Ty)      // token = GetAdjustedOpenMethodToken(typeof(T), metadata token)
    | AssignGenericMethodDefinition(field: string)                         // token = token.GetGenericMethodDefinition()

  /** How the token field is initialized.
      - A non-generic method: the token of the method as adjusted to the proxy.
      - A generic method of a generic type, on a proxy with generic
        parameters: the open method looked up on the adjusted declaring type.
      - Any other generic method: the adjusted method's token, then its
        generic method definition. */
  function TokenInitialization(proxy: TypeEmitter.Emitter, m: Method, field: string): (r: seq<TokenAssignment>)
    ensures !IsGenericMethod(m) ==> r == [AssignMethodToken(field, TypeEmitter.AdjustMethod(proxy, m))]
    ensures IsGenericMethod(m) && IsGenericType(m.declaringType) && TypeEmitter.IsGenericType(proxy) ==>
              r == [AssignAdjustedOpenMethodToken(field, TypeEmitter.AdjustMethod(proxy, m).declaringType)]
    ensures IsGenericMethod(m) && !(IsGenericType(m.declaringType) && TypeEmitter.IsGenericType(proxy)) ==>
              r == [AssignMethodToken(field, TypeEmitter.AdjustMethod(proxy, m)), AssignGenericMethodDefinition(field)]
  {
    if !IsGenericMethod(m) then [AssignMethodToken(field, TypeEmitter.AdjustMethod(proxy, m))]
    else if IsGenericType(m.declaringType) && proxy.genericTypeParams.Some? then
      [AssignAdjustedOpenMethodToken(field, TypeEmitter.AdjustMethod(proxy, m).declaringType)]
    else
      [AssignMethodToken(field, TypeEmitter.AdjustMethod(proxy, m)), AssignGenericMethodDefinition(field)]
  }

  /** The constructor arguments and what creating them did to the proxy. */
  datatype CtorArguments = CtorArguments(arguments: seq<CtorArgument>, proxy: TypeEmitter.Emitter, scope: Naming.NamingScope)

  /** `GetCtorArguments`: target, proxy, interceptors, token and arguments;
      when the proxy has a `__selector` field, also the selector and the
      address of a new per-method interceptor cache field, named uniquely from
      `interceptors_` and the method name and excluded from serialization. */
  function GetCtorArguments(proxy: TypeEmitter.Emitter, scope: Naming.NamingScope, m: Method, target: Target): (r: CtorArguments)
    ensures |r.arguments| >= 5
    ensures r.arguments[..5] == [TargetExpression(target), Self, Interceptors, MethodToken, ArgumentsArray]
    ensures TypeEmitter.GetField(proxy, Some("__selector")).None? ==>
              |r.arguments| == 5 && r.proxy == proxy && r.scope == scope
    ensures TypeEmitter.GetField(proxy, Some("__selector")).Some? ==>
              |r.arguments| == 7 && r.arguments[5] == Selector && r.arguments[6].AddressOfMethodInterceptors?
    ensures TypeEmitter.GetField(proxy, Some("__selector")).Some? ==>
              var name := r.arguments[6].fieldName;
              name !in scope.used && "interceptors_" + m.name <= name
              && r.scope.used == scope.used + [name]
              && name in r.proxy.fields
              && r.proxy.fields[name].fieldType == InterceptorArrayType
              && r.proxy.fields[name].attributes & TypeEmitter.FieldNotSerialized != 0
  {
    var common := [TargetExpression(target), Self, Interceptors, MethodToken, ArgumentsArray];
    if TypeEmitter.GetField(proxy, Some("__selector")).Some? then
      var (name, scope') := Naming.GetUniqueName(scope, "interceptors_" + m.name);
      var created := TypeEmitter.CreateField(proxy, name, InterceptorArrayType, false);
      CtorArguments(common + [Selector, AddressOfMethodInterceptors(name)], created.emitter, scope')
    else
      CtorArguments(common, proxy, scope)
  }

  /** `ModifyArguments`: the contributor's rewrite of the constructor arguments,
      if there is a contributor. */
  function ModifyArguments(rewrite: Option<seq<CtorArgument> -> seq<CtorArgument>>, arguments: seq<CtorArgument>): (r: seq<CtorArgument>)
    ensures rewrite.None? ==> r == arguments
  {
    if rewrite.None? then arguments else rewrite.value(arguments)
  }

  /** The generic parameters among a method's type arguments, in order. */
  function GenericParametersOf(typeArguments: seq<Ty>): seq<Ty>
  {
    Collections.Filter(typeArguments, IsGenericParameter)
  }

  /** `EmitLoadGenricMethodArguments`: a `Type[]` filled with the given
      generic arguments in order, handed to the invocation. */
  function LoadGenericMethodArguments(genericArguments: seq<Ty>): (r: seq<Statement>)
    ensures |r| == |genericArguments| + 2
    ensures r[0] == NewGenericArgumentsArray(|genericArguments|) && r[|r| - 1] == SetGenericMethodArguments
    ensures forall i :: 0 <= i < |genericArguments| ==> r[i + 1] == StoreGenericArgument(i, genericArguments[i])
    ensures forall s :: s in r ==> s.NewGenericArgumentsArray? || s.StoreGenericArgument? || s == SetGenericMethodArguments
  {
    var stores := seq(|genericArguments|, i requires 0 <= i < |genericArguments| => StoreGenericArgument(i, genericArguments[i]));
    [NewGenericArgumentsArray(|genericArguments|)] + stores + [SetGenericMethodArguments]
  }

  /** The generated proxy method: the proxy with its new fields, the token
      field, the token initialization added to the type initializer, and the
      method body. */
  datatype ProxiedMethod = ProxiedMethod(
    proxy: TypeEmitter.Emitter,
    tokenField: TypeEmitter.FieldReference,
    tokenInitialization: seq<TokenAssignment>,
    body: seq<Statement>)

  /** The invocation type a generic method instantiates: the invocation's
      definition over the proxy's generic arguments followed by the
      method's; a non-generic method uses the invocation type itself. */
  function InvocationTypeFor(proxy: TypeEmitter.Emitter, m: Method, invocation: Ty, methodTypeArguments: seq<Ty>): (r: Ty)
    ensures !IsGenericMethod(m) ==> r == invocation
    ensures IsGenericMethod(m) ==>
              (r.Constructed? && r.definition == invocation
               && r.arguments == Collections.Contents(proxy.genericTypeParams) + methodTypeArguments)
  {
    if !IsGenericMethod(m) then invocation
    else
      var arrays := [proxy.genericTypeParams, Some(methodTypeArguments)];
      assert arrays[..1][..0] == [];
      assert Collections.Flatten(arrays[..1]) == Collections.Flatten(arrays[..1][..0]) + Collections.Contents(arrays[..1][0]);
      assert Collections.Flatten(arrays) == Collections.Flatten(arrays[..1]) + Collections.Contents(arrays[1]);
      Constructed(invocation, Collections.Flatten(arrays))
  }

  /** The statements of the proxied method, in order:
      - the invocation is constructed first;
      - for a generic method, the generic arguments are handed to it;
      - `Proceed` runs, inside a try block when some argument is by-ref;
      - the out/ref values are copied back, in the finally block when there
        is one;
      - the method returns the invocation's converted return value, or
        nothing for a `void` method. */
  function ProxiedBody(invocationType: Ty, arguments: seq<CtorArgument>, genericArguments: Option<seq<Ty>>,
                       hasByRefArguments: bool, returnType: Ty): (body: seq<Statement>)
    ensures var g := if genericArguments.Some? then |genericArguments.value| + 2 else 0;
            var t := if hasByRefArguments then 1 else 0;
            |body| == 4 + g + 3 * t
            && body[0] == NewInvocation(invocationType, arguments)
            && (genericArguments.Some? ==>
                  body[1..g + 1] == LoadGenericMethodArguments(genericArguments.value))
            && body[1 + g + t] == Proceed
            && body[2 + g + 2 * t] == CopyOutAndRefParameters
            && (hasByRefArguments ==> body[1 + g] == Try && body[3 + g] == Finally && body[5 + g] == EndExceptionBlock)
            && body[|body| - 1] == (if returnType != Void then ReturnConverted(returnType) else Return)
  {
    ProxiedBodyHead(invocationType, arguments, genericArguments) + ProxiedBodyTail(hasByRefArguments, returnType)
  }

  /** The construction of the invocation and the hand-over of the generic arguments. */
  function ProxiedBodyHead(invocationType: Ty, arguments: seq<CtorArgument>, genericArguments: Option<seq<Ty>>): (head: seq<Statement>)
    ensures |head| == 1 + (if genericArguments.Some? then |genericArguments.value| + 2 else 0)
    ensures head[0] == NewInvocation(invocationType, arguments)
    ensures genericArguments.Some? ==> head[1..] == LoadGenericMethodArguments(genericArguments.value)
    ensures forall s :: s in head ==> s.NewInvocation? || s.NewGenericArgumentsArray? || s.StoreGenericArgument? || s == SetGenericMethodArguments
    ensures SetGenericMethodArguments in head <==> genericArguments.Some?
  {
    var generic := if genericArguments.Some? then LoadGenericMethodArguments(genericArguments.value) else [];
    var head := [NewInvocation(invocationType, arguments)] + generic;
    assert head[1..] == generic;
    head
  }

  /** `Proceed`, the copy-back and the return, with the exception block
      around the first two when some argument is by-ref. */
  function ProxiedBodyTail(hasByRefArguments: bool, returnType: Ty): (tail: seq<Statement>)
    ensures var t := if hasByRefArguments then 1 else 0;
            |tail| == 3 + 3 * t && tail[t] == Proceed && tail[1 + 2 * t] == CopyOutAndRefParameters
            && (hasByRefArguments ==> tail[0] == Try && tail[2] == Finally && tail[4] == EndExceptionBlock)
            && tail[|tail| - 1] == (if returnType != Void then ReturnConverted(returnType) else Return)
  {
    var last := if returnType != Void then ReturnConverted(returnType) else Return;
    if hasByRefArguments then [Try, Proceed, Finally, CopyOutAndRefParameters, EndExceptionBlock, last]
    else [Proceed, CopyOutAndRefParameters, last]
  }

  /** The try block, its finally block and the end of the exception block
      exist exactly when some argument is by-ref. */
  lemma ProxiedBodyExceptionBlock(invocationType: Ty, arguments: seq<CtorArgument>, genericArguments: Option<seq<Ty>>,
                                  hasByRefArguments: bool, returnType: Ty)
    ensures var body := ProxiedBody(invocationType, arguments, genericArguments, hasByRefArguments, returnType);
            (Try in body <==> hasByRefArguments)
            && (Finally in body <==> hasByRefArguments)
            && (EndExceptionBlock in body <==> hasByRefArguments)
  {
    var head := ProxiedBodyHead(invocationType, arguments, genericArguments);
    assert Try !in head && Finally !in head && EndExceptionBlock !in head;
    ProxiedBodyTailExceptionBlock(hasByRefArguments, returnType);
  }

  /** The tail opens, continues and closes an exception block exactly when
      some argument is by-ref. */
  lemma ProxiedBodyTailExceptionBlock(hasByRefArguments: bool, returnType: Ty)
    ensures var tail := ProxiedBodyTail(hasByRefArguments, returnType);
            (Try in tail <==> hasByRefArguments)
            && (Finally in tail <==> hasByRefArguments)
            && (EndExceptionBlock in tail <==> hasByRefArguments)
  {
    var tail := ProxiedBodyTail(hasByRefArguments, returnType);
    var last := if returnType != Void then ReturnConverted(returnType) else Return;
    if hasByRefArguments {
      assert tail == [Try, Proceed, Finally, CopyOutAndRefParameters, EndExceptionBlock, last];
    } else {
      assert tail == [Proceed, CopyOutAndRefParameters, last];
    }
  }

  /** The generic method arguments are handed to the invocation exactly when
      the method is generic. */
  lemma ProxiedBodyGenericArguments(invocationType: Ty, arguments: seq<CtorArgument>, genericArguments: Option<seq<Ty>>,
                                    hasByRefArguments: bool, returnType: Ty)
    ensures var body := ProxiedBody(invocationType, arguments, genericArguments, hasByRefArguments, returnType);
            SetGenericMethodArguments in body <==> genericArguments.Some?
  {
    var tail := ProxiedBodyTail(hasByRefArguments, returnType);
    var last := if returnType != Void then ReturnConverted(returnType) else Return;
    if hasByRefArguments {
      assert tail == [Try, Proceed, Finally, CopyOutAndRefParameters, EndExceptionBlock, last];
    } else {
      assert tail == [Proceed, CopyOutAndRefParameters, last];
    }
    assert SetGenericMethodArguments !in tail;
  }

  /** A non-void method returns the converted return value and never returns
      plainly; a void method does the opposite. */
  lemma ProxiedBodyReturn(invocationType: Ty, arguments: seq<CtorArgument>, genericArguments: Option<seq<Ty>>,
                          hasByRefArguments: bool, returnType: Ty)
    ensures var body := ProxiedBody(invocationType, arguments, genericArguments, hasByRefArguments, returnType);
            (ReturnConverted(returnType) in body <==> returnType != Void)
            && (Return in body <==> returnType == Void)
  {
    var head := ProxiedBodyHead(invocationType, arguments, genericArguments);
    assert ReturnConverted(returnType) !in head && Return !in head;
    ProxiedBodyTailReturn(hasByRefArguments, returnType);
  }

  /** The tail returns the converted value of a non-void method and returns
      plainly from a void one, and does nothing else of the kind. */
  lemma ProxiedBodyTailReturn(hasByRefArguments: bool, returnType: Ty)
    ensures var tail := ProxiedBodyTail(hasByRefArguments, returnType);
            (ReturnConverted(returnType) in tail <==> returnType != Void)
            && (Return in tail <==> returnType == Void)
  {
    var last := if returnType != Void then ReturnConverted(returnType) else Return;
    var middle := if hasByRefArguments then [Try, Proceed, Finally, CopyOutAndRefParameters, EndExceptionBlock]
                  else [Proceed, CopyOutAndRefParameters];
    assert ProxiedBodyTail(hasByRefArguments, returnType) == middle + [last];
    assert ReturnConverted(returnType) !in middle && Return !in middle;
  }

  /** `BuildProxiedMethodBody`. `methodTypeArguments` are the generic
      parameters of the overriding method, `argumentTypes` its parameter
      types, `target` the contributor's target expression and `rewrite` its
      constructor-argument rewrite. A static `MethodInfo` token field with a
      fresh `token_` name is created and initialized in the type initializer,
      the constructor arguments are gathered, and the body is built. */
  function BuildProxiedMethodBody(proxy: TypeEmitter.Emitter, scope: Naming.NamingScope, m: Method, methodTypeArguments: seq<Ty>,
                                  argumentTypes: seq<Ty>, invocation: Ty, target: Target,
                                  rewrite: Option<seq<CtorArgument> -> seq<CtorArgument>>)
    : (r: Result<(ProxiedMethod, Naming.NamingScope)>)
    ensures IsGenericMethod(m) && |methodTypeArguments| != |m.genericParameters| ==> r == Err(Argument)
    ensures (!IsGenericMethod(m) || |methodTypeArguments| == |m.genericParameters|) ==>
              (r.Ok? <==> proxy.classConstructor.Some?)
    ensures r.Ok? ==>
              |r.value.0.body| > 0 && r.value.0.body[0].NewInvocation?
              && r.value.0.body
              == ProxiedBody(InvocationTypeFor(proxy, m, invocation, methodTypeArguments),
                             r.value.0.body[0].arguments,
                             if IsGenericMethod(m) then Some(GenericParametersOf(methodTypeArguments)) else None,
                             AnyByRef(argumentTypes), m.returnType)
    ensures r.Ok? ==>
              var tokenName := r.value.0.tokenField.name;
              tokenName !in scope.used && "token_" + m.name <= tokenName
              && r.value.0.tokenField.fieldType == MethodInfoType
              && r.value.0.tokenField.attributes == TypeEmitter.FieldPublic | TypeEmitter.FieldStatic
              && r.value.0.tokenInitialization == TokenInitialization(proxy, m, tokenName)
    ensures r.Ok? && rewrite.None? ==>
              var arguments := r.value.0.body[0].arguments;
              |arguments| >= 5
              && arguments[..5] == [TargetExpression(target), Self, Interceptors, MethodToken, ArgumentsArray]
              && (|arguments| == 7 <==> TypeEmitter.GetField(proxy, Some("__selector")).Some?)
              && (|arguments| == 5 <==> TypeEmitter.GetField(proxy, Some("__selector")).None?)
  {
    if IsGenericMethod(m) && |methodTypeArguments| != |m.genericParameters| then Err(Argument)
    else
      var invocationType := InvocationTypeFor(proxy, m, invocation, methodTypeArguments);
      var (tokenName, scope1) := Naming.GetUniqueName(scope, "token_" + m.name);
      var token := TypeEmitter.CreateStaticField(proxy, tokenName, MethodInfoType, TypeEmitter.FieldPublic);
      if token.emitter.classConstructor.None? then Err(NullReference)
      else
        var initialization := TokenInitialization(proxy, m, tokenName);
        assert tokenName[0] == 't';
        TypeEmitter.CreateThenGetField(proxy, tokenName, MethodInfoType, TypeEmitter.FieldPublic | TypeEmitter.FieldStatic,
                                       "__selector", MethodInfoType, 0);
        var ctor := GetCtorArguments(token.emitter, scope1, m, target);
        var generic := if IsGenericMethod(m) then Some(GenericParametersOf(methodTypeArguments)) else None;
        var body := ProxiedBody(invocationType, ModifyArguments(rewrite, ctor.arguments), generic,
                                AnyByRef(argumentTypes), m.returnType);
        Ok((ProxiedMethod(ctor.proxy, token.field, initialization, body), ctor.scope))
  }
}

=== FILE: naming.dfy ===
/** The naming scope that keeps generated member and parameter names unique.
    The scope's own implementation is not part of this model; it is
    abstracted as the list of names handed out so far, and a colliding
    suggestion is extended with a suffix long enough that no name in use
    can equal it. */
module Naming {

  /** The names already returned by this scope. */
  datatype NamingScope = NamingScope(used: seq<string>)

  /** The longest name in use. */
  function MaxLength(names: seq<string>): (r: nat)
    ensures forall i :: 0 <= i < |names| ==> |names[i]| <= r
  {
    if |names| == 0 then 0
    else
      var rest := MaxLength(names[1..]);
      if |names[0]| > rest then |names[0]| else rest
  }

  /** A run of `k` underscores. */
  function Underscores(k: nat): (r: string)
    ensures |r| == k
  {
    seq(k, _ => '_')
  }

  /** `GetUniqueName`: the suggestion itself when it is free, otherwise the
      suggestion extended by a suffix; either way the result was not handed
      out before, starts with the suggestion, and is recorded as used. */
  function GetUniqueName(scope: NamingScope, suggested: string): (r: (string, NamingScope))
    ensures r.0 !in scope.used
    ensures suggested <= r.0
    ensures suggested !in scope.used ==> r.0 == suggested
    ensures r.1.used == scope.used + [r.0]
  {
    if suggested !in scope.used then (suggested, NamingScope(scope.used + [suggested]))
    else
      var name := suggested + "_" + Underscores(MaxLength(scope.used));
      assert |name| > MaxLength(scope.used);
      (name, NamingScope(scope.used + [name]))
  }

  /** `SafeSubScope`: a child scope. How a child relates to its parent is
      not part of this model, so the child starts with no names in use and
      promises nothing about the parent's names; names it hands out are
      unique among themselves only. */
  function SafeSubScope(scope: NamingScope): (r: NamingScope)
    ensures forall s: string :: GetUniqueName(r, s).0 == s
  {
    NamingScope([])
  }

  /** `GetUniqueName` applied to each suggestion in turn, threading the scope. */
  function GetUniqueNames(scope: NamingScope, suggestions: seq<string>): (r: (seq<string>, NamingScope))
    ensures |r.0| == |suggestions|
    ensures r.1.used == scope.used + r.0
    decreases |suggestions|
  {
    if |suggestions| == 0 then ([], scope)
    else
      var first := GetUniqueName(scope, suggestions[0]);
      var rest := GetUniqueNames(first.1, suggestions[1..]);
      ([first.0] + rest.0, rest.1)
  }

  /** Names drawn one after another from one scope are pairwise different,
      avoid everything that was in use before, and each starts with its
      suggestion. */
  lemma {:induction false} GetUniqueNamesAreFresh(scope: NamingScope, suggestions: seq<string>)
    ensures var r := GetUniqueNames(scope, suggestions).0;
            (forall i :: 0 <= i < |r| ==> suggestions[i] <= r[i] && r[i] !in scope.used)
            && (forall i, j :: 0 <= i < j < |r| ==> r[i] != r[j])
    decreases |suggestions|
  {
    if |suggestions| > 0 {
      var first := GetUniqueName(scope, suggestions[0]);
      GetUniqueNamesAreFresh(first.1, suggestions[1..]);
      var rest := GetUniqueNames(first.1, suggestions[1..]);
      var r := GetUniqueNames(scope, suggestions).0;
      assert r == [first.0] + rest.0;
      forall i | 0 < i < |r|
        ensures r[i] != r[0] && r[i] !in scope.used
      {
        assert r[i] == rest.0[i - 1];
      }
      forall i | 0 < i < |r|
        ensures suggestions[i] <= r[i]
      {
        assert suggestions[i] == suggestions[1..][i - 1];
      }
    }
  }

  /** Drawing names for a list with a known first suggestion: that one
      first, then the rest from the scope it leaves. */
  lemma GetUniqueNamesCons(scope: NamingScope, x: string, rest: seq<string>)
    ensures var first := GetUniqueName(scope, x);
            var after := GetUniqueNames(first.1, rest);
            GetUniqueNames(scope, [x] + rest) == ([first.0] + after.0, after.1)
  {
    assert ([x] + rest)[0] == x;
    assert ([x] + rest)[1..] == rest;
  }

  /** Drawing names for two lists one after the other is drawing names for
      their concatenation. */
  lemma {:induction false} GetUniqueNamesAppend(scope: NamingScope, a: seq<string>, b: seq<string>)
    ensures GetUniqueNames(scope, a + b).0
            == GetUniqueNames(scope, a).0 + GetUniqueNames(GetUniqueNames(scope, a).1, b).0
    ensures GetUniqueNames(scope, a + b).1 == GetUniqueNames(GetUniqueNames(scope, a).1, b).1
    decreases |a|
  {
    if |a| == 0 {
      assert a + b == b;
    } else {
      var x, tail := a[0], a[1..];
      assert a == [x] + tail;
      assert a + b == [x] + (tail + b);
      var first := GetUniqueName(scope, x);
      GetUniqueNamesCons(scope, x, tail);
      GetUniqueNamesCons(scope, x, tail + b);
      GetUniqueNamesAppend(first.1, tail, b);
    }
  }
}

=== FILE: proxy_generators.dfy ===
/** The proxy generators: `ClassProxyGenerator`,
    `InterfaceProxyWithoutTargetGenerator` and
    `InterfaceProxyWithTargetInterfaceGenerator`. They choose whether the
    proxy is generated open (over the generic definition of the proxied
    type) or closed. They decide which contributor implements each interface
    and fix the order of the generation steps and constructor arguments. An
    open proxy type is closed again over the captured generic arguments. */
module ProxyGenerators {
  import opened Wrappers
  import opened ClrTypes
  import Collections
  import Contributors
  import TypeEmitter
  import Statements
  import InvocationTypes

  // ------------------------------------------------------ open or closed proxy

  /** `GetTargetType`: a generic proxied type is replaced by its generic
      definition, so that one open proxy serves every closing of it. This
      happens only when no additional interface and no mixin interface is
      generic. */
  function GetTargetType(t: Ty, additionalInterfaces: seq<Ty>, mixinInterfaces: seq<Ty>): (r: Ty)
    ensures r == t || (IsGenericType(t) && r == GetGenericTypeDefinition(t))
    ensures IsGenericType(t)
            && (forall i :: 0 <= i < |additionalInterfaces| ==> !IsGenericType(additionalInterfaces[i]))
            && (forall i :: 0 <= i < |mixinInterfaces| ==> !IsGenericType(mixinInterfaces[i]))
            ==> r == GetGenericTypeDefinition(t)
    ensures (exists i :: 0 <= i < |additionalInterfaces| && IsGenericType(additionalInterfaces[i])) ==> r == t
    ensures (exists i :: 0 <= i < |mixinInterfaces| && IsGenericType(mixinInterfaces[i])) ==> r == t
  {
    if IsGenericType(t) && Collections.None(Some(additionalInterfaces), IsGenericType) == Ok(true)
       && Collections.None(Some(mixinInterfaces), IsGenericType) == Ok(true)
    then GetGenericTypeDefinition(t)
    else t
  }

  /** `GetTargetType` handed the additional interfaces as they reach it,
      possibly `null`. The `&&` stops at a non-generic proxied type before
      the list is read; otherwise `None` is called on it, and a `null` list
      makes it throw. On a present list it is the rule above. */
  function GetTargetTypeAsWritten(t: Ty, additionalInterfaces: Option<seq<Ty>>, mixinInterfaces: seq<Ty>): (r: Result<Ty>)
    ensures r.Err? <==> IsGenericType(t) && additionalInterfaces.None?
    ensures r.Err? ==> r.fault == ArgumentNull
    ensures r.Ok? ==> r.value == GetTargetType(t, Collections.Contents(additionalInterfaces), mixinInterfaces)
  {
    if !IsGenericType(t) then Ok(t)
    else
      var noGenericAdditional :- Collections.None(additionalInterfaces, IsGenericType);
      if !noGenericAdditional then Ok(t)
      else
        var noGenericMixin := Collections.None(Some(mixinInterfaces), IsGenericType).value;
        if noGenericMixin then Ok(GetGenericTypeDefinition(t)) else Ok(t)
  }

  /** What a generator's constructor settles: the type the proxy is
      generated for, and the generic arguments captured to close an open
      proxy afterwards (`null` for a closed one). */
  datatype Setup = Setup(targetType: Ty, genericArguments: Option<seq<Ty>>)

  /** The generic arguments are captured exactly when the chosen type is a
      generic definition, and they are the arguments of the type asked for. */
  function Capture(original: Ty, targetType: Ty): (r: Setup)
    ensures r.targetType == targetType
    ensures r.genericArguments.Some? <==> IsGenericTypeDefinition(targetType)
    ensures r.genericArguments.Some? ==> r.genericArguments.value == GetGenericArguments(original)
  {
    Setup(targetType, if IsGenericTypeDefinition(targetType) then Some(GetGenericArguments(original)) else None)
  }

  /** `IProxyTargetAccessor.IsAssignableFrom(type)`, given the interfaces the
      type implements. */
  predicate ImplementsProxyTargetAccessor(t: Ty, interfacesOfT: seq<Ty>)
  {
    t == ProxyTargetAccessorType || ProxyTargetAccessorType in interfacesOfT
  }

  /** The `ClassProxyGenerator` constructor. A class that already implements
      `IProxyTargetAccessor` (a proxy) is refused with an argument error.
      Otherwise the open-or-closed rule is applied with `null` additional
      interfaces read as none. */
  function ClassProxySetup(targetType: Ty, targetTypeInterfaces: seq<Ty>,
                           additionalInterfacesToProxy: Option<seq<Ty>>, mixinInterfaces: seq<Ty>)
    : (r: Result<Setup>)
    ensures r.Err? <==> ImplementsProxyTargetAccessor(targetType, targetTypeInterfaces)
    ensures r.Err? ==> r.fault == Argument
    ensures r.Ok? ==> r.value.targetType == GetTargetType(targetType, Collections.Contents(additionalInterfacesToProxy), mixinInterfaces)
    ensures r.Ok? ==> (r.value.genericArguments.Some? <==> IsGenericTypeDefinition(r.value.targetType))
    ensures r.Ok? && r.value.genericArguments.Some? ==> r.value.genericArguments.value == GetGenericArguments(targetType)
  {
    if ImplementsProxyTargetAccessor(targetType, targetTypeInterfaces) then Err(Argument)
    else Ok(Capture(targetType, GetTargetType(targetType, Collections.Contents(additionalInterfacesToProxy), mixinInterfaces)))
  }

  /** The interface proxy generators' constructors with `null` additional
      interfaces read as none. This is what
      `InterfaceProxyWithTargetInterfaceGenerator` does, and it is the
      corrected form of `InterfaceProxyWithoutTargetGenerator`'s. It never
      fails, and a `null` list behaves exactly like an empty one. */
  function InterfaceProxySetup(iface: Ty, additionalInterfacesToProxy: Option<seq<Ty>>, mixinInterfaces: seq<Ty>)
    : (r: Setup)
    ensures r.targetType == GetTargetType(iface, Collections.Contents(additionalInterfacesToProxy), mixinInterfaces)
    ensures r.genericArguments.Some? <==> IsGenericTypeDefinition(r.targetType)
    ensures r.genericArguments.Some? ==> r.genericArguments.value == GetGenericArguments(iface)
    ensures additionalInterfacesToProxy.None? ==>
              r.targetType == GetTargetType(iface, [], mixinInterfaces)
  {
    Capture(iface, GetTargetType(iface, Collections.Contents(additionalInterfacesToProxy), mixinInterfaces))
  }

  /** `InterfaceProxyWithoutTargetGenerator`'s constructor as written: the
      additional interfaces reach `GetTargetType` without the `null` check.
      For a generic interface, `None` is then called on `null` and throws an
      argument-null error. A non-generic interface short-circuits before the
      list is read. */
  function WithoutTargetSetupAsWritten(iface: Ty, additionalInterfacesToProxy: Option<seq<Ty>>, mixinInterfaces: seq<Ty>)
    : (r: Result<Setup>)
    ensures r.Err? <==> IsGenericType(iface) && additionalInterfacesToProxy.None?
    ensures r.Err? ==> r.fault == ArgumentNull
    ensures r.Ok? ==> r.value == InterfaceProxySetup(iface, additionalInterfacesToProxy, mixinInterfaces)
  {
    var targetType :- GetTargetTypeAsWritten(iface, additionalInterfacesToProxy, mixinInterfaces);
    Ok(Capture(iface, targetType))
  }

  /** A closed generic interface with a `null` list of additional interfaces:
      the constructor as written throws, while the coalescing one
      generates an open proxy over `IList<>` and captures `object`. */
  lemma WithoutTargetRejectsNullAdditionalInterfaces()
    ensures var open := GenericDef("System.Collections.Generic.IList`1", Interface,
                                   [GenericArg(Param("T", DeclaredOnType, 0), 0, [])]);
            var closed := Constructed(open, [ObjectType]);
            WithoutTargetSetupAsWritten(closed, None, []) == Err(ArgumentNull)
            && InterfaceProxySetup(closed, None, []) == Setup(open, Some([ObjectType]))
  {
    var open := GenericDef("System.Collections.Generic.IList`1", Interface,
                           [GenericArg(Param("T", DeclaredOnType, 0), 0, [])]);
    var closed := Constructed(open, [ObjectType]);
    assert Collections.None(Some([]), IsGenericType) == Ok(true);
    assert GetTargetType(closed, [], []) == open;
  }

  /** `AllowChangeTarget` of `InterfaceProxyWithTargetInterfaceGenerator`:
      its invocations may always change the target. */
  const WithTargetInterfaceAllowsChangeTarget: bool := true

  /** `CheckTargetTypeNotGenericTypeDefinition`, overridden by
      `InterfaceProxyWithTargetInterfaceGenerator` to accept every type, so
      an open target interface is allowed. */
  function WithTargetInterfaceCheckTargetType(proxyTargetType: Ty): (r: Result<()>)
    ensures r.Ok?
  {
    Ok(())
  }

  /** An open target interface is validated like any other. */
  lemma OpenTargetInterfaceAccepted(open: Ty)
    requires IsGenericTypeDefinition(open)
    ensures WithTargetInterfaceCheckTargetType(open) == Ok(())
  {
  }

  // ------------------------------------------------------ closing the proxy

  /** `ObtainProxyType` after the cache lookup. With captured arguments, the
      cached open type is closed over them. This fails unless the cached
      type is a generic definition with one parameter per argument.
      Without captured arguments, the cached type is the proxy type. */
  function CloseProxyType(cached: Ty, genericArguments: Option<seq<Ty>>): (r: Result<Ty>)
    ensures genericArguments.None? ==> r == Ok(cached)
    ensures genericArguments.Some? ==>
              (r.Ok? <==> cached.GenericDef? && |genericArguments.value| == |cached.parameters|)
    ensures genericArguments.Some? && r.Ok? ==>
              IsGenericType(r.value) && !IsGenericTypeDefinition(r.value)
              && GetGenericTypeDefinition(r.value) == cached
              && GetGenericArguments(r.value) == genericArguments.value
  {
    if genericArguments.Some? then MakeGenericType(cached, genericArguments) else Ok(cached)
  }

  /** Closings of one cached open type share that type as their definition.
      Two closings are the same type exactly when their arguments are the
      same. */
  lemma ClosingsShareOneDefinition(cached: Ty, a1: seq<Ty>, a2: seq<Ty>)
    requires CloseProxyType(cached, Some(a1)).Ok? && CloseProxyType(cached, Some(a2)).Ok?
    ensures GetGenericTypeDefinition(CloseProxyType(cached, Some(a1)).value)
            == GetGenericTypeDefinition(CloseProxyType(cached, Some(a2)).value)
    ensures CloseProxyType(cached, Some(a1)) == CloseProxyType(cached, Some(a2)) <==> a1 == a2
  {
    if CloseProxyType(cached, Some(a1)) == CloseProxyType(cached, Some(a2)) {
      assert GetGenericArguments(CloseProxyType(cached, Some(a1)).value) == a1;
    }
  }

  /** Round trip of an open proxy. The proxied type is a closed generic type
      and nothing else is generic, so the proxy is generated over its
      definition. The emitter holds one generic parameter per parameter of
      that definition. Closing the built type over the captured arguments
      then succeeds. The result is the built type applied to exactly the
      arguments of the type asked for. */
  lemma OpenProxyClosesOverOriginalArguments(original: Ty, additionalInterfaces: seq<Ty>, mixinInterfaces: seq<Ty>,
                                             e: TypeEmitter.Emitter, name: string)
    requires original.Constructed? && original.definition.GenericDef?
    requires |original.arguments| == |original.definition.parameters|
    requires forall i :: 0 <= i < |additionalInterfaces| ==> !IsGenericType(additionalInterfaces[i])
    requires forall i :: 0 <= i < |mixinInterfaces| ==> !IsGenericType(mixinInterfaces[i])
    requires TypeEmitter.IsGenericType(e) && |e.genericTypeParams.value| == |original.definition.parameters|
    ensures var setup := Capture(original, GetTargetType(original, additionalInterfaces, mixinInterfaces));
            var closed := CloseProxyType(TypeEmitter.BuiltType(e, name), setup.genericArguments);
            setup.targetType == original.definition
            && closed.Ok? && GetGenericArguments(closed.value) == original.arguments
            && GetGenericTypeDefinition(closed.value) == TypeEmitter.BuiltType(e, name)
  {
    var built := TypeEmitter.BuiltType(e, name);
    assert |ParamsOf(built.parameters)| == |built.parameters|;
  }

  // ------------------------------------------------------ interface ownership

  /** The contributors of a class proxy: the target class, the mixins, the
      additional interfaces, and the proxy instance infrastructure. */
  datatype Owner = TargetOwner | MixinsOwner | AdditionalOwner | InstanceOwner

  /** The order in which a class proxy's contributors collect and generate. */
  const ClassProxyContributors: seq<Owner> := [TargetOwner, MixinsOwner, AdditionalOwner, InstanceOwner]

  predicate Distinct(s: seq<Ty>)
  {
    forall i, j :: 0 <= i < j < |s| ==> s[i] != s[j]
  }

  /** The interface-to-implementer dictionary: its keys in insertion order,
      which is the order `Keys` enumerates them in, and the owner of each. */
  datatype Mapping = Mapping(keys: seq<Ty>, owner: map<Ty, Owner>)

  /** The keys are distinct and are exactly the mapped interfaces. */
  ghost predicate WellFormed(m: Mapping)
  {
    (forall t :: t in m.owner <==> t in m.keys) && Distinct(m.keys)
  }

  /** `AddMappingNoCheck`: `Dictionary.Add`, which refuses an interface that
      already has an implementer. */
  function AddMappingNoCheck(m: Mapping, iface: Ty, o: Owner): (r: Result<Mapping>)
    ensures r.Err? <==> iface in m.owner
    ensures r.Err? ==> r.fault == Argument
    ensures r.Ok? ==> r.value.keys == m.keys + [iface] && r.value.owner == m.owner[iface := o]
    ensures WellFormed(m) && r.Ok? ==> WellFormed(r.value)
  {
    if iface in m.owner then Err(Argument) else Ok(Mapping(m.keys + [iface], m.owner[iface := o]))
  }

  /** `AddMapping`: the interface is mapped only if it has no implementer yet;
      an interface already mapped keeps its implementer. */
  function AddMapping(m: Mapping, iface: Ty, o: Owner): (r: Mapping)
    ensures iface in r.owner
    ensures iface in m.owner ==> r == m
    ensures iface !in m.owner ==> r.keys == m.keys + [iface] && r.owner == m.owner[iface := o]
    ensures WellFormed(m) ==> WellFormed(r)
  {
    if iface in m.owner then m else Mapping(m.keys + [iface], m.owner[iface := o])
  }

  /** Which contributor owns an interface, by precedence. An additional
      interface the class implements goes to the target. A mixin interface
      the class does not implement goes to the mixins. Any other additional
      interface that is not a mixin goes to the additional contributor. */
  function InterfaceOwner(t: Ty, targetTypeInterfaces: seq<Ty>, mixinInterfaces: seq<Ty>, additionalInterfaces: seq<Ty>)
    : Option<Owner>
  {
    if t in additionalInterfaces && t in targetTypeInterfaces then Some(TargetOwner)
    else if t in mixinInterfaces && t !in targetTypeInterfaces then Some(MixinsOwner)
    else if t in additionalInterfaces && t !in mixinInterfaces then Some(AdditionalOwner)
    else None
  }

  /** The owner of every interface of a class proxy. The interfaces are
      handled by precedence first. Then `ISerializable` goes to the instance
      contributor for a serializable class, and so does
      `IProxyTargetAccessor`. */
  function SpecOwner(t: Ty, targetTypeInterfaces: seq<Ty>, mixinInterfaces: seq<Ty>, additionalInterfaces: seq<Ty>,
                     serializable: bool): Option<Owner>
  {
    var o := InterfaceOwner(t, targetTypeInterfaces, mixinInterfaces, additionalInterfaces);
    if o.Some? then o
    else if t == SerializableType && serializable then Some(InstanceOwner)
    else if t == ProxyTargetAccessorType then Some(InstanceOwner)
    else None
  }

  /** The mixin interfaces the class implements, in mixin order: those become
      empty interfaces of the mixin contributor. */
  function ImplementedMixins(mixinInterfaces: seq<Ty>, targetTypeInterfaces: seq<Ty>): (r: seq<Ty>)
    ensures forall t :: t in r <==> t in mixinInterfaces && t in targetTypeInterfaces
    ensures |r| <= |mixinInterfaces|
    decreases |mixinInterfaces|
  {
    if |mixinInterfaces| == 0 then []
    else
      var last := mixinInterfaces[|mixinInterfaces| - 1];
      var prefix := mixinInterfaces[..|mixinInterfaces| - 1];
      assert mixinInterfaces == prefix + [last];
      ImplementedMixins(prefix, targetTypeInterfaces) + (if last in targetTypeInterfaces then [last] else [])
  }

  /** The result of `GetTypeImplementerMapping` for a class proxy: the
      mapping, and the interfaces handed to the target contributor, proxied
      by the mixins, kept as empty by the mixins, and handed to the
      additional contributor. */
  datatype ClassProxyMapping = ClassProxyMapping(
    mapping: Mapping,
    byTarget: seq<Ty>,
    byMixins: seq<Ty>,
    emptyMixins: seq<Ty>,
    byAdditional: seq<Ty>)

  /** Each contributor is handed exactly the interfaces the mapping gives it. */
  ghost predicate ListsAgree(r: ClassProxyMapping)
  {
    (forall t :: t in r.byTarget <==> OwnerOf(r.mapping, t) == Some(TargetOwner))
    && (forall t :: t in r.byMixins <==> OwnerOf(r.mapping, t) == Some(MixinsOwner))
    && (forall t :: t in r.byAdditional <==> OwnerOf(r.mapping, t) == Some(AdditionalOwner))
  }

  /** The implementer of an interface, `null` when it has none. */
  function OwnerOf(m: Mapping, t: Ty): Option<Owner>
  {
    if t in m.owner then Some(m.owner[t]) else None
  }

  /** The owners after the mixin loop has seen `seen`. */
  ghost function MixinPhaseOwner(t: Ty, targetTypeInterfaces: seq<Ty>, seen: seq<Ty>, additionalInterfaces: seq<Ty>)
    : Option<Owner>
  {
    if t in seen && t in targetTypeInterfaces && t in additionalInterfaces then Some(TargetOwner)
    else if t in seen && t !in targetTypeInterfaces then Some(MixinsOwner)
    else None
  }

  /** The owners after all mixins and the additional interfaces `seen`. */
  ghost function AdditionalPhaseOwner(t: Ty, targetTypeInterfaces: seq<Ty>, mixinInterfaces: seq<Ty>,
                                      additionalInterfaces: seq<Ty>, seen: seq<Ty>): Option<Owner>
  {
    var m := MixinPhaseOwner(t, targetTypeInterfaces, mixinInterfaces, additionalInterfaces);
    if m.Some? then m
    else if t in seen && t in targetTypeInterfaces then Some(TargetOwner)
    else if t in seen && t !in mixinInterfaces then Some(AdditionalOwner)
    else None
  }

  /** One pass of the mixin loop. A mixin the class implements becomes an
      empty mixin interface. It is also mapped to the target when it is an
      additional interface with no implementer yet. Any other mixin without
      an implementer is proxied by the mixins. */
  function MapMixinInterface(s: ClassProxyMapping, mixin: Ty, targetTypeInterfaces: seq<Ty>,
                             additionalInterfaces: seq<Ty>): (r: ClassProxyMapping)
    ensures mixin in targetTypeInterfaces ==> r.emptyMixins == s.emptyMixins + [mixin]
    ensures mixin !in targetTypeInterfaces ==> r.emptyMixins == s.emptyMixins
    ensures r.byAdditional == s.byAdditional
  {
    if mixin in targetTypeInterfaces then
      if mixin in additionalInterfaces && mixin !in s.mapping.owner then
        var added := AddMappingNoCheck(s.mapping, mixin, TargetOwner);
        s.(mapping := added.value, byTarget := s.byTarget + [mixin], emptyMixins := s.emptyMixins + [mixin])
      else
        s.(emptyMixins := s.emptyMixins + [mixin])
    else if mixin !in s.mapping.owner then
      var added := AddMappingNoCheck(s.mapping, mixin, MixinsOwner);
      s.(mapping := added.value, byMixins := s.byMixins + [mixin])
    else
      s
  }

  /** A mixin pass extends the mixin-phase owners by one mixin. */
  lemma MapMixinInterfaceOwners(s: ClassProxyMapping, mixin: Ty, targetTypeInterfaces: seq<Ty>,
                                additionalInterfaces: seq<Ty>, seen: seq<Ty>)
    requires WellFormed(s.mapping)
    requires forall t :: OwnerOf(s.mapping, t) == MixinPhaseOwner(t, targetTypeInterfaces, seen, additionalInterfaces)
    ensures var r := MapMixinInterface(s, mixin, targetTypeInterfaces, additionalInterfaces);
            WellFormed(r.mapping)
            && forall t :: OwnerOf(r.mapping, t) == MixinPhaseOwner(t, targetTypeInterfaces, seen + [mixin], additionalInterfaces)
  {
    var r := MapMixinInterface(s, mixin, targetTypeInterfaces, additionalInterfaces);
    forall t
      ensures OwnerOf(r.mapping, t) == MixinPhaseOwner(t, targetTypeInterfaces, seen + [mixin], additionalInterfaces)
    {
      assert t in seen + [mixin] <==> t in seen || t == mixin;
      assert OwnerOf(s.mapping, t) == MixinPhaseOwner(t, targetTypeInterfaces, seen, additionalInterfaces);
    }
  }

  /** A mixin pass hands an interface to a contributor exactly when it maps
      the interface to it. */
  lemma MapMixinInterfaceLists(s: ClassProxyMapping, mixin: Ty, targetTypeInterfaces: seq<Ty>,
                               additionalInterfaces: seq<Ty>)
    requires ListsAgree(s)
    ensures ListsAgree(MapMixinInterface(s, mixin, targetTypeInterfaces, additionalInterfaces))
  {
  }

  /** One pass of the additional-interface loop. An interface the class
      implements goes to the target unless it already has an implementer.
      One that is neither implemented nor a mixin is handed to the
      additional contributor and mapped to it if unmapped. */
  function MapAdditionalInterface(s: ClassProxyMapping, iface: Ty, targetTypeInterfaces: seq<Ty>, mixinInterfaces: seq<Ty>)
    : (r: ClassProxyMapping)
    ensures r.emptyMixins == s.emptyMixins
    ensures iface in targetTypeInterfaces || iface in mixinInterfaces ==> r.byAdditional == s.byAdditional
    ensures iface !in targetTypeInterfaces && iface !in mixinInterfaces ==> r.byAdditional == s.byAdditional + [iface]
  {
    if iface in targetTypeInterfaces then
      if iface !in s.mapping.owner then
        var added := AddMappingNoCheck(s.mapping, iface, TargetOwner);
        s.(mapping := added.value, byTarget := s.byTarget + [iface])
      else
        s
    else if iface !in mixinInterfaces then
      s.(mapping := AddMapping(s.mapping, iface, AdditionalOwner), byAdditional := s.byAdditional + [iface])
    else
      s
  }

  /** An additional-interface pass extends the owners by one interface. */
  lemma MapAdditionalInterfaceOwners(s: ClassProxyMapping, iface: Ty, targetTypeInterfaces: seq<Ty>, mixinInterfaces: seq<Ty>,
                                     additionalInterfaces: seq<Ty>, seen: seq<Ty>)
    requires WellFormed(s.mapping)
    requires forall t :: OwnerOf(s.mapping, t)
                         == AdditionalPhaseOwner(t, targetTypeInterfaces, mixinInterfaces, additionalInterfaces, seen)
    ensures var r := MapAdditionalInterface(s, iface, targetTypeInterfaces, mixinInterfaces);
            WellFormed(r.mapping)
            && forall t :: OwnerOf(r.mapping, t)
                           == AdditionalPhaseOwner(t, targetTypeInterfaces, mixinInterfaces, additionalInterfaces, seen + [iface])
  {
    var r := MapAdditionalInterface(s, iface, targetTypeInterfaces, mixinInterfaces);
    forall t
      ensures OwnerOf(r.mapping, t)
              == AdditionalPhaseOwner(t, targetTypeInterfaces, mixinInterfaces, additionalInterfaces, seen + [iface])
    {
      assert t in seen + [iface] <==> t in seen || t == iface;
      assert OwnerOf(s.mapping, t) == AdditionalPhaseOwner(t, targetTypeInterfaces, mixinInterfaces, additionalInterfaces, seen);
    }
  }

  /** An additional-interface pass hands an interface to a contributor
      exactly when the mapping names that contributor. A repeated interface
      that is already mapped to the additional contributor is handed to it
      again. */
  lemma MapAdditionalInterfaceLists(s: ClassProxyMapping, iface: Ty, targetTypeInterfaces: seq<Ty>, mixinInterfaces: seq<Ty>,
                                    additionalInterfaces: seq<Ty>, seen: seq<Ty>)
    requires ListsAgree(s)
    requires forall t :: OwnerOf(s.mapping, t)
                         == AdditionalPhaseOwner(t, targetTypeInterfaces, mixinInterfaces, additionalInterfaces, seen)
    ensures ListsAgree(MapAdditionalInterface(s, iface, targetTypeInterfaces, mixinInterfaces))
  {
    assert OwnerOf(s.mapping, iface) == AdditionalPhaseOwner(iface, targetTypeInterfaces, mixinInterfaces, additionalInterfaces, seen);
  }

  /** Once every additional interface is seen, the loops have applied the
      precedence rule. */
  lemma PhasesApplyPrecedence(targetTypeInterfaces: seq<Ty>, mixinInterfaces: seq<Ty>, additionalInterfaces: seq<Ty>)
    ensures forall t :: AdditionalPhaseOwner(t, targetTypeInterfaces, mixinInterfaces, additionalInterfaces, additionalInterfaces)
                        == InterfaceOwner(t, targetTypeInterfaces, mixinInterfaces, additionalInterfaces)
  {
  }

  /** The infrastructure interfaces complete the mapping. A serializable
      class maps `ISerializable` to the instance contributor unless it
      already has an implementer. Then `IProxyTargetAccessor` is added,
      which fails exactly when an interface rule already claimed it. */
  lemma InfrastructureCompletesMapping(s: ClassProxyMapping, targetTypeInterfaces: seq<Ty>, mixinInterfaces: seq<Ty>,
                                       additionalInterfaces: seq<Ty>, serializable: bool)
    requires WellFormed(s.mapping) && ListsAgree(s)
    requires forall t :: OwnerOf(s.mapping, t) == InterfaceOwner(t, targetTypeInterfaces, mixinInterfaces, additionalInterfaces)
    ensures var m := if serializable then AddMapping(s.mapping, SerializableType, InstanceOwner) else s.mapping;
            var added := AddMappingNoCheck(m, ProxyTargetAccessorType, InstanceOwner);
            (added.Err? <==> InterfaceOwner(ProxyTargetAccessorType, targetTypeInterfaces, mixinInterfaces, additionalInterfaces).Some?)
            && (added.Ok? ==>
                  WellFormed(added.value) && ListsAgree(s.(mapping := added.value))
                  && forall t :: OwnerOf(added.value, t)
                                 == SpecOwner(t, targetTypeInterfaces, mixinInterfaces, additionalInterfaces, serializable))
  {
    var m := if serializable then AddMapping(s.mapping, SerializableType, InstanceOwner) else s.mapping;
    assert SerializableType != ProxyTargetAccessorType;
    InstanceOwnsWhatIsLeft(s.mapping, SerializableType, serializable);
    var added := AddMappingNoCheck(m, ProxyTargetAccessorType, InstanceOwner);
    if added.Ok? {
      InstanceOwnsWhatIsLeft(m, ProxyTargetAccessorType, true);
      InstanceEntriesKeepLists(s, added.value);
    }
  }

  /** Mapping an interface to the instance contributor, when asked and when
      it has no implementer yet, changes the owner of that interface only. */
  lemma InstanceOwnsWhatIsLeft(m: Mapping, iface: Ty, asked: bool)
    requires WellFormed(m)
    ensures var r := if asked then AddMapping(m, iface, InstanceOwner) else m;
            WellFormed(r)
            && forall t :: OwnerOf(r, t) == (if t == iface && asked && OwnerOf(m, t).None? then Some(InstanceOwner) else OwnerOf(m, t))
  {
  }

  /** Entries added for the instance contributor leave every other
      contributor's list in agreement with the mapping. */
  lemma InstanceEntriesKeepLists(s: ClassProxyMapping, m: Mapping)
    requires ListsAgree(s)
    requires forall t :: OwnerOf(m, t) == OwnerOf(s.mapping, t) || (OwnerOf(m, t) == Some(InstanceOwner) && OwnerOf(s.mapping, t).None?)
    ensures ListsAgree(s.(mapping := m))
  {
  }

  /** `ClassProxyGenerator.GetTypeImplementerMapping`. The mixin loop runs
      first, then the loop over the additional interfaces. Then
      `ISerializable` is mapped for a serializable class. Last comes
      `IProxyTargetAccessor`, whose `Dictionary.Add` fails when a target,
      mixin or additional interface already claimed it. The outcome is the
      precedence rule, and every contributor is handed exactly its
      interfaces. */
  method GetTypeImplementerMapping(targetTypeInterfaces: seq<Ty>, mixinInterfaces: seq<Ty>,
                                   additionalInterfaces: seq<Ty>, serializable: bool)
    returns (r: Result<ClassProxyMapping>)
    ensures r.Err? <==> InterfaceOwner(ProxyTargetAccessorType, targetTypeInterfaces, mixinInterfaces, additionalInterfaces).Some?
    ensures r.Err? ==> r.fault == ProxyGeneration
    ensures r.Ok? ==> WellFormed(r.value.mapping) && ListsAgree(r.value)
    ensures r.Ok? ==> forall t :: OwnerOf(r.value.mapping, t)
                                  == SpecOwner(t, targetTypeInterfaces, mixinInterfaces, additionalInterfaces, serializable)
    ensures r.Ok? ==> r.value.emptyMixins == ImplementedMixins(mixinInterfaces, targetTypeInterfaces)
    ensures r.Ok? ==> |r.value.mapping.keys| > 0 && r.value.mapping.keys[|r.value.mapping.keys| - 1] == ProxyTargetAccessorType
  {
    var s := MapMixinInterfaces(targetTypeInterfaces, mixinInterfaces, additionalInterfaces);
    s := MapAdditionalInterfaces(s, targetTypeInterfaces, mixinInterfaces, additionalInterfaces);
    InfrastructureCompletesMapping(s, targetTypeInterfaces, mixinInterfaces, additionalInterfaces, serializable);

    var mapping := s.mapping;
    if serializable {
      mapping := AddMapping(mapping, SerializableType, InstanceOwner);
    }
    var added := AddMappingNoCheck(mapping, ProxyTargetAccessorType, InstanceOwner);
    if added.Err? {
      return Err(ProxyGeneration);
    }
    r := Ok(s.(mapping := added.value));
  }

  /** What the mixin loop keeps once it has seen `seen`. */
  ghost predicate MixinLoopInvariant(s: ClassProxyMapping, targetTypeInterfaces: seq<Ty>, seen: seq<Ty>,
                                     additionalInterfaces: seq<Ty>)
  {
    WellFormed(s.mapping) && ListsAgree(s) && s.byAdditional == []
    && (forall t :: OwnerOf(s.mapping, t) == MixinPhaseOwner(t, targetTypeInterfaces, seen, additionalInterfaces))
    && s.emptyMixins == ImplementedMixins(seen, targetTypeInterfaces)
  }

  lemma MapMixinInterfaceStep(s: ClassProxyMapping, mixin: Ty, targetTypeInterfaces: seq<Ty>,
                              additionalInterfaces: seq<Ty>, seen: seq<Ty>)
    requires MixinLoopInvariant(s, targetTypeInterfaces, seen, additionalInterfaces)
    ensures MixinLoopInvariant(MapMixinInterface(s, mixin, targetTypeInterfaces, additionalInterfaces),
                               targetTypeInterfaces, seen + [mixin], additionalInterfaces)
  {
    MapMixinInterfaceOwners(s, mixin, targetTypeInterfaces, additionalInterfaces, seen);
    MapMixinInterfaceLists(s, mixin, targetTypeInterfaces, additionalInterfaces);
    assert (seen + [mixin])[..|seen|] == seen;
  }

  /** The mixin loop of `GetTypeImplementerMapping`, from an empty mapping. */
  method MapMixinInterfaces(targetTypeInterfaces: seq<Ty>, mixinInterfaces: seq<Ty>, additionalInterfaces: seq<Ty>)
    returns (s: ClassProxyMapping)
    ensures WellFormed(s.mapping) && ListsAgree(s) && s.byAdditional == []
    ensures forall t :: OwnerOf(s.mapping, t) == MixinPhaseOwner(t, targetTypeInterfaces, mixinInterfaces, additionalInterfaces)
    ensures s.emptyMixins == ImplementedMixins(mixinInterfaces, targetTypeInterfaces)
  {
    s := ClassProxyMapping(Mapping([], map[]), [], [], [], []);
    for i := 0 to |mixinInterfaces|
      invariant MixinLoopInvariant(s, targetTypeInterfaces, mixinInterfaces[..i], additionalInterfaces)
    {
      assert mixinInterfaces[..i + 1] == mixinInterfaces[..i] + [mixinInterfaces[i]];
      MapMixinInterfaceStep(s, mixinInterfaces[i], targetTypeInterfaces, additionalInterfaces, mixinInterfaces[..i]);
      s := MapMixinInterface(s, mixinInterfaces[i], targetTypeInterfaces, additionalInterfaces);
    }
    assert mixinInterfaces[..|mixinInterfaces|] == mixinInterfaces;
  }

  /** What the additional-interface loop keeps once it has seen `seen`. */
  ghost predicate AdditionalLoopInvariant(s: ClassProxyMapping, targetTypeInterfaces: seq<Ty>, mixinInterfaces: seq<Ty>,
                                          additionalInterfaces: seq<Ty>, seen: seq<Ty>)
  {
    WellFormed(s.mapping) && ListsAgree(s)
    && forall t :: OwnerOf(s.mapping, t)
                   == AdditionalPhaseOwner(t, targetTypeInterfaces, mixinInterfaces, additionalInterfaces, seen)
  }

  lemma MapAdditionalInterfaceStep(s: ClassProxyMapping, iface: Ty, targetTypeInterfaces: seq<Ty>, mixinInterfaces: seq<Ty>,
                                   additionalInterfaces: seq<Ty>, seen: seq<Ty>)
    requires AdditionalLoopInvariant(s, targetTypeInterfaces, mixinInterfaces, additionalInterfaces, seen)
    ensures AdditionalLoopInvariant(MapAdditionalInterface(s, iface, targetTypeInterfaces, mixinInterfaces),
                                    targetTypeInterfaces, mixinInterfaces, additionalInterfaces, seen + [iface])
  {
    MapAdditionalInterfaceOwners(s, iface, targetTypeInterfaces, mixinInterfaces, additionalInterfaces, seen);
    MapAdditionalInterfaceLists(s, iface, targetTypeInterfaces, mixinInterfaces, additionalInterfaces, seen);
  }

  /** The additional-interface loop of `GetTypeImplementerMapping`, after
      the mixin loop. Its owners follow the precedence rule. */
  method MapAdditionalInterfaces(s0: ClassProxyMapping, targetTypeInterfaces: seq<Ty>, mixinInterfaces: seq<Ty>,
                                 additionalInterfaces: seq<Ty>)
    returns (s: ClassProxyMapping)
    requires WellFormed(s0.mapping) && ListsAgree(s0)
    requires forall t :: OwnerOf(s0.mapping, t) == MixinPhaseOwner(t, targetTypeInterfaces, mixinInterfaces, additionalInterfaces)
    ensures WellFormed(s.mapping) && ListsAgree(s)
    ensures forall t :: OwnerOf(s.mapping, t) == InterfaceOwner(t, targetTypeInterfaces, mixinInterfaces, additionalInterfaces)
    ensures s.emptyMixins == s0.emptyMixins
  {
    s := s0;
    for j := 0 to |additionalInterfaces|
      invariant AdditionalLoopInvariant(s, targetTypeInterfaces, mixinInterfaces, additionalInterfaces, additionalInterfaces[..j])
      invariant s.emptyMixins == s0.emptyMixins
    {
      assert additionalInterfaces[..j + 1] == additionalInterfaces[..j] + [additionalInterfaces[j]];
      MapAdditionalInterfaceStep(s, additionalInterfaces[j], targetTypeInterfaces, mixinInterfaces,
                                 additionalInterfaces, additionalInterfaces[..j]);
      s := MapAdditionalInterface(s, additionalInterfaces[j], targetTypeInterfaces, mixinInterfaces);
    }
    assert additionalInterfaces[..|additionalInterfaces|] == additionalInterfaces;
    PhasesApplyPrecedence(targetTypeInterfaces, mixinInterfaces, additionalInterfaces);
  }

  /** The interfaces are distinct and none of them has an implementer yet. */
  predicate Unmapped(m: Mapping, interfaces: seq<Ty>)
  {
    (forall i :: 0 <= i < |interfaces| ==> interfaces[i] !in m.owner) && Distinct(interfaces)
  }

  /** One more interface keeps the list unmapped exactly when it is new to
      both the mapping and the list. */
  lemma UnmappedAppend(m: Mapping, prefix: seq<Ty>, last: Ty)
    ensures Unmapped(m, prefix + [last]) <==> Unmapped(m, prefix) && last !in m.owner && last !in prefix
  {
    var s := prefix + [last];
    assert s[..|prefix|] == prefix;
    if Unmapped(m, s) {
      assert s[|prefix|] == last;
      forall i | 0 <= i < |prefix|
        ensures prefix[i] != last
      {
        assert s[i] == prefix[i];
      }
    }
  }

  /** `AddMappingForTargetType` of the interface proxy generators: each
      interface of the target type is handed to one contributor and mapped
      with `Dictionary.Add`. This fails when an interface already has an
      implementer or occurs twice. */
  function MapTargetInterfaces(m: Mapping, interfaces: seq<Ty>): (r: Result<Mapping>)
    ensures r.Ok? <==> Unmapped(m, interfaces)
    ensures r.Err? ==> r.fault == Argument
    ensures r.Ok? ==> r.value.keys == m.keys + interfaces
    ensures r.Ok? ==> forall t :: t in r.value.owner <==> t in m.owner || t in interfaces
    ensures r.Ok? ==> forall t :: t in interfaces ==> r.value.owner[t] == TargetOwner
    ensures r.Ok? ==> forall t :: t in m.owner ==> r.value.owner[t] == m.owner[t]
    ensures WellFormed(m) && r.Ok? ==> WellFormed(r.value)
    decreases |interfaces|
  {
    if |interfaces| == 0 then Ok(m)
    else
      var prefix := interfaces[..|interfaces| - 1];
      var last := interfaces[|interfaces| - 1];
      assert interfaces == prefix + [last];
      UnmappedAppend(m, prefix, last);
      var before :- MapTargetInterfaces(m, prefix);
      AddMappingNoCheck(before, last, TargetOwner)
  }

  /** The two interface proxy generators that map the target's interfaces
      themselves. */
  datatype InterfaceProxyKind = WithoutTarget | WithTargetInterface

  /** `AddMappingForTargetType`: the contributor that receives the target's
      interfaces, with the mapping afterwards. A proxy without target uses
      a without-target contributor, whose interception has a `null` target.
      A proxy with target interface uses a target contributor that may
      change the target. */
  function AddMappingForTargetType(kind: InterfaceProxyKind, m: Mapping, proxyTargetType: Ty, targetTypeInterfaces: seq<Ty>)
    : (r: Result<(Contributors.Contributor, Mapping)>)
    ensures r.Ok? <==> MapTargetInterfaces(m, targetTypeInterfaces).Ok?
    ensures r.Ok? ==> r.value.1 == MapTargetInterfaces(m, targetTypeInterfaces).value
    ensures r.Ok? && kind == WithoutTarget ==> r.value.0 == Contributors.InterfaceProxyWithoutTarget
    ensures r.Ok? && kind == WithTargetInterface ==>
              r.value.0 == Contributors.InterfaceProxyTarget(proxyTargetType, WithTargetInterfaceAllowsChangeTarget)
  {
    var mapped :- MapTargetInterfaces(m, targetTypeInterfaces);
    var contributor := if kind == WithoutTarget then Contributors.InterfaceProxyWithoutTarget
                       else Contributors.InterfaceProxyTarget(proxyTargetType, WithTargetInterfaceAllowsChangeTarget);
    Ok((contributor, mapped))
  }

  /** Every member a proxy without target intercepts through the contributor
      of its target interfaces has a `null` target. A proxy with target
      interface intercepts through a change-target invocation on `__target`. */
  lemma TargetInterfaceContributorsIntercept(kind: InterfaceProxyKind, m: Mapping, proxyTargetType: Ty,
                                             targetTypeInterfaces: seq<Ty>, meta: MetaMethod)
    requires AddMappingForTargetType(kind, m, proxyTargetType, targetTypeInterfaces).Ok?
    requires meta.proxyable
    ensures kind == WithoutTarget ==>
              Contributors.WithoutTargetGenerator(meta).WithInvocation?
              && Contributors.WithoutTargetGenerator(meta).target == Statements.NullTarget
    ensures var c := AddMappingForTargetType(kind, m, proxyTargetType, targetTypeInterfaces).value.0;
            kind == WithTargetInterface ==>
              Contributors.InterfaceProxyTargetGenerator(c, meta).WithInvocation?
              && Contributors.InterfaceProxyTargetGenerator(c, meta).kind == InvocationTypes.ChangeTarget
              && Contributors.InterfaceProxyTargetGenerator(c, meta).target == Statements.Field("__target")
  {
  }

  /** `GetContributorForAdditionalInterfaces` of
      `InterfaceProxyWithTargetInterfaceGenerator`: additional interfaces go
      to an optional-target contributor over the proxy target type. */
  function WithTargetInterfaceAdditionalContributor(proxyTargetType: Ty, assignableTo: set<Ty>): (r: Contributors.Contributor)
    ensures r.InterfaceProxyWithOptionalTarget? && r.proxyTargetType == proxyTargetType
    ensures r.assignableTo == assignableTo
  {
    Contributors.InterfaceProxyWithOptionalTarget(proxyTargetType, assignableTo)
  }

  /** `GetTarget` of `InterfaceProxyWithTargetInterfaceGenerator`: `__target`
      cast to the declaring type of the method. */
  function WithTargetInterfaceTarget(declaringType: Ty): (r: Statements.Target)
    ensures r.FieldAs? && r.name == "__target" && r.asType == declaringType
  {
    Statements.FieldAs("__target", declaringType)
  }

  /** The generator's target expression agrees with the optional-target
      contributor's whenever the proxy target type is not assignable to the
      declaring type. The contributor then reads `__target` as that type
      too. */
  lemma GeneratorTargetAgreesWithContributor(proxyTargetType: Ty, assignableTo: set<Ty>, declaringType: Ty)
    requires declaringType !in assignableTo
    ensures Contributors.OptionalTarget(WithTargetInterfaceAdditionalContributor(proxyTargetType, assignableTo), declaringType)
            == WithTargetInterfaceTarget(declaringType)
  {
  }

  // ------------------------------------------------------ generation order

  /** A step of `GenerateType` that a contributor or the hook observes. */
  datatype Event<C> = Collect(contributor: C) | MethodsInspected | Generate(contributor: C)

  /** The contributor loops of `GenerateType`. Every contributor collects its
      members in list order. Then the hook is told that the methods were
      inspected, exactly once. Then every contributor generates, in the same
      order. */
  method GenerateTypeEvents<C(==)>(contributors: seq<C>) returns (events: seq<Event<C>>)
    ensures |events| == 2 * |contributors| + 1
    ensures forall i :: 0 <= i < |contributors| ==> events[i] == Collect(contributors[i])
    ensures forall i :: 0 <= i < |contributors| ==> events[|contributors| + 1 + i] == Generate(contributors[i])
    ensures forall k :: 0 <= k < |events| ==> (events[k].MethodsInspected? <==> k == |contributors|)
    ensures forall k, l :: 0 <= k < |events| && 0 <= l < |events| && events[k].Collect? && !events[l].Collect? ==> k < l
    ensures forall k, l :: 0 <= k < |events| && 0 <= l < |events| && !events[k].Generate? && events[l].Generate? ==> k < l
  {
    events := [];
    for i := 0 to |contributors|
      invariant |events| == i
      invariant forall k :: 0 <= k < i ==> events[k] == Collect(contributors[k])
    {
      events := events + [Collect(contributors[i])];
    }
    events := events + [MethodsInspected];
    for i := 0 to |contributors|
      invariant |events| == |contributors| + 1 + i
      invariant forall k :: 0 <= k < |contributors| ==> events[k] == Collect(contributors[k])
      invariant events[|contributors|] == MethodsInspected
      invariant forall k :: 0 <= k < i ==> events[|contributors| + 1 + k] == Generate(contributors[k])
    {
      events := events + [Generate(contributors[i])];
    }
    forall k | 0 <= k < |events|
      ensures events[k].Collect? <==> k < |contributors|
      ensures events[k].MethodsInspected? <==> k == |contributors|
      ensures events[k].Generate? <==> k > |contributors|
    {
      if k > |contributors| {
        assert events[|contributors| + 1 + (k - |contributors| - 1)] == Generate(contributors[k - |contributors| - 1]);
      }
    }
  }

  // ------------------------------------------------------ constructor arguments

  /** A class proxy's constructor arguments. They are the mixin fields in
      order, then `__interceptors` (`null` when the emitter has no such
      field), then `__selector` when the emitter has one. */
  function ClassProxyConstructorArguments(mixinFields: seq<TypeEmitter.FieldReference>, e: TypeEmitter.Emitter)
    : (r: seq<Option<TypeEmitter.FieldReference>>)
    ensures |r| == |mixinFields| + 1 + (if "__selector" in e.fields then 1 else 0)
    ensures forall i :: 0 <= i < |mixinFields| ==> r[i] == Some(mixinFields[i])
    ensures r[|mixinFields|] == TypeEmitter.GetField(e, Some("__interceptors"))
    ensures "__selector" in e.fields ==> r[|r| - 1] == Some(e.fields["__selector"])
  {
    var mixins := seq(|mixinFields|, i requires 0 <= i < |mixinFields| => Some(mixinFields[i]));
    var selector := TypeEmitter.GetField(e, Some("__selector"));
    mixins + [TypeEmitter.GetField(e, Some("__interceptors"))] + (if selector.Some? then [selector] else [])
  }

  /** A proxy without target's constructor arguments. They are the mixin
      fields, then `__interceptors`, then the target field, then
      `__selector` when the emitter has one. */
  function WithoutTargetConstructorArguments(mixinFields: seq<TypeEmitter.FieldReference>, e: TypeEmitter.Emitter,
                                             targetField: Option<TypeEmitter.FieldReference>)
    : (r: seq<Option<TypeEmitter.FieldReference>>)
    ensures |r| == |mixinFields| + 2 + (if "__selector" in e.fields then 1 else 0)
    ensures forall i :: 0 <= i < |mixinFields| ==> r[i] == Some(mixinFields[i])
    ensures r[|mixinFields|] == TypeEmitter.GetField(e, Some("__interceptors"))
    ensures r[|mixinFields| + 1] == targetField
    ensures "__selector" in e.fields ==> r[|r| - 1] == Some(e.fields["__selector"])
  {
    var mixins := seq(|mixinFields|, i requires 0 <= i < |mixinFields| => Some(mixinFields[i]));
    var selector := TypeEmitter.GetField(e, Some("__selector"));
    mixins + [TypeEmitter.GetField(e, Some("__interceptors")), targetField] + (if selector.Some? then [selector] else [])
  }

  /** The two argument lists differ only by the target field, which a proxy
      without target inserts right after `__interceptors`. */
  lemma TargetFieldIsTheOnlyDifference(mixinFields: seq<TypeEmitter.FieldReference>, e: TypeEmitter.Emitter,
                                       targetField: Option<TypeEmitter.FieldReference>)
    ensures var c := ClassProxyConstructorArguments(mixinFields, e);
            WithoutTargetConstructorArguments(mixinFields, e, targetField)
            == c[..|mixinFields| + 1] + [targetField] + c[|mixinFields| + 1..]
  {
    var c := ClassProxyConstructorArguments(mixinFields, e);
    var w := WithoutTargetConstructorArguments(mixinFields, e, targetField);
    var n := |mixinFields|;
    var expected := c[..n + 1] + [targetField] + c[n + 1..];
    assert |w| == |expected|;
    forall k | 0 <= k < |w|
      ensures w[k] == expected[k]
    {
      if k < n {
      } else if k == n {
      } else if k == n + 1 {
      } else {
        assert "__selector" in e.fields && k == |w| - 1;
      }
    }
  }
}

=== FILE: statements.dfy ===
/** The statements the generators add to a method body, as an abstract
    sequence. Each constructor names one `AddStatement` call of the source;
    the IL behind it is not modelled. */
module Statements {
  import opened ClrTypes

  /** The field an invocation object calls its target through:
      `InvocationMethods.Target` or `InvocationMethods.ProxyObject`. */
  datatype TargetReference = TargetField | ProxyObjectField

  /** One argument passed to the target method inside `InvokeMethodOnTarget`:
      the by-ref local of parameter `index`, or `GetArgumentValue(index)`
      converted to the parameter type. */
  datatype CallArgument = ByRefLocal(index: nat) | ConvertedArgument(index: nat, parameterType: Ty)

  /** The call on the target: built by an invocation-creation contributor, or
      a virtual call of the callback through the target reference cast to the
      callback's declaring type. */
  datatype TargetCall =
    | ContributedCall(arguments: seq<CallArgument>)
    | VirtualCall(target: TargetReference, asType: Ty, callback: Method, arguments: seq<CallArgument>)
  {
    function Arguments(): seq<CallArgument>
    {
      match this
      case ContributedCall(arguments) => arguments
      case VirtualCall(_, _, _, arguments) => arguments
    }
  }

  datatype Statement =
    // InvokeMethodOnTarget on an invocation class
    | EnsureValidTarget                                  // this.EnsureValidTarget()
    | ThrowOnNoTarget                                    // ThrowOnNoTarget()
    | LoadByRefArgument(index: nat, localType: Ty)       // local = (T)GetArgumentValue(index)
    | CallTarget(call: TargetCall, keepsResult: bool)    // [returnValue =] call
    | SetArgumentValue(index: nat)                       // SetArgumentValue(index, (object)local)
    | SetReturnValue                                     // SetReturnValue((object)returnValue)
    // the proxied method body
    | NewInvocation(invocationType: Ty, arguments: seq<CtorArgument>)
    | NewGenericArgumentsArray(length: nat)              // Type[] genericArguments = new Type[length]
    | StoreGenericArgument(index: nat, argument: Ty)     // genericArguments[index] = typeof(argument)
    | SetGenericMethodArguments                          // invocation.SetGenericMethodArguments(genericArguments)
    | Proceed                                            // invocation.Proceed()
    | CopyOutAndRefParameters                            // copy out/ref values back from the invocation
    | ReturnConverted(returnType: Ty)                    // return (T)invocation.ReturnValue
    // shared structure
    | Try
    | Finally
    | EndExceptionBlock
    | Return

  /** An argument of the invocation constructor, in the proxied method. */
  datatype CtorArgument =
    | TargetExpression(target: Target)
    | Self
    | Interceptors
    | MethodToken
    | ArgumentsArray
    | Selector
    | AddressOfMethodInterceptors(fieldName: string)

  /** A target expression, as a generator's `GetTargetExpression` delegate builds it.
      - `NullTarget`: the literal `null` of a proxy without target.
      - `Field(name)`: a field of the proxy.
      - `FieldAs(name, asType)`: a field cast to an interface.
      - `FieldAsOr(name, asType, fallback)`: `name as asType ?? fallback`.
      - `TypeToken(t)`: the `typeof(t)` token a class proxy passes. */
  datatype Target =
    | NullTarget
    | Field(name: string)
    | FieldAs(name: string, asType: Ty)
    | FieldAsOr(name: string, asType: Ty, fallback: string)
    | TypeToken(t: Ty)

  /** How many statements of a body equal `s`. */
  function Count(body: seq<Statement>, s: Statement): (r: nat)
    ensures r <= |body|
    ensures r == 0 <==> s !in body
  {
    if |body| == 0 then 0
    else (if body[0] == s then 1 else 0) + Count(body[1..], s)
  }

  lemma {:induction false} CountAppend(a: seq<Statement>, b: seq<Statement>, s: Statement)
    ensures Count(a + b, s) == Count(a, s) + Count(b, s)
    decreases |a|
  {
    if |a| == 0 {
      assert a + b == b;
    } else {
      assert (a + b)[0] == a[0];
      assert (a + b)[1..] == a[1..] + b;
      CountAppend(a[1..], b, s);
    }
  }
}

=== FILE: type_cache.dfy ===
/** The module scope's type cache as the generators use it: a map from
    `CacheKey` to a generated type, read with `GetFromCache` and written with
    `RegisterInCache`. Locking is not modelled; calls are sequential. */
module TypeCache {
  import opened Wrappers
  import opened ClrTypes

  /** The member a key is about: a method for invocation types, a type for
      delegate types (`typeof(Delegate)`). */
  datatype CacheTarget = MethodTarget(m: Method) | TypeTarget(t: Ty)

  /** `CacheKey(target, type, interfaces, options)`; every key built by the
      modelled generators has `null` options, so `hasOptions` is false. */
  datatype CacheKey = CacheKey(target: CacheTarget, baseType: Ty, interfaces: seq<Ty>, hasOptions: bool)

  type Cache = map<CacheKey, Ty>

  /** `GetFromCache`: the registered type, or `null`. */
  function GetFromCache(cache: Cache, key: CacheKey): (r: Option<Ty>)
    ensures r.Some? <==> key in cache
    ensures r.Some? ==> r.value == cache[key]
  {
    if key in cache then Some(cache[key]) else None
  }

  /** `RegisterInCache`: later lookups of the key find the type; every other
      key keeps its entry. */
  function RegisterInCache(cache: Cache, key: CacheKey, t: Ty): (r: Cache)
    ensures GetFromCache(r, key) == Some(t)
    ensures forall k :: k != key ==> GetFromCache(r, k) == GetFromCache(cache, k)
  {
    cache[key := t]
  }

  /** The outcome of a get-or-create: the type (or the failure of its
      generation), the cache afterwards, the generator state afterwards
      (the naming scope a generation draws names from), and whether
      generation ran. */
  datatype Lookup<S> = Lookup(result: Result<Ty>, cache: Cache, state: S, generated: bool)

  /** The get-or-create discipline shared by the cached generators. The
      generation is supplied as `generate`, which is consulted only on a miss.
      A hit returns the cached type and changes nothing; a miss returns what
      generation produced and registers it under the key; a failed
      generation registers nothing. */
  function GetOrCreate<S>(cache: Cache, key: CacheKey, state: S, generate: S -> Result<(Ty, S)>): (r: Lookup<S>)
    ensures key in cache ==> r == Lookup(Ok(cache[key]), cache, state, false)
    ensures key !in cache ==> r.generated
    ensures key !in cache && generate(state).Ok? ==>
              r.result == Ok(generate(state).value.0) && r.state == generate(state).value.1
              && r.cache == cache[key := generate(state).value.0]
    ensures key !in cache && generate(state).Err? ==>
              r.result == Err(generate(state).fault) && r.cache == cache && r.state == state
    ensures r.result.Ok? ==> GetFromCache(r.cache, key) == Some(r.result.value)
  {
    match GetFromCache(cache, key)
    case Some(t) => Lookup(Ok(t), cache, state, false)
    case None =>
      match generate(state)
      case Err(f) => Lookup(Err(f), cache, state, true)
      case Ok((t, state')) => Lookup(Ok(t), RegisterInCache(cache, key, t), state', true)
  }

  /** A second get-or-create with the same key returns the type the first one
      produced, without generating again, whatever it would generate. */
  lemma SecondLookupHits<S>(cache: Cache, key: CacheKey, state: S, first: S -> Result<(Ty, S)>, second: S -> Result<(Ty, S)>)
    requires GetOrCreate(cache, key, state, first).result.Ok?
    ensures var r1 := GetOrCreate(cache, key, state, first);
            var r2 := GetOrCreate(r1.cache, key, r1.state, second);
            r2.result == r1.result && r2.cache == r1.cache && r2.state == r1.state && !r2.generated
  {
  }

  /** A lookup only ever adds the looked-up key: every other entry survives. */
  lemma LookupKeepsOtherEntries<S>(cache: Cache, key: CacheKey, state: S, generate: S -> Result<(Ty, S)>, other: CacheKey)
    requires other != key
    ensures GetFromCache(GetOrCreate(cache, key, state, generate).cache, other) == GetFromCache(cache, other)
  {
  }
}

=== FILE: type_emitter.dfy ===
/** `AbstractTypeEmitter`: the bookkeeping an emitter keeps for the type it
    builds (field table, constructor list, generic parameters) and the
    restrictions it enforces. The type builder itself is not modelled. */
module TypeEmitter {
  import opened Wrappers
  import opened ClrTypes
  import GenericUtil

  /** `FieldAttributes` flags. */
  const FieldPublic: bv32 := 0x0006
  const FieldStatic: bv32 := 0x0010
  const FieldNotSerialized: bv32 := 0x0080

  /** A field defined on the type under construction. */
  datatype FieldReference = FieldReference(name: string, fieldType: Ty, attributes: bv32)

  /** A constructor emitter: an instance constructor with its argument types
      (none for the default constructor) or the static type constructor. */
  datatype ConstructorEmitter = Constructor(arguments: seq<Ty>) | TypeConstructor

  /** The emitter state.
      - `isInterface`, `parent`: what the type builder was created as.
      - `genericTypeParams`: `null` until generic parameters are copied.
      - `fields`: the field table keyed by name.
      - `constructors`: every constructor created, in order. */
  datatype Emitter = Emitter(
    isInterface: bool,
    parent: Option<Ty>,
    genericTypeParams: Option<seq<Ty>>,
    genericParametersSource: Option<Ty>,
    name2GenericType: GenericUtil.NameMap,
    fields: map<string, FieldReference>,
    constructors: seq<ConstructorEmitter>,
    classConstructor: Option<ConstructorEmitter>)

  /** A fresh emitter over a new type builder. */
  function NewEmitter(isInterface: bool, parent: Option<Ty>): (r: Emitter)
    ensures !IsGenericType(r) && r.fields == map[] && r.constructors == []
  {
    Emitter(isInterface, parent, None, None, map[], map[], [], None)
  }

  /** `BaseType`: an interface has none and asking is an error. */
  function BaseType(e: Emitter): (r: Result<Option<Ty>>)
    ensures r.Err? <==> e.isInterface
    ensures r.Err? ==> r.fault == InvalidOperation
    ensures r.Ok? ==> r.value == e.parent
  {
    if e.isInterface then Err(InvalidOperation) else Ok(e.parent)
  }

  /** `IsGenericType`: generic parameters have been set. */
  predicate IsGenericType(e: Emitter)
  {
    e.genericTypeParams.Some?
  }

  /** `SetGenericTypeParameters`: records the new parameters, which may be `null`. */
  function SetGenericTypeParameters(e: Emitter, arguments: Option<seq<GenericArg>>): (r: Emitter)
    ensures IsGenericType(r) <==> arguments.Some?
  {
    e.(genericTypeParams := if arguments.Some? then Some(ParamsOf(arguments.value)) else None)
  }

  /** `CopyGenericParametersFromMethod`: refused once parameters are set;
      otherwise the method's generic parameters are copied. */
  function CopyGenericParametersFromMethod(e: Emitter, methodToCopyGenericsFrom: Method): (r: Result<Emitter>)
    ensures IsGenericType(e) ==> r == Err(ProxyGeneration)
    ensures r.Ok? ==> (IsGenericType(r.value) <==> IsGenericMethod(methodToCopyGenericsFrom))
    ensures r.Ok? ==> r.value.fields == e.fields && r.value.constructors == e.constructors
  {
    if IsGenericType(e) then Err(ProxyGeneration)
    else
      var copied :- GenericUtil.CopyFromMethod(methodToCopyGenericsFrom, e.name2GenericType);
      Ok(SetGenericTypeParameters(e.(name2GenericType := copied.name2GenericType), copied.parameters))
  }

  /** `CopyGenericParametersFromType`: refused once parameters are set;
      otherwise copies the type's (and the optional method's) generic
      parameters and remembers the type as the source of the parameters. */
  function CopyGenericParametersFromType(e: Emitter, typeToCopyGenericsFrom: Ty, enclosing: Option<Ty>, methodToCopyGenericsFrom: Option<Method>): (r: Result<Emitter>)
    ensures IsGenericType(e) ==> r == Err(ProxyGeneration)
    ensures r.Ok? ==> r.value.genericParametersSource == Some(typeToCopyGenericsFrom)
    ensures r.Ok? && methodToCopyGenericsFrom.None? ==>
              (IsGenericType(r.value) <==> |GetGenericArguments(typeToCopyGenericsFrom)| > 0)
    ensures r.Ok? ==> r.value.fields == e.fields && r.value.constructors == e.constructors
  {
    if IsGenericType(e) then Err(ProxyGeneration)
    else
      var copied :- GenericUtil.CopyFromTypeAndMethod(typeToCopyGenericsFrom, enclosing, methodToCopyGenericsFrom, e.name2GenericType);
      var e' := SetGenericTypeParameters(e.(name2GenericType := copied.name2GenericType), copied.parameters);
      Ok(e'.(genericParametersSource := Some(typeToCopyGenericsFrom)))
  }

  /** Once a copy has produced generic parameters, every further copy of
      either kind is refused. */
  lemma CopyGenericParametersAtMostOnce(e: Emitter, m: Method, m2: Method, t: Ty, enclosing: Option<Ty>, m3: Option<Method>)
    requires CopyGenericParametersFromMethod(e, m).Ok?
    requires IsGenericMethod(m)
    ensures var e' := CopyGenericParametersFromMethod(e, m).value;
            CopyGenericParametersFromMethod(e', m2) == Err(ProxyGeneration)
            && CopyGenericParametersFromType(e', t, enclosing, m3) == Err(ProxyGeneration)
  {
  }

  /** A copy from a method without generic parameters leaves `null`
      parameters behind, so it does not use up the single copy. */
  lemma CopyOfNoParametersDoesNotCount(e: Emitter, m: Method)
    requires !IsGenericType(e) && !IsGenericMethod(m)
    ensures CopyGenericParametersFromMethod(e, m).Ok?
    ensures !IsGenericType(CopyGenericParametersFromMethod(e, m).value)
  {
  }

  /** `CreateConstructor`: interfaces cannot have constructors; otherwise the
      constructor is appended. */
  function CreateConstructor(e: Emitter, arguments: seq<Ty>): (r: Result<Emitter>)
    ensures r.Err? <==> e.isInterface
    ensures r.Err? ==> r.fault == InvalidOperation
    ensures r.Ok? ==> r.value.constructors == e.constructors + [Constructor(arguments)]
    ensures r.Ok? ==> r.value.fields == e.fields
  {
    if e.isInterface then Err(InvalidOperation)
    else Ok(e.(constructors := e.constructors + [Constructor(arguments)]))
  }

  /** `CreateDefaultConstructor`: as `CreateConstructor` with no arguments. */
  function CreateDefaultConstructor(e: Emitter): (r: Result<Emitter>)
    ensures r.Err? <==> e.isInterface
    ensures r.Err? ==> r.fault == InvalidOperation
    ensures r.Ok? ==> r.value.constructors == e.constructors + [Constructor([])]
  {
    if e.isInterface then Err(InvalidOperation)
    else Ok(e.(constructors := e.constructors + [Constructor([])]))
  }

  /** `CreateTypeConstructor`: appended to the constructor list and also
      remembered as the class constructor. */
  function CreateTypeConstructor(e: Emitter): (r: Emitter)
    ensures r.constructors == e.constructors + [TypeConstructor]
    ensures r.classConstructor == Some(TypeConstructor)
    ensures r.fields == e.fields
  {
    e.(constructors := e.constructors + [TypeConstructor], classConstructor := Some(TypeConstructor))
  }

  /** `BuildType`: the created type under the given name. A type with
      generic parameters is a generic type definition over them, any other a
      plain class. */
  function BuiltType(e: Emitter, name: string): (r: Ty)
    ensures NameOf(r) == name
    ensures ClrTypes.IsGenericTypeDefinition(r) <==> IsGenericType(e)
    ensures ClrTypes.IsGenericType(r) <==> IsGenericType(e)
    ensures IsGenericType(e) ==> ParamsOf(r.parameters) == e.genericTypeParams.value
  {
    if e.genericTypeParams.Some? then
      var ps := e.genericTypeParams.value;
      GenericDef(name, Class, seq(|ps|, i requires 0 <= i < |ps| => GenericArg(ps[i], 0, [])))
    else
      Plain(name, Class)
  }

  /** A created field and the emitter that now holds it. */
  datatype FieldCreated = FieldCreated(emitter: Emitter, field: FieldReference)

  /** `CreateField(name, type, attributes)`: defines the field and stores it
      under its name, replacing any earlier field of that name. */
  function CreateFieldWithAttributes(e: Emitter, name: string, fieldType: Ty, atts: bv32): (r: FieldCreated)
    ensures r.field == FieldReference(name, fieldType, atts)
    ensures r.emitter.fields.Keys == e.fields.Keys + {name}
    ensures forall n :: n in e.fields && n != name ==> r.emitter.fields[n] == e.fields[n]
    ensures r.emitter.constructors == e.constructors
  {
    var reference := FieldReference(name, fieldType, atts);
    FieldCreated(e.(fields := e.fields[name := reference]), reference)
  }

  /** `CreateField(name, type, serializable)`: a public field, marked
      not-serialized when `serializable` is false. */
  function CreateField(e: Emitter, name: string, fieldType: Ty, serializable: bool): (r: FieldCreated)
    ensures r.field.attributes & FieldPublic == FieldPublic
    ensures (r.field.attributes & FieldNotSerialized != 0) <==> !serializable
    ensures r.field.attributes & FieldStatic == 0
    ensures r.field.name == name && r.field.fieldType == fieldType
    ensures r.emitter.fields.Keys == e.fields.Keys + {name} && r.emitter.fields[name] == r.field
    ensures forall n :: n in e.fields && n != name ==> r.emitter.fields[n] == e.fields[n]
  {
    var atts := if serializable then FieldPublic else FieldPublic | FieldNotSerialized;
    CreateFieldWithAttributes(e, name, fieldType, atts)
  }

  /** `CreateStaticField`: the requested attributes plus `Static`. */
  function CreateStaticField(e: Emitter, name: string, fieldType: Ty, atts: bv32): (r: FieldCreated)
    ensures r.field.attributes & FieldStatic == FieldStatic
    ensures r.field.attributes & !FieldStatic == atts & !FieldStatic
  {
    CreateFieldWithAttributes(e, name, fieldType, atts | FieldStatic)
  }

  /** `GetField`: `null` for a null or empty name and for an unknown name. */
  function GetField(e: Emitter, name: Option<string>): (r: Option<FieldReference>)
    ensures (name.None? || name == Some("")) ==> r.None?
    ensures name.Some? && name.value != "" ==> (r.Some? <==> name.value in e.fields)
    ensures name.Some? && name.value != "" && name.value in e.fields ==> r == Some(e.fields[name.value])
  {
    if name.None? || |name.value| == 0 then None
    else if name.value in e.fields then Some(e.fields[name.value])
    else None
  }

  /** After `CreateField`, the field is found under its name; fields of
      other names are unaffected; a later field of the same name wins. */
  lemma CreateThenGetField(e: Emitter, name: string, fieldType: Ty, atts: bv32, other: string, fieldType2: Ty, atts2: bv32)
    requires name != ""
    ensures var c := CreateFieldWithAttributes(e, name, fieldType, atts);
            GetField(c.emitter, Some(name)) == Some(c.field)
    ensures other != name ==>
              GetField(CreateFieldWithAttributes(e, name, fieldType, atts).emitter, Some(other)) == GetField(e, Some(other))
    ensures var c := CreateFieldWithAttributes(e, name, fieldType, atts);
            var c2 := CreateFieldWithAttributes(c.emitter, name, fieldType2, atts2);
            GetField(c2.emitter, Some(name)) == Some(FieldReference(name, fieldType2, atts2))
  {
  }

  /** `EnsureBuildersAreInAValidState`: a class with no constructor gets a
      default one; anything else keeps its constructors. */
  function EnsureBuildersAreInAValidState(e: Emitter): (r: Emitter)
    ensures !e.isInterface && |e.constructors| == 0 ==> r.constructors == [Constructor([])]
    ensures e.isInterface || |e.constructors| > 0 ==> r.constructors == e.constructors
    ensures !r.isInterface ==> |r.constructors| > 0
    ensures r.fields == e.fields
  {
    if !e.isInterface && |e.constructors| == 0 then e.(constructors := [Constructor([])]) else e
  }

  /** Making the builders valid twice is making them valid once. */
  lemma EnsureBuildersIdempotent(e: Emitter)
    ensures EnsureBuildersAreInAValidState(EnsureBuildersAreInAValidState(e)) == EnsureBuildersAreInAValidState(e)
  {
  }

  /** `AdjustMethod`: a method of a generic type definition is re-read on
      that definition closed over this emitter's generic parameters; any
      other method, or any method before parameters exist, is unchanged. */
  function AdjustMethod(e: Emitter, m: Method): (r: Method)
    ensures !IsGenericTypeDefinition(m.declaringType) || !IsGenericType(e) ==> r == m
    ensures IsGenericTypeDefinition(m.declaringType) && IsGenericType(e) ==>
              r == m.(declaringType := Constructed(m.declaringType, e.genericTypeParams.value))
  {
    if !IsGenericTypeDefinition(m.declaringType) || e.genericTypeParams.None? then m
    else m.(declaringType := Constructed(GetGenericTypeDefinition(m.declaringType), e.genericTypeParams.value))
  }

  /** Adjusting is idempotent, since an adjusted method is declared on a
      constructed type, no longer on a definition. An adjusted method is
      declared on the same definition closed over this emitter's own generic
      parameters, and nothing else about it changes. */
  lemma AdjustMethodClosesOverOwnParameters(e: Emitter, m: Method)
    ensures AdjustMethod(e, AdjustMethod(e, m)) == AdjustMethod(e, m)
    ensures var r := AdjustMethod(e, m);
            IsGenericTypeDefinition(m.declaringType) && IsGenericType(e) ==>
              !IsGenericTypeDefinition(r.declaringType) && ClrTypes.IsGenericType(r.declaringType)
              && GetGenericTypeDefinition(r.declaringType) == m.declaringType
              && GetGenericArguments(r.declaringType) == e.genericTypeParams.value
              && r.name == m.name && r.genericParameters == m.genericParameters
              && r.parameters == m.parameters && r.returnType == m.returnType && r.access == m.access
  {
  }

  /** The builder standing in for an original generic parameter, looked up
      by name; the lookup table's own type is not part of this model. */
  function GetBuilder(e: Emitter, original: Ty): (r: Result<Ty>)
    ensures r.Ok? <==> NameOf(original) in e.name2GenericType
    ensures r.Ok? ==> r.value == e.name2GenericType[NameOf(original)]
  {
    if NameOf(original) in e.name2GenericType then Ok(e.name2GenericType[NameOf(original)]) else Err(KeyNotFound)
  }

  /** After the generic parameters of a generic type definition with
      distinctly named parameters are copied, looking up each of its
      parameters finds the builder copied for it, at the same position. */
  lemma GetBuilderFindsCopiedParameters(e: Emitter, t: Ty, enclosing: Option<Ty>)
    requires t.GenericDef?
    requires GenericUtil.DistinctNames(ParamsOf(t.parameters))
    requires forall i :: 0 <= i < |t.parameters| ==> IsGenericParameter(t.parameters[i].param)
    requires CopyGenericParametersFromType(e, t, enclosing, None).Ok?
    ensures var e' := CopyGenericParametersFromType(e, t, enclosing, None).value;
            forall i :: 0 <= i < |t.parameters| ==>
              GetBuilder(e', t.parameters[i].param) == Ok(Builder(NameOf(t.parameters[i].param), i))
  {
    var copied := GenericUtil.CopyGenericArguments(e.name2GenericType, t.parameters, enclosing);
    assert GenericUtil.CopyFromTypeAndMethod(t, enclosing, None, e.name2GenericType) == copied;
    GenericUtil.CopyThenExtractFindsTheCopies(e.name2GenericType, t.parameters, enclosing);
  }

  /** Over a table of builders keyed by their own names, a builder found for
      a parameter carries that parameter's name. */
  lemma GetBuilderKeepsTheName(e: Emitter, original: Ty)
    requires GenericUtil.SelfNamed(e.name2GenericType)
    ensures GetBuilder(e, original).Ok? ==>
              GetBuilder(e, original).value.Builder? && NameOf(GetBuilder(e, original).value) == NameOf(original)
  {
  }

  /** `GetGenericArgumentsFor(type)`: each generic argument of the type,
      with generic parameters replaced by their builders. */
  function GetGenericArgumentsForType(e: Emitter, genericType: Ty): (r: Result<seq<Ty>>)
    ensures r.Ok? ==> |r.value| == |GetGenericArguments(genericType)|
    ensures r.Ok? ==> forall i :: 0 <= i < |r.value| ==>
              var a := GetGenericArguments(genericType)[i];
              if IsGenericParameter(a) then GetBuilder(e, a) == Ok(r.value[i]) else r.value[i] == a
    ensures r.Err? <==> (exists i :: 0 <= i < |GetGenericArguments(genericType)| &&
                                 IsGenericParameter(GetGenericArguments(genericType)[i]) && GetBuilder(e, GetGenericArguments(genericType)[i]).Err?)
  {
    MapArguments(e, GetGenericArguments(genericType), false)
  }

  /** `GetGenericArgumentsFor(method)`: the builder of every generic argument of the method. */
  function GetGenericArgumentsForMethod(e: Emitter, genericMethod: Method): (r: Result<seq<Ty>>)
    ensures r.Ok? ==> |r.value| == |genericMethod.genericParameters|
    ensures r.Ok? ==> forall i :: 0 <= i < |r.value| ==>
              GetBuilder(e, genericMethod.genericParameters[i].param) == Ok(r.value[i])
    ensures r.Err? <==> (exists i :: 0 <= i < |genericMethod.genericParameters| &&
                                 GetBuilder(e, genericMethod.genericParameters[i].param).Err?)
  {
    MapArguments(e, ParamsOf(genericMethod.genericParameters), true)
  }

  /** The argument list with builders looked up: for every argument when
      `all` holds, otherwise only for generic parameters. */
  function MapArguments(e: Emitter, arguments: seq<Ty>, all: bool): (r: Result<seq<Ty>>)
    ensures r.Ok? ==> |r.value| == |arguments|
    ensures r.Ok? ==> forall i :: 0 <= i < |r.value| ==>
              if all || IsGenericParameter(arguments[i]) then GetBuilder(e, arguments[i]) == Ok(r.value[i])
              else r.value[i] == arguments[i]
    ensures r.Err? <==> (exists i :: 0 <= i < |arguments| &&
                                 (all || IsGenericParameter(arguments[i])) && GetBuilder(e, arguments[i]).Err?)
  {
    if |arguments| == 0 then Ok([])
    else
      var first :- if all || IsGenericParameter(arguments[0]) then GetBuilder(e, arguments[0]) else Ok(arguments[0]);
      var rest :- MapArguments(e, arguments[1..], all);
      Ok([first] + rest)
  }

  /** `GetClosedParameterType` for every parameter: each type closed over the
      emitter's generic parameter builders. */
  function ClosedParameterTypes(e: Emitter, parameters: seq<Ty>): (r: seq<Ty>)
    ensures |r| == |parameters|
    ensures forall i :: 0 <= i < |r| ==> r[i] == GenericUtil.ExtractCorrectType(parameters[i], e.name2GenericType)
  {
    seq(|parameters|, i requires 0 <= i < |parameters| => GenericUtil.ExtractCorrectType(parameters[i], e.name2GenericType))
  }

  /** With nothing registered, closing changes no parameter type; over a
      table of builders keyed by their own names, closing twice is closing
      once. */
  lemma ClosedParameterTypesFixedPoints(e: Emitter, parameters: seq<Ty>)
    ensures e.name2GenericType == map[] ==> ClosedParameterTypes(e, parameters) == parameters
    ensures GenericUtil.SelfNamed(e.name2GenericType) ==>
              ClosedParameterTypes(e, ClosedParameterTypes(e, parameters)) == ClosedParameterTypes(e, parameters)
  {
    if GenericUtil.SelfNamed(e.name2GenericType) {
      forall i | 0 <= i < |parameters|
        ensures GenericUtil.ExtractCorrectType(GenericUtil.ExtractCorrectType(parameters[i], e.name2GenericType), e.name2GenericType)
                == GenericUtil.ExtractCorrectType(parameters[i], e.name2GenericType)
      {
        GenericUtil.ExtractIsIdempotent(parameters[i], e.name2GenericType);
      }
    }
    if e.name2GenericType == map[] {
      forall i | 0 <= i < |parameters|
        ensures GenericUtil.ExtractCorrectType(parameters[i], e.name2GenericType) == parameters[i]
      {
        GenericUtil.ExtractWithEmptyTableIsIdentity(parameters[i]);
      }
    }
  }
}

=== FILE: wrappers.dfy ===
/** Failure-carrying datatypes shared by every module of the model.

    The proxy generator reports problems by throwing .NET exceptions; the model
    returns `Err(f)` where `f` names the exception class that would be thrown. */
module Wrappers {

  /** A value that may be absent: C#'s `null` reference. */
  datatype Option<+T> = None | Some(value: T)

  /** The .NET exception classes that the modelled code raises. */
  datatype Fault =
    | InvalidOperation   // System.InvalidOperationException
    | ProxyGeneration    // Castle.DynamicProxy.ProxyGenerationException
    | NotSupported       // System.NotSupportedException
    | Argument           // System.ArgumentException (also Dictionary.Add on a duplicate key)
    | ArgumentNull       // System.ArgumentNullException
    | NullReference      // System.NullReferenceException
    | IndexOutOfRange    // System.IndexOutOfRangeException
    | KeyNotFound        // System.Collections.Generic.KeyNotFoundException

  /** Either a computed value or the exception that aborted the computation. */
  datatype Result<+T> = Ok(value: T) | Err(fault: Fault) {
    predicate IsFailure() {
      Err?
    }

    function PropagateFailure<U>(): Result<U>
      requires Err?
    {
      Err(fault)
    }

    function Extract(): T
      requires Ok?
    {
      value
    }
  }
}
